=== FILE: README.md ===
# Product catalog generator, modelled in Dafny

The product catalog generator turns a product page into an editable, exportable catalog. A user gives a product URL and either some images or a request for automatic stock images. The server then:

- scrapes the page with a headless browser for its title, description, price, specifications and images;
- asks a language model for marketing copy and normalises the reply;
- collects images, either stock images or the user's uploads.

The browser app walks the user through a four-step wizard: input, generation, editor and export. In the editor the user changes content fields, the layout, the image list and content blocks. The export routes lay the catalog out as a one-page PDF or as a DOCX document.

This project models that core as pure functions over immutable datatypes, and a few methods where the source loops:

- `Types` holds the shared records: the product, the generated content, the catalog, content blocks, the colour and layout unions and the mock catalog.
- `Dict` holds JavaScript's plain objects in insertion order, used for specifications.
- `Str` and `Seqs` hold the string and array built-ins the code relies on: trim, split, join, `indexOf`, splice-like removal and slicing.
- `Scraper` (`server/routes/scraper.js`) models navigation with retries, the selector searches, image filtering, specification extraction and the cleaned response.
- `Ai` (`server/routes/ai.js`) models request validation, the JSON span taken from the model's reply, the fallback content, normalisation of the generated content and the suggestion route.
- `Wrap`, `ExportRequest`, `PdfLayout` and `DocxLayout` (`server/routes/export.js`) model:
  - the word wrapper;
  - request defaults, the palette and the download name;
  - the PDF page's drawing list;
  - the DOCX paragraph list.
- `Images` (`server/routes/images.js`) models stock search validation and results, the upload checks and file records, and the optimised file name.
- `ProductInput`, `App`, `Generation`, `CatalogEditor`, `EditorPanel` and `BlockEditor` model the React components of the same names as state transitions. `Generation` models `ContentGeneration.tsx`.

The model treats several outside things as parameters:

- the web page is a DOM value with total selector functions;
- `JSON.parse` is a partial function `string -> Option<T>`;
- the language model's reply is a `Result<string>`;
- the URL constructor is a predicate;
- the remote calls the generation pipeline makes are total functions that either return or throw;
- the clock is a string or a number passed in.
- the validation middleware `validateRequest` (middleware/validation.js is not part of this model) is taken to replace the request body with Joi's validated value, defaults filled in, and to let keys outside the schema through; "## Left out" says what changes otherwise.

A few facts shape the model:

- Each wait for a remote call in the pipeline is a point where the screen can show a snapshot: step, progress and error.
- The model follows scraper.js:146. If every image a selector matches is filtered out, the search goes on to the next selector. Only a selector that yields at least one usable image ends the search.
- The word wrapper compares the line and the next word without the joining space (export.js:424). A line of several words can therefore be one character longer than the limit. `Wrap.WrapLines` states exactly that bound.

## Model

| member | source | states |
|---|---|---|
| Str.Trim | server/routes/scraper.js:128 | `trim` leaves a result no longer than the input that starts and ends with a non-space, and is empty exactly when the input is all white space |
| Str.TrimSlice | server/routes/scraper.js:128 | the trim is an infix of the input with only white space before and after it |
| Str.TrimUnique | server/routes/scraper.js:128 | the trim is the only such infix: whenever a string is white space, then a non-empty infix that starts and ends with a non-space, then white space, that infix is the trim |
| Str.TrimOfTrimmed | server/routes/scraper.js:159-160 | a string is its own trim exactly when it neither starts nor ends with white space |
| Str.TrimIdempotent | server/routes/scraper.js:173-177 | trimming a trimmed string changes nothing, so the second trim of a spec value is harmless |
| Str.Split | server/routes/scraper.js:175 | `split` on a character gives at least one part; no part contains the separator; joining the parts with the separator gives the input back |
| Str.SplitAtFirst | server/routes/scraper.js:175-176 | the first part of a split ends at the first separator, and joining the remaining parts rebuilds the text after it |
| Str.IndexOf | server/routes/scraper.js:174 | finds the first occurrence of a character, and finds none exactly when the character is absent |
| Str.NatToStringInjective | src/components/EditorPanel.tsx:39-47 | different numbers print differently, so the generated spec names `New Spec N` never collide |
| Str.OrElse | server/routes/ai.js:151-152 | `a \|\| b` on an optional string: the string when it is non-empty, the fallback otherwise |
| Seqs.Take | server/routes/scraper.js:148 | `slice(0, n)` keeps a prefix of length `min(n, length)` |
| Seqs.RemoveAtOnly | src/components/EditorPanel.tsx:33-37 | filtering out one index removes exactly that element when the index is in range, and changes nothing otherwise |
| Seqs.SetAtOnly | src/components/EditorPanel.tsx:21-25 | assigning one index of a copied array replaces exactly that element, and nothing past the end |
| Dict.Put | src/components/ContentBlockEditor.tsx:185 | assigning a key sets its value; an existing key keeps its place, and a new key goes last; well-formedness is kept |
| Dict.Remove | src/components/EditorPanel.tsx:58-62 | `delete` drops the key and its place in the order, and leaves every other key in order |
| Dict.Spread | server/routes/ai.js:153-156 | `{...a, ...b}`: the values of `b` win; the order is the keys of `a` in their order, then the keys of `b` that `a` lacks, in `b`'s order; the result is well formed |
| Dict.SpreadDisjoint | server/routes/ai.js:153-156 | when `a` and `b` share no key, the spread lists all of `a`'s keys and then all of `b`'s |
| Dict.Assign | server/routes/scraper.js:163 | writing a run of key/value pairs into an object: the last value written for a key wins, and the existing keys keep their order at the front |
| Dict.AssignOrder | server/routes/scraper.js:163 | after the writes, the order is the old keys, then each newly written key once, at its first write |
| Dict.LastWinsOfEntries | server/routes/export.js:166 | rebuilding an object from its own entries gives back the same object |
| Types.ParseColorScheme | src/types/index.ts:48 | reads only the four colour scheme names |
| Types.ColorSchemeRoundTrip | src/types/index.ts:48 | every colour scheme's name reads back as that scheme |
| Types.BlockTypesAreEight | src/types/index.ts:212-220 | there are exactly eight distinct content block types, and the list holds each of them |
| Types.MarkerAt | src/components/ContentGeneration.tsx:174-177 | a row is completed, active or pending exactly when its index is below, at or above the current one |
| Types.MockBlocks | src/types/index.ts:129-203 | the mock catalog has seven blocks: the gallery shows the mock images, then the title and description blocks show the mock texts |
| Types.MockCatalog | src/types/index.ts:62-204 | the mock catalog's product repeats the generated title and specifications, and its blocks are the mock blocks |
| Types.MockCatalogConsistent | src/types/index.ts:109-203 | the mock images sit at positions 0, 1, 2 in order, and the gallery block shows the same images as the catalog |
| Wrap.WrapLines | server/routes/export.js:417-440 | every wrapped line is non-empty; a line holding several words is at most one character over the limit |
| Wrap.WrapEmpty | server/routes/export.js:417-440 | an empty text wraps to no lines |
| Wrap.PackJoins | server/routes/export.js:422-433 | each pass of the packing loop only decides where line breaks go: the joined output grows by exactly the words packed |
| Wrap.WrapRoundTrip | server/routes/export.js:417-440 | when no word is empty, joining the wrapped lines with spaces gives the text back |
| ExportRequest.ParseFormat | server/routes/export.js:33 | only `pdf` and `docx` are formats |
| ExportRequest.ParseQuality | server/routes/export.js:34 | only `standard`, `high` and `print` are qualities |
| ExportRequest.DefaultOptions | server/routes/export.js:35-40 | in a sent `options` object each include flag is true unless it was sent as false; with no `options` at all the literal default `{}` leaves every flag undefined, so every flag is off |
| ExportRequest.EmptyOptionsDiffer | server/routes/export.js:35-40 | sending `options: {}` turns every section on, while leaving `options` out turns every section off |
| ExportRequest.ValidateSettings | server/routes/export.js:33-40 | the settings part of a request is accepted exactly when its format is valid and any quality sent is valid; quality defaults to high, and the options to their defaults |
| ExportRequest.ValidateExport | server/routes/export.js:15-41 | a whole export request is accepted exactly when the generated content's title, description, features and benefits are all non-empty strings and the settings are accepted; the accepted settings are the validated ones |
| ExportRequest.EmptyItemRefused | server/routes/export.js:22-23 | an export whose features or benefits hold an empty item is refused, whatever its settings |
| ExportRequest.PaletteOf | server/routes/export.js:56-63 | a known scheme name gets its own palette; any other name that is not an inherited object property gets the blue one |
| ExportRequest.PalettesDistinct | server/routes/export.js:56-61 | the four schemes have different primary colours |
| ExportRequest.Sanitize | server/routes/export.js:210 | the download stem has the title's length; each ASCII letter or digit is kept and every other character becomes `-` |
| ExportRequest.SanitizeIdempotent | server/routes/export.js:210 | the stem holds only ASCII letters, digits and `-`, so sanitising it again changes nothing |
| ExportRequest.SanitizeKeepsAlnum | server/routes/export.js:210 | a title made only of ASCII letters and digits is its own stem |
| ExportRequest.DownloadName | server/routes/export.js:210 | the download name is the sanitised title followed by `.pdf` or `.docx` |
| PdfLayout.Bullets | server/routes/export.js:139-149 | each feature is drawn once, in order, behind a bullet |
| PdfLayout.BodyBetweenHeaderAndFooter | server/routes/export.js:66-204 | the anchor of every body draw call lies strictly below the header band and above the footer, and each anchor is below the previous one |
| PdfLayout.PageShows | server/routes/export.js:99-187 | the page shows the first eight lines of the description wrapped at 70, the first six features as bullets when features are included and present, and the values of the first eight specification entries when specs are included and present |
| PdfLayout.SpecsShow | server/routes/export.js:155-187 | the spec section draws the values of the first eight entries, in key order, in the value column, and draws nothing when specs are excluded or empty |
| PdfLayout.TextsInSpecRows | server/routes/export.js:166-186 | each spec row draws its key followed by `:` in bold at x 60, and its value at x 200 |
| PdfLayout.BenefitsNeverDrawn | server/routes/export.js:44-205 | the PDF page does not depend on the benefits or on the include-images and include-benefits flags |
| PdfLayout.HeaderColour | server/routes/export.js:63-161 | the header band and every section heading are drawn in the chosen scheme's primary colour, and in blue's for any other name that is not an inherited object property; the overview heading opens the body |
| DocxLayout.DocxCount | server/routes/export.js:235-392 | the DOCX has five fixed paragraphs plus, for each included section, a heading and one paragraph per item |
| DocxLayout.HeadingsApart | server/routes/export.js:292-376 | each section heading appears nowhere else in the document |
| DocxLayout.FeaturesRecovered | server/routes/export.js:292-318 | reading the paragraphs after the features heading gives back exactly the features, and there is no such heading when features are excluded |
| DocxLayout.SpecsRecovered | server/routes/export.js:319-350 | reading after the specifications heading gives back every specification entry in order, and there is no such heading when specs are excluded |
| DocxLayout.BenefitsRecovered | server/routes/export.js:351-376 | reading after the benefits heading gives back exactly the benefits, and there is no such heading when benefits are excluded |
| Scraper.NavigateWithRetry | server/routes/scraper.js:14-33 | navigation stops at the first attempt that loads, after only failed attempts; it gives up after `retries + 1` failures with the last error |
| Scraper.VisibleText | server/routes/scraper.js:128 | an element's text is its trimmed text content when that is non-empty, and its trimmed inner text otherwise |
| Scraper.VisibleTextEmpty | server/routes/scraper.js:128 | an element shows no text exactly when both its text content and its inner text are all white space |
| Scraper.TextFromSelectors | server/routes/scraper.js:124-132 | the text comes from the first element of the first selector that matches anything; there is none exactly when no selector matches |
| Scraper.FirstMatchShift | server/routes/scraper.js:125-131 | the selector loop's result satisfies the first-match contract |
| Scraper.KeptImages | server/routes/scraper.js:138-145 | an element is kept exactly when it has a `src` without `data:image`; each kept image is usable and none is lost |
| Scraper.KeptImagesFrom | server/routes/scraper.js:138-145 | every kept image is the image of a keepable element, so nothing is invented |
| Scraper.KeptImagesAppend | server/routes/scraper.js:138-145 | the filter works element by element: filtering two runs of elements one after the other gives the two filtered runs in that order |
| Scraper.AsPageImage | server/routes/scraper.js:140-143 | an image keeps its `src`, and its alt text defaults to `Product image` |
| Scraper.ImagesFromSelectors | server/routes/scraper.js:134-149 | the images are the usable ones of the first selector that yields any, capped at ten |
| Scraper.RowEntry | server/routes/scraper.js:157-163 | a row with fewer than two cells gives nothing; otherwise its entry is the trimmed texts of its first two cells exactly when they are a non-empty key under 50 characters and a non-empty value under 200, and nothing otherwise |
| Scraper.RowEntriesAppend | server/routes/scraper.js:154-166 | rows are read one by one in document order: the entries of two runs of rows are the entries of the first run, then those of the second |
| Scraper.RowEntriesOne | server/routes/scraper.js:156-164 | a single row gives its own entry, or nothing |
| Scraper.ItemEntriesAppend | server/routes/scraper.js:169-180 | list items are read one by one in document order: the entries of two runs of items are the entries of the first run, then those of the second |
| Scraper.ItemEntryAtFirstColon | server/routes/scraper.js:173-180 | a list item splits at its first colon; the value is the rest, trimmed, and the key is trimmed; both length limits apply |
| Scraper.ExtractSpecifications | server/routes/scraper.js:151-185 | the specs are the table entries overlaid by the list entries, last write wins; every entry satisfies the length limits |
| Scraper.GoodEntriesKept | server/routes/scraper.js:162-178 | overlaying two objects whose entries satisfy the limits keeps every entry within them |
| Scraper.ListEntriesWin | server/routes/scraper.js:169-182 | a key that a list item defines takes the list's value over the table's |
| Scraper.Extract | server/routes/scraper.js:84-195 | the in-page extraction finds title, description and price by their selector lists, the specs, the first ten usable images and the page location |
| Scraper.Clean | server/routes/scraper.js:198-206 | the cleaned data falls back to `Product Title` and `Product description not available`; price is kept only when truthy; specs, images and url pass through, stamped with the time |
| Scraper.Scrape | server/routes/scraper.js:35-229 | the route fails with the navigation error exactly when all four attempts fail; otherwise it answers with the page's url, the specs and at most ten images |
| Ai.ValidateOptions | server/routes/ai.js:24-32 | options are accepted exactly when any tone and length sent are valid; the defaults are professional, medium and both includes true |
| Ai.WordRange | server/routes/ai.js:66-70 | short, medium and long ask for 100-200, 200-400 and 400-600 words, each range for exactly one length |
| Ai.ValidateRequestOptions | server/routes/ai.js:24-32 | a sent `options` object is accepted and validated exactly as its fields are; a missing one is accepted as the literal `{}`, with no field filled in |
| Ai.PromptWordRange | server/routes/ai.js:66-70 | the prompt's conditional gives the range of the validated length, and 400-600 words when the length is undefined |
| Ai.MissingOptionsAskLong | server/routes/ai.js:24-32 | an empty `options` object asks for 200-400 words, while a request with no `options` asks for 400-600 |
| Ai.JsonSpan | server/routes/ai.js:116 | the regex takes the first `{` to the last `}`, and matches nothing exactly when no `}` follows a `{` |
| Ai.JsonSpanOfObject | server/routes/ai.js:116 | a reply that is a bare object is taken whole |
| Ai.Fallback | server/routes/ai.js:125-145 | the fallback keeps the product's specifications and supplies five features, four benefits and four keywords |
| Ai.Interpret | server/routes/ai.js:113-146 | the parsed object is used when a span exists and parses; otherwise the fallback is used |
| Ai.Normalise | server/routes/ai.js:150-169 | the cleaned content holds at most 8 features, 6 benefits and 12 keywords, a non-empty category and audience, well-formed specs and the generation time |
| Ai.NormaliseFields | server/routes/ai.js:150-169 | each cleaned field is the generated one when it is present and truthy, and the product's or the fixed default otherwise |
| Ai.NormaliseStable | server/routes/ai.js:150-169 | normalising already cleaned content again changes none of its fields |
| Ai.GeneratedSpecsWin | server/routes/ai.js:153-156 | the generated value wins for a key both sides define; a product-only key keeps its value; no other key appears |
| Ai.FallbackContent | server/routes/ai.js:113-169 | an unparseable reply yields the product's title, description and specs with the fixed fallback lists, category and audience |
| Ai.GenerateContent | server/routes/ai.js:98-189 | the route fails with `Failed to generate AI content` exactly when the model call fails; otherwise it answers with the normalised interpretation |
| Ai.Suggest | server/routes/ai.js:228-243 | suggestions are the empty answer when, and only when, there is no JSON span (a span that parses to `{}` is the parsed case), the fixed advice exactly when the span does not parse, and the parsed object otherwise |
| Ai.FixedOf | server/routes/ai.js:234-241 | the fixed advice is the one-line suggestion list of each kind |
| EditorPanel.EditItem | src/components/EditorPanel.tsx:21-25 | editing feature `i` replaces that feature only |
| EditorPanel.AddItem | src/components/EditorPanel.tsx:27-31 | adding a feature appends one empty feature |
| EditorPanel.RemoveItem | src/components/EditorPanel.tsx:33-37 | removing a feature deletes exactly that one |
| EditorPanel.AddThenRemoveItem | src/components/EditorPanel.tsx:27-37 | removing the feature just added restores the list |
| EditorPanel.AddSpecification | src/components/EditorPanel.tsx:39-47 | a new spec gets the first name `New Spec N` not yet used, with an empty value, appended last; every lower-numbered name was taken |
| EditorPanel.ChangeSpecification | src/components/EditorPanel.tsx:49-56 | a rename drops the old key, and the new key gets the new value |
| EditorPanel.ChangeSpecificationFrame | src/components/EditorPanel.tsx:49-56 | no other key changes; a rename to a fresh key moves it to the end, and an edit in place keeps the order |
| EditorPanel.RenameBack | src/components/EditorPanel.tsx:49-56 | renaming a key to a fresh name and back restores the specifications |
| EditorPanel.RemoveSpecification | src/components/EditorPanel.tsx:58-62 | removing a spec drops exactly that key and keeps the other values |
| EditorPanel.ChangeThenRemove | src/components/EditorPanel.tsx:49-62 | setting a key's value and then removing the key leaves the same values as removing it alone; for a key that was not there, the original values |
| EditorPanel.ReplaceImage | src/components/EditorPanel.tsx:340-351 | replacing image `i` changes only its url and alt; its id and position stay |
| EditorPanel.ReplaceKeepsPositions | src/components/EditorPanel.tsx:340-351 | replacing an image keeps the positions consistent |
| EditorPanel.RemoveImage | src/components/EditorPanel.tsx:356-359 | removing image `i` deletes exactly that entry; the images after it move up one place but keep their old positions |
| EditorPanel.RemoveLeavesGap | src/components/EditorPanel.tsx:356-359 | removing any image but the last leaves positions unrenumbered, so they no longer match the indices |
| EditorPanel.AddImage | src/components/EditorPanel.tsx:364-386 | while there are fewer than 15 images, adding appends one at the next position with id `<time>-<name>`, keeping positions consistent |
| EditorPanel.AddThenRemoveImage | src/components/EditorPanel.tsx:364-386 | removing the image just added restores the list |
| BlockEditor.Apply | src/components/ContentBlockEditor.tsx:15-31 | an update never changes a block's id or type |
| BlockEditor.ContentChangeOnly | src/components/ContentBlockEditor.tsx:15-22 | a content change sets its own field and leaves the other fields and the settings alone |
| BlockEditor.ContentChangeSame | src/components/ContentBlockEditor.tsx:15-22 | writing back a field's current value changes nothing |
| BlockEditor.SettingChangeOnly | src/components/ContentBlockEditor.tsx:24-31 | a setting change sets its own setting, keeps the others, and leaves the content alone |
| BlockEditor.ShownColumns | src/components/ContentBlockEditor.tsx:70 | the column input shows the chosen count, or 3 when none or 0 is set |
| BlockEditor.ColumnsChosen | src/components/ContentBlockEditor.tsx:70-71 | after choosing a non-zero column count, the input shows that count |
| BlockEditor.GalleryAdd | src/components/ContentBlockEditor.tsx:92-113 | the add control exists exactly while the gallery has fewer than 15 images; an added image goes last at the next position |
| BlockEditor.GalleryRemove | src/components/ContentBlockEditor.tsx:85-88 | removing a gallery image deletes exactly that one and keeps the settings |
| BlockEditor.EditListItem | src/components/ContentBlockEditor.tsx:133-137 | editing list item `i` replaces that item only |
| BlockEditor.RemoveListItem | src/components/ContentBlockEditor.tsx:143-146 | removing list item `i` deletes exactly that one |
| BlockEditor.AddListItem | src/components/ContentBlockEditor.tsx:122-153 | adding appends an empty item, to an empty list when the block had none |
| BlockEditor.RenameSpecKeyMoves | src/components/ContentBlockEditor.tsx:169-177 | renaming a block spec moves its value to the new key; an existing key of that name is overwritten; nothing else changes |
| BlockEditor.RenameAgreesWithPanel | src/components/ContentBlockEditor.tsx:169-177 | the block editor's rename agrees with the editor panel's rename that keeps the value |
| BlockEditor.SetSpecValue | src/components/ContentBlockEditor.tsx:184-187 | editing a block spec's value sets it and keeps the other keys; an existing key keeps its place |
| BlockEditor.RemoveSpec | src/components/ContentBlockEditor.tsx:193-197 | removing a block spec drops exactly that key |
| BlockEditor.AddSpec | src/components/ContentBlockEditor.tsx:204 | adding a spec writes an empty key with an empty value, at the end when it is new and in place otherwise; every other key keeps its value |
| BlockEditor.AddSpecTwice | src/components/ContentBlockEditor.tsx:204 | a second add changes nothing more |
| BlockEditor.AddSpecThenRemove | src/components/ContentBlockEditor.tsx:193-204 | removing the empty spec just added restores the specs |
| ProductInput.ImageFiles | src/components/ProductInput.tsx:43-46 | exactly the png, jpeg and webp files are kept, and nothing else |
| ProductInput.ImageFilesAppend | src/components/ProductInput.tsx:43-46 | the filter works file by file: filtering two runs of files one after the other gives the two filtered runs in that order |
| ProductInput.ImageFilesIdempotent | src/components/ProductInput.tsx:43-46 | filtering files that were already filtered keeps them all |
| ProductInput.AddFiles | src/components/ProductInput.tsx:48-54 | adding files beyond a total of 15 only sets the error; otherwise the images are appended and the error cleared |
| ProductInput.RemoveImage | src/components/ProductInput.tsx:73-75 | removing image `i` deletes exactly that one and touches nothing else |
| ProductInput.EditsKeepInv | src/components/ProductInput.tsx:48-75 | adding and removing keep the form at 15 images or fewer |
| ProductInput.Submit | src/components/ProductInput.tsx:77-101 | the URL error is `required` for a blank URL and `invalid` for one that fails the check; the images error needs no images and no automatic search; the product is submitted exactly when neither error is set |
| ProductInput.SubmitUrlChecked | src/components/ProductInput.tsx:18-25 | a submitted URL is not blank and starts with `http://` or `https://` |
| ProductInput.SubmitForgetsOldErrors | src/components/ProductInput.tsx:80-92 | earlier errors do not affect a submit, and submitting twice gives the same result |
| CatalogEditor.ContentChange | src/components/CatalogEditor.tsx:22-34 | a content edit writes the value into both the product and the generated content under its field; nothing else changes |
| CatalogEditor.ContentChangeLastWins | src/components/CatalogEditor.tsx:22-34 | a second edit of the same field overwrites the first |
| CatalogEditor.ContentChangesCommute | src/components/CatalogEditor.tsx:22-34 | edits of different fields can be applied in either order |
| CatalogEditor.LayoutChange | src/components/CatalogEditor.tsx:36-44 | a layout edit sets one of theme, colour scheme and typography, and keeps the rest of the catalog |
| CatalogEditor.LayoutChangeSame | src/components/CatalogEditor.tsx:36-44 | choosing the current theme, scheme or typography changes nothing |
| CatalogEditor.Apply | src/components/CatalogEditor.tsx:46-51 | a reorder stores the image list and keeps everything else; no change touches the content blocks |
| CatalogEditor.SaveUntouched | src/components/CatalogEditor.tsx:15-55 | opening the editor and saving at once hands the catalog back unchanged |
| CatalogEditor.EditedFieldsAgree | src/components/CatalogEditor.tsx:22-51 | after any run of changes, each field that was edited reads the same in the product and the generated content, and a field that already matched still does |
| CatalogEditor.ContentOnlyKeepsLayout | src/components/CatalogEditor.tsx:22-51 | a run without layout edits keeps the layout |
| CatalogEditor.BlocksUntouched | src/components/CatalogEditor.tsx:22-51 | no run of editor changes alters the content blocks |
| App.StepIndex | src/App.tsx:19-26 | each step has a place in the four-step list |
| App.Progress | src/App.tsx:27 | the progress bar shows `(index + 1) / 4` of 100, from 25 to 100 |
| App.Next | src/App.tsx:29-95 | submitting stores the product and marks the form busy, and the delay's end moves to generation; generation and editing results are stored and move on; back from the editor goes to generation and back from export to the editor, changing nothing else; starting over is the initial state, and only it forgets the product |
| App.NextKeepsInv | src/App.tsx:29-102 | every handler the shown component can raise keeps the wizard consistent: past input there is a product, and in editor and export there is a catalog |
| App.RunKeepsInv | src/App.tsx:29-102 | any run of raisable events keeps the wizard consistent |
| App.ReachableNeverBlank | src/App.tsx:77-102 | every reachable state shows the component of its step and never a blank page |
| App.ForwardProgress | src/App.tsx:27-47 | each forward step moves the progress bar on by 25 |
| App.StartOverResets | src/App.tsx:54-59 | starting over returns to the first state and shows an idle form |
| App.BackAndSaveAgain | src/App.tsx:50-102 | going back from export shows the editor on the same catalog, and saving again returns to export with the new catalog |
| Images.ParseOrientation | server/routes/images.js:45 | only landscape, portrait and squarish are orientations, each read back under its own name |
| Images.ValidateSearch | server/routes/images.js:42-46 | a search is accepted exactly when the query is 2 to 100 characters, any count sent is 1 to 15, and any orientation sent is valid; the defaults are 6 and landscape |
| Images.Search | server/routes/images.js:113-164 | the search returns the first `min(count, 6)` curated images, in order, stamped with the query and orientation |
| Images.SearchPrefix | server/routes/images.js:159 | asking for fewer images gives a prefix of the longer answer |
| Images.DefaultSearchGivesAll | server/routes/images.js:44-159 | a default search accepts any valid query and returns all six curated images as landscape |
| Images.Describe | server/routes/images.js:61-85 | an upload is stored as `<stamp>.webp` under `/uploads/`, keeps its original name, and its id, which holds no dot, is a prefix of the file name |
| Images.IdLocatesFile | server/routes/images.js:77-85 | for a stamp without a dot, the id plus `.webp` is the stored file name, so deleting by id finds the file |
| Images.FirstProblem | server/routes/images.js:26-39 | a batch passes multer's count and type checks exactly when it has at most 15 files, all of allowed types; a problem is too many files or a bad type |
| Images.UploadFiles | server/routes/images.js:26-92 | an upload of files within the size limit that Sharp can decode succeeds exactly when it has 1 to 15 files of allowed types; no files gives a 400 answer; each file gets its own record, in order |
| Images.UploadedRecords | server/routes/images.js:76-85 | each uploaded record keeps its original name, is served from `/uploads/` and is webp |
| Images.OptimisedNameShape | server/routes/images.js:188-192 | the optimised name starts with the id and a dash, and ends with the chosen format's extension |
| Images.OptimisedNameDefaults | server/routes/images.js:188-192 | an absent quality and format mean 85 and webp |
| Images.OptimisedNeverOriginal | server/routes/images.js:191-192 | the optimised file never overwrites the original |
| Generation.StatusOf | src/components/ContentGeneration.tsx:174-177 | a pipeline row is completed, active or pending exactly when it comes before, at or after the current step |
| Generation.FromStock | src/components/ContentGeneration.tsx:64-69 | stock images become catalog images in order, positioned by index |
| Generation.FromUploads | src/components/ContentGeneration.tsx:74-79 | uploads become catalog images in order, served from the server origin and positioned by index |
| Generation.StockRequest | src/components/ContentGeneration.tsx:58-62 | the stock search asks for 6 landscape images of the generated category, or of the scraped title when the category is empty |
| Generation.SourceFor | src/components/ContentGeneration.tsx:56-81 | automatic images mean a stock search; otherwise any files are uploaded; otherwise there are no images |
| Generation.GatherImages | src/components/ContentGeneration.tsx:54-81 | the images are the mapped answer of the chosen call, or its error; no source gives no images |
| Generation.MergeScraped | src/components/ContentGeneration.tsx:88-91 | the scraped fields override the submitted product's, and the product's own flags remain |
| Generation.Assemble | src/components/ContentGeneration.tsx:87-99 | the catalog is the merged product, the generated content, the modern/blue/sans layout and the gathered images |
| Generation.SuccessfulRun | src/components/ContentGeneration.tsx:26-102 | the run delivers a catalog exactly when every call returns; the progress then rises 10, 35, (70), 100 to complete, and the images are positioned |
| Generation.FailedRun | src/components/ContentGeneration.tsx:104-108 | a run that throws ends with progress 0 and an error, after a rising sequence of error-free snapshots |
| Generation.ScrapeFailure | src/components/ContentGeneration.tsx:31-108 | a failed scrape shows its message, or the generic one, at the scraping step and delivers nothing |
| Generation.DeliveredCatalog | src/components/ContentGeneration.tsx:41-101 | a delivered catalog carries the generated content for the scraped data and the merged product |
| Generation.AutomaticImages | src/components/ContentGeneration.tsx:56-69 | with automatic images, the delivered images are the stock search's answer for the category or title |
| Generation.NoImagesChosen | src/components/ContentGeneration.tsx:70-81 | with no files and no automatic search, the images are empty, and the run needs only the scrape and generation calls |

## Left out

- Browser, file system and network: puppeteer, Sharp image processing and metadata, the upload directory and the OpenAI call are left out. The page, the model's reply and the upload's stamp are parameters of the model; Sharp's outcome is not (see `Images.UploadFiles` below).
- Timers: the 1500 ms wizard delay, the 1000 ms pipeline pause and the 2 s wait between navigation retries are left out. The wizard delay is a separate event.
- React state batching and re-rendering are left out. The pipeline's screen is modelled as the snapshots visible at each await.
- PDF and DOCX rendering beyond the drawing list and paragraph list is left out: fonts' metrics, text runs' styling, colours other than the palette, byte encoding.
- The parent component that merges a content block's partial update is left out. `BlockEditor.Apply` merges the partial shallowly into the block.
- Specification values that are not strings are left out. `value.toString()` in export.js:176 is the identity here.
- String lengths count characters, not UTF-16 code units.
- Assigning an array index past the end is left out. JavaScript would extend the array; `Seqs.SetAt` leaves it unchanged there.
- Joi's type conversion is left out: numeric strings become numbers, and non-integer counts are rejected.
- The validation middleware's error response body is left out, because middleware/validation.js is not part of this model. Validation is modelled as `Ok` or an error string.
- Multer's own error response for more than 15 files carries no message in the model (`TooManyFiles`).
- The delete route is left out except for `Images.IdLocatesFile`, which states that deleting by id finds the stored file. The optimise route is left out except for its file name.
- The suggest-improvements route's prompt and model call are left out. Only the interpretation of the reply (`Ai.Suggest`) is modelled.
- `Math.random` in the stored upload name is part of the stamp parameter of `Images.Describe`.
- Scraper.Scrape: its contract states the url, time stamp, specifications and image cap of the answer. The title, description and price are stated by `Scraper.Extract` and `Scraper.Clean`, which it composes.
- Wrap.WrapRoundTrip: holds only when no word is empty. A leading, trailing or doubled space is dropped by the wrapper, so the round trip fails there as the code does.
- Generation.SuccessfulRun: states the ordering and end points of the progress snapshots. The exact snapshot list is stated by `Generation.RunGeneration`'s own definition.
- ExportRequest.PaletteOf: names of inherited object properties such as `toString` or `constructor` are not modelled. In the source they find an inherited function in `colorSchemes`, so `colors` is that function and `colors.primary` is undefined; the model gives them blue like any other unknown name.
- PdfLayout.HeaderColour: as for `ExportRequest.PaletteOf`, an inherited property name as colour scheme is not modelled.
- Integer-like keys are not modelled. JavaScript lists keys such as `"1"` or `"42"` first, in numeric order, before the others; `Dict` keeps every key in insertion order. This affects which entries `Object.entries` yields first in export.js:166 and export.js:332.
- Line breaking for `maxWidth` is not modelled (export.js:87, export.js:146, export.js:182). pdf-lib breaks a long title, feature or value over several lines below the anchor; the model records each draw call's anchor only.
- Images.UploadFiles: the 10 MB per-file limit (`limits.fileSize`, images.js:29) and Sharp failures are not modelled. Multer rejects an oversized file before the handler runs, and a file Sharp cannot decode throws inside the loop (images.js:65-74), so the route answers 500 "Failed to process images" (images.js:95-102). The model has no file sizes or decode outcome, so every batch that passes the count and type checks succeeds.
- Images.FirstProblem: checks only the count and type limits of the multer configuration (images.js:26-39); its `fileSize` limit is left out, as for `Images.UploadFiles`.
- Assignment to the key `__proto__` is not modelled. In JavaScript `obj[k] = v` with `k` equal to `"__proto__"` and a string `v` calls the inherited `__proto__` setter, which ignores a non-object, so no own key is created. The model treats `__proto__` like any other key. The computed key of an object literal (ContentBlockEditor.tsx:185, `Dict.Put` there) does define an own property, so it is not affected.
- Dict.Assign: a specification row or list item keyed `__proto__` is dropped by the source (scraper.js:163, scraper.js:178); the model keeps it.
- EditorPanel.ChangeSpecification: a rename to `__proto__` loses the entry in the source (EditorPanel.tsx:52-54); the model moves it to that key.
- BlockEditor.RenameSpecKey: a rename to `__proto__` loses the entry in the source (ContentBlockEditor.tsx:173-174); the model moves it to that key.
- BlockEditor.RenameSpecKeyMoves: promises the move for every new key, including `__proto__`, where the source loses the entry as for `BlockEditor.RenameSpecKey`.
- Request defaults assume that `validateRequest` writes Joi's validated value back to the request body; middleware/validation.js is not part of this model. Without that write-back, absent flags in a sent export `options` object would read as `undefined` and exclude their sections (export.js:45, export.js:128, export.js:155), and an absent length in a sent AI `options` object would ask for 400-600 words rather than 200-400 (ai.js:39, ai.js:66-70). A missing `options` object is modelled as its literal default `{}` (`ExportRequest.DefaultOptions`, `Ai.ValidateRequestOptions`). This concerns `ExportRequest.DefaultOptions`, `ExportRequest.ValidateSettings`, `Ai.ValidateOptions` and `Images.ValidateSearch`.
- Ai.ValidateRequestOptions: with no `options` object the prompt also shows `undefined` for the tone and both switches (ai.js:56-59). The prompt text is left out; the model records only that the options are absent and the word range that gives.
- ExportRequest.ValidateExport: Joi's error message and its abort-early order are left out, and so is the product's `Joi.object()` rule, the specifications' object rule and the layout's and images' rules, which the model's types always meet.
- Unknown keys are not checked. The model assumes `validateRequest` lets keys outside a Joi schema through; with Joi's default rule it would reject the `images` and `scrapedAt` keys the client sends inside `productData` (ContentGeneration.tsx:41, scraper.js:198-206, ai.js:17-23). In the same way the export schema lists no `keywords`, `category`, `targetAudience`, `generatedAt` or `price` key in `generatedContent` (export.js:18-24), which the generated content carries.
- Encoding failures are not modelled. The standard PDF fonts cannot encode characters outside WinAnsi, so pdf-lib throws and the route answers 500 (export.js:217-224); the model draws any text.

=== FILE: ai.dfy ===
/**
 * The AI route's handling of a model reply: the JSON object is cut out of
 * the reply text, parsed, replaced by a fixed fallback when either step
 * fails, and normalised field by field. The model call and `JSON.parse`
 * are parameters: the reply is given as a `Result`, and the parser as a
 * function that yields `None` where `JSON.parse` throws.
 */
module Ai {
  import opened Wrappers
  import opened Str
  import opened Dict
  import opened Types
  import opened Seqs

  // ---------------------------------------------------------------------
  // Request options
  // ---------------------------------------------------------------------

  datatype Tone = Professional | Casual | Technical
  datatype Length = Short | Medium | Long

  datatype AiOptions = AiOptions(tone: Tone, length: Length, includeFeatures: bool, includeBenefits: bool)

  function ParseTone(s: string): (r: Option<Tone>)
    ensures r.Some? <==> s == "professional" || s == "casual" || s == "technical"
  {
    if s == "professional" then Some(Professional)
    else if s == "casual" then Some(Casual)
    else if s == "technical" then Some(Technical)
    else None
  }

  function ParseLength(s: string): (r: Option<Length>)
    ensures r.Some? <==> s == "short" || s == "medium" || s == "long"
  {
    if s == "short" then Some(Short)
    else if s == "medium" then Some(Medium)
    else if s == "long" then Some(Long)
    else None
  }

  /**
   * The `options` part of the request schema: tone and length must be one
   * of their values and default to professional and medium, the two
   * switches default to on.
   */
  function ValidateOptions(tone: Option<string>, length: Option<string>, includeFeatures: Option<bool>, includeBenefits: Option<bool>): (r: Result<AiOptions>)
    ensures r.Ok? <==> (tone.None? || ParseTone(tone.value).Some?) && (length.None? || ParseLength(length.value).Some?)
    ensures r.Ok? ==> r.value.tone == (if tone.None? then Professional else ParseTone(tone.value).value)
    ensures r.Ok? ==> r.value.length == (if length.None? then Medium else ParseLength(length.value).value)
    ensures r.Ok? ==> r.value.includeFeatures == (includeFeatures != Some(false))
    ensures r.Ok? ==> r.value.includeBenefits == (includeBenefits != Some(false))
  {
    var t := if tone.None? then Some(Professional) else ParseTone(tone.value);
    var l := if length.None? then Some(Medium) else ParseLength(length.value);
    if t.None? then Err("\"tone\" must be one of [professional, casual, technical]")
    else if l.None? then Err("\"length\" must be one of [short, medium, long]")
    else Ok(AiOptions(t.value, l.value, includeFeatures.GetOr(true), includeBenefits.GetOr(true)))
  }

  /** The word range the prompt asks the description to have. */
  function WordRange(length: Length): (r: string)
    ensures r == "100-200" <==> length == Short
    ensures r == "200-400" <==> length == Medium
    ensures r == "400-600" <==> length == Long
  {
    match length
    case Short => "100-200"
    case Medium => "200-400"
    case Long => "400-600"
  }

  /** The `options` object as sent: each field may be missing. */
  datatype SentAiOptions = SentAiOptions(tone: Option<string>, length: Option<string>, includeFeatures: Option<bool>, includeBenefits: Option<bool>)

  /**
   * The `options` key of the request: a sent object is validated field by
   * field; a missing one becomes the literal default `{}`, whose fields are
   * not filled in, shown here as `None`.
   */
  function ValidateRequestOptions(sent: Option<SentAiOptions>): (r: Result<Option<AiOptions>>)
    ensures sent.None? ==> r == Ok(None)
    ensures sent.Some? ==> (r.Ok? <==> ValidateOptions(sent.value.tone, sent.value.length, sent.value.includeFeatures, sent.value.includeBenefits).Ok?)
    ensures sent.Some? && r.Ok? ==> r.value == Some(ValidateOptions(sent.value.tone, sent.value.length, sent.value.includeFeatures, sent.value.includeBenefits).value)
  {
    match sent
    case None => Ok(None)
    case Some(o) =>
      match ValidateOptions(o.tone, o.length, o.includeFeatures, o.includeBenefits)
      case Ok(v) => Ok(Some(v))
      case Err(e) => Err(e)
  }

  /**
   * The range the prompt's conditional picks: a length that is neither
   * short nor medium, `undefined` included, asks for 400-600 words.
   */
  function PromptWordRange(options: Option<AiOptions>): (r: string)
    ensures options.Some? ==> r == WordRange(options.value.length)
    ensures options.None? ==> r == "400-600"
  {
    match options
    case None => "400-600"
    case Some(o) => WordRange(o.length)
  }

  /** An empty `options` object asks for the medium range; no `options` at all asks for the long one. */
  lemma MissingOptionsAskLong()
    ensures PromptWordRange(ValidateRequestOptions(Some(SentAiOptions(None, None, None, None))).value) == "200-400"
    ensures PromptWordRange(ValidateRequestOptions(None).value) == "400-600"
  {
  }

  // ---------------------------------------------------------------------
  // Cutting the JSON out of the reply
  // ---------------------------------------------------------------------

  /**
   * The match of `/\{[\s\S]*\}/`: from the first '{' to the last '}' when
   * that '}' comes after the '{'. It is the leftmost match and, among
   * those, the longest.
   */
  function JsonSpan(text: string): (r: Option<string>)
    ensures r.None? <==> !exists i, j :: 0 <= i < j < |text| && text[i] == '{' && text[j] == '}'
    ensures r.Some? ==> exists i, j :: (0 <= i < j < |text| && text[i] == '{' && text[j] == '}' && r.value == text[i..j + 1]
                                        && '{' !in text[..i] && '}' !in text[j + 1..])
  {
    match IndexOf(text, '{')
    case None => None
    case Some(i) =>
      match LastIndexOf(text, '}')
      case None => None
      case Some(j) =>
        if i < j then Some(text[i..j + 1]) else None
  }

  /** The span starts with '{' and ends with '}', and nothing of the reply outside it is a brace that could widen it. */
  lemma JsonSpanBraces(text: string)
    requires JsonSpan(text).Some?
    ensures var s := JsonSpan(text).value; |s| >= 2 && s[0] == '{' && s[|s| - 1] == '}'
  {
  }

  /** A reply that is a bare object, '{' first and '}' last, is taken whole. */
  lemma JsonSpanOfObject(text: string)
    requires |text| >= 2 && text[0] == '{' && text[|text| - 1] == '}'
    ensures JsonSpan(text) == Some(text)
  {
    IndexOfIs(text, '{', 0);
    assert text[0..|text|] == text;
  }

  // ---------------------------------------------------------------------
  // The parsed reply
  // ---------------------------------------------------------------------

  /**
   * The fields of the parsed object as the normalisation reads them. A
   * string field is `None` when it is missing or falsy; a list field is
   * `None` when it is not an array.
   */
  datatype Reply = Reply(
    title: Option<string>,
    description: Option<string>,
    specifications: Option<Dict>,
    features: Option<seq<string>>,
    benefits: Option<seq<string>>,
    keywords: Option<seq<string>>,
    category: Option<string>,
    targetAudience: Option<string>)

  /** The validated `productData` of the request. */
  datatype ProductRequest = ProductRequest(
    title: string,
    description: string,
    specifications: Dict,
    price: Option<string>,
    url: string)

  const FallbackFeatures: seq<string> := [
    "High-quality construction and materials",
    "User-friendly design and interface",
    "Reliable performance and durability",
    "Excellent value for money",
    "Comprehensive warranty coverage"]

  const FallbackBenefits: seq<string> := [
    "Saves time and increases efficiency",
    "Provides long-lasting value",
    "Easy to use and maintain",
    "Backed by excellent customer support"]

  const FallbackKeywords: seq<string> := ["product", "quality", "reliable", "efficient"]

  /** What stands in for the reply when no JSON is found or it does not parse. */
  function Fallback(product: ProductRequest): (g: Reply)
    ensures g.specifications == Some(product.specifications)
    ensures g.features == Some(FallbackFeatures) && |FallbackFeatures| == 5
    ensures g.benefits == Some(FallbackBenefits) && |FallbackBenefits| == 4
    ensures g.keywords == Some(FallbackKeywords) && |FallbackKeywords| == 4
  {
    Reply(
      if product.title != "" then Some(product.title) else None,
      if product.description != "" then Some(product.description) else None,
      Some(product.specifications),
      Some(FallbackFeatures), Some(FallbackBenefits), Some(FallbackKeywords),
      Some("General Product"), Some("General consumers"))
  }

  /** The parsed reply, or the fallback when there is no span or it does not parse. */
  function Interpret(text: string, parse: string -> Option<Reply>, product: ProductRequest): (g: Reply)
    ensures JsonSpan(text).None? ==> g == Fallback(product)
    ensures JsonSpan(text).Some? && parse(JsonSpan(text).value).None? ==> g == Fallback(product)
    ensures JsonSpan(text).Some? && parse(JsonSpan(text).value).Some? ==> g == parse(JsonSpan(text).value).value
  {
    match JsonSpan(text)
    case None => Fallback(product)
    case Some(span) => parse(span).GetOr(Fallback(product))
  }

  // ---------------------------------------------------------------------
  // Normalisation
  // ---------------------------------------------------------------------

  const MaxFeatures := 8
  const MaxBenefits := 6
  const MaxKeywords := 12

  const DefaultFeatures: seq<string> := ["High-quality product with excellent features"]
  const DefaultBenefits: seq<string> := ["Provides excellent value and performance"]
  const DefaultKeywords: seq<string> := ["product", "quality"]

  /** An array is cut to its first `n` elements; anything else becomes `default`. */
  function Capped(xs: Option<seq<string>>, n: nat, default: seq<string>): (r: seq<string>)
    ensures xs.Some? ==> |r| == (if |xs.value| <= n then |xs.value| else n) && r == xs.value[..|r|]
    ensures xs.None? ==> r == default
  {
    match xs
    case None => default
    case Some(a) => Take(a, n)
  }

  /** `{ ...product, ...generated }`, where a missing generated object spreads nothing. */
  function MergedSpecs(product: Dict, generated: Option<Dict>): (r: Dict)
    requires Wf(product) && (generated.Some? ==> Wf(generated.value))
    ensures Wf(r)
    ensures r.values == product.values + (if generated.Some? then generated.value.values else map[])
    ensures |product.order| <= |r.order| && r.order[..|product.order|] == product.order
  {
    Spread(product, generated.GetOr(Empty))
  }

  /** `cleanedContent`; `now` is the ISO time stamp. */
  function Normalise(g: Reply, product: ProductRequest, now: string): (r: GeneratedContent)
    requires Wf(product.specifications)
    requires g.specifications.Some? ==> Wf(g.specifications.value)
    ensures |r.features| <= MaxFeatures && |r.benefits| <= MaxBenefits
    ensures r.keywords.Some? && |r.keywords.value| <= MaxKeywords
    ensures r.category.Some? && r.category.value != ""
    ensures r.targetAudience.Some? && r.targetAudience.value != ""
    ensures Wf(r.specifications)
    ensures r.generatedAt == Some(now)
  {
    GeneratedContent(
      OrElse(g.title, product.title),
      OrElse(g.description, product.description),
      MergedSpecs(product.specifications, g.specifications),
      Capped(g.features, MaxFeatures, DefaultFeatures),
      Capped(g.benefits, MaxBenefits, DefaultBenefits),
      Some(Capped(g.keywords, MaxKeywords, DefaultKeywords)),
      Some(OrElse(g.category, "Product")),
      Some(OrElse(g.targetAudience, "General consumers")),
      Some(now),
      None)
  }

  /**
   * A truthy generated title, description, category or audience is kept,
   * a falsy one is replaced; a list that is an array is cut to its first
   * elements (`slice(0, cap)`), anything else is replaced by its default.
   */
  lemma NormaliseFields(g: Reply, product: ProductRequest, now: string)
    requires Wf(product.specifications)
    requires g.specifications.Some? ==> Wf(g.specifications.value)
    ensures var r := Normalise(g, product, now);
      && (r.title == if Truthy(g.title) then g.title.value else product.title)
      && (r.description == if Truthy(g.description) then g.description.value else product.description)
      && (r.category.value == if Truthy(g.category) then g.category.value else "Product")
      && (r.targetAudience.value == if Truthy(g.targetAudience) then g.targetAudience.value else "General consumers")
      && (g.features.Some? ==> r.features == Take(g.features.value, MaxFeatures))
      && (g.features.None? ==> r.features == DefaultFeatures)
      && (g.benefits.Some? ==> r.benefits == Take(g.benefits.value, MaxBenefits))
      && (g.benefits.None? ==> r.benefits == DefaultBenefits)
      && (g.keywords.Some? ==> r.keywords.value == Take(g.keywords.value, MaxKeywords))
      && (g.keywords.None? ==> r.keywords.value == DefaultKeywords)
  {
  }

  /** The normalised content read back as a reply, as the editor sends it again. */
  function AsReply(c: GeneratedContent): Reply {
    Reply(Some(c.title), Some(c.description), Some(c.specifications), Some(c.features), Some(c.benefits),
          c.keywords, c.category, c.targetAudience)
  }

  /** Capping what was already capped changes nothing, provided the default fits the cap. */
  lemma CappedStable(xs: Option<seq<string>>, n: nat, default: seq<string>)
    requires |default| <= n
    ensures Capped(Some(Capped(xs, n, default)), n, default) == Capped(xs, n, default)
  {
  }

  lemma SpreadAbsorbs(a: map<string, string>, b: map<string, string>)
    ensures a + (a + b) == a + b
  {
  }

  /**
   * Normalising is stable: content that went through the normalisation
   * once comes out of it again with the same fields and the same
   * specification values.
   */
  lemma NormaliseStable(g: Reply, product: ProductRequest, now: string)
    requires Wf(product.specifications)
    requires g.specifications.Some? ==> Wf(g.specifications.value)
    ensures var c := Normalise(g, product, now);
      var c' := Normalise(AsReply(c), product, now);
      c'.title == c.title && c'.description == c.description
      && c'.specifications.values == c.specifications.values
      && c'.features == c.features && c'.benefits == c.benefits && c'.keywords == c.keywords
      && c'.category == c.category && c'.targetAudience == c.targetAudience
  {
    var c := Normalise(g, product, now);
    CappedStable(g.features, MaxFeatures, DefaultFeatures);
    CappedStable(g.benefits, MaxBenefits, DefaultBenefits);
    CappedStable(g.keywords, MaxKeywords, DefaultKeywords);
    SpreadAbsorbs(product.specifications.values, if g.specifications.Some? then g.specifications.value.values else map[]);
  }

  /**
   * On a shared key the generated specification wins; a key only the
   * product has keeps the product's value; no other key appears.
   */
  lemma GeneratedSpecsWin(g: Reply, product: ProductRequest, now: string, k: string)
    requires Wf(product.specifications) && g.specifications.Some? && Wf(g.specifications.value)
    ensures var r := Normalise(g, product, now).specifications.values;
      (k in g.specifications.value.values ==> k in r && r[k] == g.specifications.value.values[k])
      && (k !in g.specifications.value.values && k in product.specifications.values ==> k in r && r[k] == product.specifications.values[k])
      && (k in r <==> k in g.specifications.value.values || k in product.specifications.values)
  {
  }

  /**
   * When no JSON object can be cut out of the reply, or it does not parse,
   * the content is the fallback's: the product's title, description and
   * specifications, the five fallback features, four benefits, four
   * keywords and the fallback category and audience.
   */
  lemma FallbackContent(text: string, parse: string -> Option<Reply>, product: ProductRequest, now: string)
    requires Wf(product.specifications)
    requires JsonSpan(text).None? || parse(JsonSpan(text).value).None?
    ensures var r := Normalise(Interpret(text, parse, product), product, now);
      r.title == product.title && r.description == product.description
      && r.specifications.values == product.specifications.values
      && r.features == FallbackFeatures && r.benefits == FallbackBenefits && r.keywords == Some(FallbackKeywords)
      && r.category == Some("General Product") && r.targetAudience == Some("General consumers")
  {
    var g := Interpret(text, parse, product);
    assert g == Fallback(product);
    assert product.specifications.values + product.specifications.values == product.specifications.values;
  }

  // ---------------------------------------------------------------------
  // The routes' responses
  // ---------------------------------------------------------------------

  datatype GenerateResponse =
    | Generated(content: GeneratedContent)
    | GenerationFailed(error: string, message: string)

  /**
   * `POST /generate-content` once the request is valid. `reply` is the
   * model call: its text, or the error it threw.
   */
  function GenerateContent(reply: Result<string>, parse: string -> Option<Reply>, product: ProductRequest, now: string): (r: GenerateResponse)
    requires Wf(product.specifications)
    requires forall s :: parse(s).Some? && parse(s).value.specifications.Some? ==> Wf(parse(s).value.specifications.value)
    ensures r.GenerationFailed? <==> reply.Err?
    ensures r.GenerationFailed? ==> r.error == "Failed to generate AI content" && r.message == reply.message
    ensures r.Generated? ==> r.content == Normalise(Interpret(reply.value, parse, product), product, now)
  {
    match reply
    case Err(m) => GenerationFailed("Failed to generate AI content", m)
    case Ok(text) => Generated(Normalise(Interpret(text, parse, product), product, now))
  }

  /** The five lists of the suggestion object. */
  datatype Advice = Advice(titleSuggestions: seq<string>, descriptionImprovements: seq<string>,
                           missingFeatures: seq<string>, seoRecommendations: seq<string>, layoutSuggestions: seq<string>)

  /** The suggestions sent back: the empty object, the parsed object, or the fixed suggestions. */
  datatype Suggestions<T> =
    | EmptyObject
    | Parsed(value: T)
    | FixedSuggestions(advice: Advice)

  /** The advice sent when the reply's object does not parse: one line of each kind. */
  const FixedAdvice := Advice(
    ["Consider adding key benefits to the title"],
    ["Add more specific technical details"],
    ["Consider highlighting unique selling points"],
    ["Include relevant keywords naturally"],
    ["Use bullet points for better readability"])

  function FixedOf<T>(): (r: Suggestions<T>)
    ensures r.FixedSuggestions?
    ensures r.advice.titleSuggestions == ["Consider adding key benefits to the title"]
    ensures r.advice.descriptionImprovements == ["Add more specific technical details"]
    ensures r.advice.missingFeatures == ["Consider highlighting unique selling points"]
    ensures r.advice.seoRecommendations == ["Include relevant keywords naturally"]
    ensures r.advice.layoutSuggestions == ["Use bullet points for better readability"]
  {
    FixedSuggestions(FixedAdvice)
  }

  /**
   * The suggestion route's reading of the reply: no span gives the empty
   * object, and the fixed suggestions appear only when the span does not
   * parse.
   */
  function Suggest<T>(text: string, parse: string -> Option<T>): (r: Suggestions<T>)
    ensures r.EmptyObject? <==> JsonSpan(text).None?
    ensures r.FixedSuggestions? <==> JsonSpan(text).Some? && parse(JsonSpan(text).value).None?
    ensures r.Parsed? ==> Some(r.value) == parse(JsonSpan(text).value)
  {
    match JsonSpan(text)
    case None => EmptyObject
    case Some(span) =>
      match parse(span)
      case None => FixedOf()
      case Some(v) => Parsed(v)
  }
}

=== FILE: app.dfy ===
/**
 * The four-step wizard: input, generation, editor, export. The state is the
 * current step, the submitted product, the catalog and the processing
 * flag; each handler is an event. Submitting is two events, because the
 * handler waits 1500 ms between marking the form busy and moving on: the
 * wait itself is left to the caller, which delivers `SubmitDelayElapsed`.
 */
module App {
  import opened Wrappers
  import opened Types

  datatype Step = InputStep | GenerationStep | EditorStep | ExportStep

  const Steps: seq<Step> := [InputStep, GenerationStep, EditorStep, ExportStep]

  /** The step's place in the progress bar. */
  function StepIndex(s: Step): (i: nat)
    ensures i < |Steps| && Steps[i] == s
  {
    match s
    case InputStep => 0
    case GenerationStep => 1
    case EditorStep => 2
    case ExportStep => 3
  }

  /** `((currentStepIndex + 1) / steps.length) * 100`, exact for four steps. */
  function Progress(s: Step): (p: nat)
    ensures p * |Steps| == (StepIndex(s) + 1) * 100
    ensures 25 <= p <= 100
  {
    (StepIndex(s) + 1) * 25
  }

  /** The progress bar's marker for a step, given the current step. */
  function MarkerOf(step: Step, current: Step): (m: Marker)
    ensures m == Completed <==> StepIndex(step) < StepIndex(current)
    ensures m == Active <==> step == current
    ensures m == Pending <==> StepIndex(step) > StepIndex(current)
  {
    MarkerAt(StepIndex(step), StepIndex(current))
  }

  datatype State = State(
    step: Step,
    productData: Option<ProductData>,
    catalogData: Option<CatalogData>,
    isProcessing: bool)

  const Initial := State(InputStep, None, None, false)

  datatype Event =
    | SubmitStarted(data: ProductData)
    | SubmitDelayElapsed
    | GenerationComplete(catalog: CatalogData)
    | EditingComplete(edited: CatalogData)
    | EditorBack
    | BackToEditor
    | StartOver

  /** The component each step shows, or nothing when the data it needs is missing. */
  datatype View = InputView(busy: bool) | GenerationView(product: ProductData) | EditorView(catalog: CatalogData) | ExportView(catalog: CatalogData) | Blank

  function ViewOf(s: State): View {
    match s.step
    case InputStep => InputView(s.isProcessing)
    case GenerationStep => if s.productData.Some? then GenerationView(s.productData.value) else Blank
    case EditorStep => if s.catalogData.Some? then EditorView(s.catalogData.value) else Blank
    case ExportStep => if s.catalogData.Some? then ExportView(s.catalogData.value) else Blank
  }

  /**
   * The events the shown view can raise: the form submits only while it is
   * not busy, the delay ends only while a submission waits, and each other
   * handler belongs to the component of its step.
   */
  predicate Enabled(s: State, e: Event) {
    match e
    case SubmitStarted(_) => ViewOf(s) == InputView(false)
    case SubmitDelayElapsed => s.isProcessing
    case GenerationComplete(_) => ViewOf(s).GenerationView?
    case EditingComplete(_) => ViewOf(s).EditorView?
    case EditorBack => ViewOf(s).EditorView?
    case BackToEditor => ViewOf(s).ExportView?
    case StartOver => ViewOf(s).ExportView?
  }

  /** The handlers of the wizard. */
  function Next(s: State, e: Event): (r: State)
    ensures e.SubmitStarted? ==> r.productData == Some(e.data) && r.isProcessing && r.step == s.step
    ensures e.GenerationComplete? ==> r.catalogData == Some(e.catalog) && r.step == EditorStep
    ensures e.EditingComplete? ==> r.catalogData == Some(e.edited) && r.step == ExportStep
    ensures !e.SubmitStarted? ==> r.productData == s.productData || e.StartOver?
    ensures !e.GenerationComplete? && !e.EditingComplete? && !e.StartOver? ==> r.catalogData == s.catalogData
    ensures e.SubmitDelayElapsed? ==> r == s.(step := GenerationStep, isProcessing := false)
    ensures e.EditorBack? ==> r == s.(step := GenerationStep)
    ensures e.BackToEditor? ==> r == s.(step := EditorStep)
    ensures e.StartOver? ==> r == Initial
  {
    match e
    case SubmitStarted(data) => s.(productData := Some(data), isProcessing := true)
    case SubmitDelayElapsed => s.(step := GenerationStep, isProcessing := false)
    case GenerationComplete(c) => s.(catalogData := Some(c), step := EditorStep)
    case EditingComplete(c) => s.(catalogData := Some(c), step := ExportStep)
    case EditorBack => s.(step := GenerationStep)
    case BackToEditor => s.(step := EditorStep)
    case StartOver => Initial
  }

  /**
   * What the wizard keeps: past the input step there is a product, in the
   * editor and export steps there is a catalog, and a busy form has a
   * product and is still on the input step.
   */
  predicate Inv(s: State) {
    && (s.step != InputStep ==> s.productData.Some?)
    && (s.step == EditorStep || s.step == ExportStep ==> s.catalogData.Some?)
    && (s.isProcessing ==> s.step == InputStep && s.productData.Some?)
  }

  /** Every enabled handler keeps the invariant. */
  lemma NextKeepsInv(s: State, e: Event)
    requires Inv(s) && Enabled(s, e)
    ensures Inv(Next(s, e))
  {
  }

  /** Under the invariant the page always shows the component of its step. */
  lemma NeverBlank(s: State)
    requires Inv(s)
    ensures ViewOf(s) != Blank
  {
  }

  /** The states reached from the start by enabled events. */
  function Run(s: State, es: seq<Event>): Option<State>
    decreases |es|
  {
    if |es| == 0 then Some(s)
    else if !Enabled(s, es[0]) then None
    else Run(Next(s, es[0]), es[1..])
  }

  /** Every run of enabled events from a state with the invariant ends in one. */
  lemma {:induction false} RunKeepsInv(s: State, es: seq<Event>)
    requires Inv(s)
    ensures Run(s, es).Some? ==> Inv(Run(s, es).value)
    decreases |es|
  {
    if |es| > 0 && Enabled(s, es[0]) {
      NextKeepsInv(s, es[0]);
      RunKeepsInv(Next(s, es[0]), es[1..]);
    }
  }

  /** Hence no reachable state shows a blank page. */
  lemma ReachableNeverBlank(es: seq<Event>)
    ensures Run(Initial, es).Some? ==> ViewOf(Run(Initial, es).value) != Blank
  {
    RunKeepsInv(Initial, es);
    if Run(Initial, es).Some? {
      NeverBlank(Run(Initial, es).value);
    }
  }

  /** The forward events each move the progress bar one quarter on. */
  lemma ForwardProgress(s: State, e: Event)
    requires Enabled(s, e) && (e.SubmitDelayElapsed? || e.GenerationComplete? || e.EditingComplete?)
    requires Inv(s)
    ensures Progress(Next(s, e).step) == Progress(s.step) + 25
  {
  }

  /** Starting over from export forgets the product and the catalog: the wizard is as at first. */
  lemma StartOverResets(s: State)
    ensures Next(s, StartOver) == Initial
    ensures ViewOf(Next(s, StartOver)) == InputView(false)
  {
  }

  /** Going back from export to the editor and saving again keeps the step sequence: editor, then export. */
  lemma BackAndSaveAgain(s: State, c: CatalogData)
    requires Inv(s) && s.step == ExportStep
    ensures var t := Next(s, BackToEditor);
      && ViewOf(t) == EditorView(s.catalogData.value)
      && Enabled(t, EditingComplete(c))
      && Next(t, EditingComplete(c)).catalogData == Some(c)
      && ViewOf(Next(t, EditingComplete(c))) == ExportView(c)
  {
  }
}

=== FILE: blocks.dfy ===
/**
 * The block editor. Every edit produces a partial block, either a new
 * `content` (the old content with one slot replaced) or new `settings`
 * (likewise), and the partial is merged over the block.
 */
module BlockEditor {
  import opened Wrappers
  import opened Dict
  import opened Types
  import opened Seqs
  import EditorPanel

  /** One slot of a block's content with its new value. */
  datatype ContentSlot =
    | TextSlot(text: string)
    | ValueSlot(value: string)
    | ImagesSlot(images: seq<CatalogImage>)
    | ItemsSlot(items: BlockItems)

  /** One block setting with its new value. */
  datatype SettingSlot =
    | ColumnsSetting(columns: int)
    | StyleSetting(style: string)
    | BackgroundSetting(color: string)
    | TextColorSetting(color: string)

  /** The partial block handed on by an edit. */
  datatype Update = ContentUpdate(content: BlockContent) | SettingsUpdate(settings: BlockSettings)

  /** `{ ...block.content, [field]: value }`. */
  function SetContent(c: BlockContent, s: ContentSlot): BlockContent {
    match s
    case TextSlot(t) => c.(text := Some(t))
    case ValueSlot(v) => c.(value := Some(v))
    case ImagesSlot(im) => c.(images := Some(im))
    case ItemsSlot(it) => c.(items := Some(it))
  }

  /** `{ ...block.settings, [field]: value }`; missing settings spread nothing. */
  function SetSetting(s: Option<BlockSettings>, slot: SettingSlot): BlockSettings {
    var b := s.GetOr(NoSettings);
    match slot
    case ColumnsSetting(n) => b.(columns := Some(n))
    case StyleSetting(st) => b.(style := Some(st))
    case BackgroundSetting(col) => b.(backgroundColor := Some(col))
    case TextColorSetting(col) => b.(textColor := Some(col))
  }

  /** `handleContentChange`. */
  function ContentChange(block: ContentBlock, s: ContentSlot): Update {
    ContentUpdate(SetContent(block.content, s))
  }

  /** `handleSettingChange`. */
  function SettingChange(block: ContentBlock, s: SettingSlot): Update {
    SettingsUpdate(SetSetting(block.settings, s))
  }

  /** Merging a partial block over the block. */
  function Apply(block: ContentBlock, u: Update): (r: ContentBlock)
    ensures r.id == block.id && r.kind == block.kind
  {
    match u
    case ContentUpdate(c) => block.(content := c)
    case SettingsUpdate(s) => block.(settings := Some(s))
  }

  /** Reading a content slot: the value it holds, in the shape of an edit. */
  function ContentSlotOf(c: BlockContent, s: ContentSlot): Option<ContentSlot> {
    match s
    case TextSlot(_) => if c.text.Some? then Some(TextSlot(c.text.value)) else None
    case ValueSlot(_) => if c.value.Some? then Some(ValueSlot(c.value.value)) else None
    case ImagesSlot(_) => if c.images.Some? then Some(ImagesSlot(c.images.value)) else None
    case ItemsSlot(_) => if c.items.Some? then Some(ItemsSlot(c.items.value)) else None
  }

  /** Two edits of the same slot. */
  predicate SameSlot(a: ContentSlot, b: ContentSlot) {
    (a.TextSlot? && b.TextSlot?) || (a.ValueSlot? && b.ValueSlot?)
    || (a.ImagesSlot? && b.ImagesSlot?) || (a.ItemsSlot? && b.ItemsSlot?)
  }

  /**
   * A content edit changes exactly its slot: the slot reads back the new
   * value, every other slot reads as before, and the settings, id and type
   * of the block are kept.
   */
  lemma ContentChangeOnly(block: ContentBlock, s: ContentSlot, other: ContentSlot)
    ensures var r := Apply(block, ContentChange(block, s));
      && ContentSlotOf(r.content, s) == Some(s)
      && (!SameSlot(s, other) ==> ContentSlotOf(r.content, other) == ContentSlotOf(block.content, other))
      && r.settings == block.settings && r.id == block.id && r.kind == block.kind
  {
  }

  /** Writing back what a slot holds changes nothing. */
  lemma ContentChangeSame(block: ContentBlock, s: ContentSlot)
    requires ContentSlotOf(block.content, s) == Some(s)
    ensures Apply(block, ContentChange(block, s)) == block
  {
  }

  /** Reading a setting. */
  function SettingOf(b: BlockSettings, s: SettingSlot): Option<SettingSlot> {
    match s
    case ColumnsSetting(_) => if b.columns.Some? then Some(ColumnsSetting(b.columns.value)) else None
    case StyleSetting(_) => if b.style.Some? then Some(StyleSetting(b.style.value)) else None
    case BackgroundSetting(_) => if b.backgroundColor.Some? then Some(BackgroundSetting(b.backgroundColor.value)) else None
    case TextColorSetting(_) => if b.textColor.Some? then Some(TextColorSetting(b.textColor.value)) else None
  }

  predicate SameSetting(a: SettingSlot, b: SettingSlot) {
    (a.ColumnsSetting? && b.ColumnsSetting?) || (a.StyleSetting? && b.StyleSetting?)
    || (a.BackgroundSetting? && b.BackgroundSetting?) || (a.TextColorSetting? && b.TextColorSetting?)
  }

  /**
   * A setting edit changes exactly that setting: it reads back the new
   * value, the other settings read as before (none when the block had no
   * settings), and the content is kept.
   */
  lemma SettingChangeOnly(block: ContentBlock, s: SettingSlot, other: SettingSlot)
    ensures var r := Apply(block, SettingChange(block, s));
      && r.settings.Some? && SettingOf(r.settings.value, s) == Some(s)
      && (!SameSetting(s, other) && block.settings.Some? ==> SettingOf(r.settings.value, other) == SettingOf(block.settings.value, other))
      && (!SameSetting(s, other) && block.settings.None? ==> SettingOf(r.settings.value, other) == None)
      && r.content == block.content
  {
  }

  // ---------------------------------------------------------------------
  // Image gallery
  // ---------------------------------------------------------------------

  const DefaultColumns := 3

  /** `block.settings?.columns || 3`: the column count the selector shows. */
  function ShownColumns(s: Option<BlockSettings>): (n: int)
    ensures s.Some? && s.value.columns.Some? && s.value.columns.value != 0 ==> n == s.value.columns.value
    ensures s.None? || s.value.columns.None? || s.value.columns.value == 0 ==> n == DefaultColumns
  {
    if s.Some? && s.value.columns.Some? && s.value.columns.value != 0 then s.value.columns.value else DefaultColumns
  }

  /** Choosing a column count shows that count. */
  lemma ColumnsChosen(block: ContentBlock, n: int)
    requires n in {1, 2, 3, 4}
    ensures ShownColumns(Apply(block, SettingChange(block, ColumnsSetting(n))).settings) == n
  {
  }

  /**
   * The gallery's Add tile, present only when the block has images and
   * fewer than fifteen: the new image goes at the end, at position equal
   * to the old count.
   */
  function GalleryAdd(block: ContentBlock, now: nat, fileName: string, url: string): (r: Option<ContentBlock>)
    ensures r.Some? <==> block.content.images.Some? && |block.content.images.value| < EditorPanel.MaxImages
    ensures r.Some? ==> (r.value.content.images.Some?
      && var before := block.content.images.value; var im := r.value.content.images.value;
         |im| == |before| + 1 && im[..|before|] == before && im[|before|].position == |before|)
    ensures r.Some? ==> r.value.settings == block.settings && r.value.content.items == block.content.items
  {
    if block.content.images.Some? && |block.content.images.value| < EditorPanel.MaxImages then
      Some(Apply(block, ContentChange(block, ImagesSlot(EditorPanel.AddImage(block.content.images.value, now, fileName, url)))))
    else None
  }

  /** The gallery's remove button on image `idx`. */
  function GalleryRemove(block: ContentBlock, idx: nat): (r: ContentBlock)
    requires block.content.images.Some? && idx < |block.content.images.value|
    ensures r.content.images == Some(block.content.images.value[..idx] + block.content.images.value[idx + 1..])
    ensures r.settings == block.settings && r.content.items == block.content.items
  {
    Apply(block, ContentChange(block, ImagesSlot(EditorPanel.RemoveImage(block.content.images.value, idx))))
  }

  // ---------------------------------------------------------------------
  // Feature and benefit items
  // ---------------------------------------------------------------------

  /** `block.content.items || []` for a list block. */
  function ListItemsOf(c: BlockContent): seq<string> {
    if c.items.Some? && c.items.value.ListItems? then c.items.value.list else []
  }

  /** Editing item `idx`. */
  function EditListItem(block: ContentBlock, idx: nat, v: string): (r: ContentBlock)
    requires idx < |ListItemsOf(block.content)|
    ensures |ListItemsOf(r.content)| == |ListItemsOf(block.content)| && ListItemsOf(r.content)[idx] == v
    ensures forall j :: 0 <= j < |ListItemsOf(block.content)| && j != idx ==> ListItemsOf(r.content)[j] == ListItemsOf(block.content)[j]
  {
    Apply(block, ContentChange(block, ItemsSlot(ListItems(EditorPanel.EditItem(ListItemsOf(block.content), idx, v)))))
  }

  /** Removing item `idx`. */
  function RemoveListItem(block: ContentBlock, idx: nat): (r: ContentBlock)
    requires idx < |ListItemsOf(block.content)|
    ensures ListItemsOf(r.content) == ListItemsOf(block.content)[..idx] + ListItemsOf(block.content)[idx + 1..]
  {
    Apply(block, ContentChange(block, ItemsSlot(ListItems(EditorPanel.RemoveItem(ListItemsOf(block.content), idx)))))
  }

  /** Add Feature / Add Benefit: an empty item at the end, starting from none when the block has no items. */
  function AddListItem(block: ContentBlock): (r: ContentBlock)
    ensures ListItemsOf(r.content) == ListItemsOf(block.content) + [""]
    ensures block.content.items.None? ==> ListItemsOf(r.content) == [""]
  {
    Apply(block, ContentChange(block, ItemsSlot(ListItems(EditorPanel.AddItem(ListItemsOf(block.content))))))
  }

  // ---------------------------------------------------------------------
  // Specification items
  // ---------------------------------------------------------------------

  /** `block.content.items || {}` for a specification block. */
  function SpecItemsOf(c: BlockContent): Dict {
    if c.items.Some? && c.items.value.SpecItems? then c.items.value.specs else Empty
  }

  /** The spec edits need a well-formed object. */
  predicate SpecBlock(block: ContentBlock) {
    Wf(SpecItemsOf(block.content))
  }

  function WithSpecs(block: ContentBlock, d: Dict): ContentBlock {
    Apply(block, ContentChange(block, ItemsSlot(SpecItems(d))))
  }

  /**
   * Typing a new name into a key field: `newItems[newKey] = newItems[key]`
   * then `delete newItems[key]`, skipped when the name is unchanged.
   */
  function RenameSpecKey(d: Dict, key: string, newKey: string): (r: Dict)
    requires Wf(d) && key in d.values
    ensures Wf(r)
  {
    if newKey == key then d else Remove(Put(d, newKey, d.values[key]), key)
  }

  /**
   * A rename moves the value to the new key and deletes the old key; the
   * same name changes nothing; a name that is already a key is
   * overwritten in place; every other key is untouched.
   */
  lemma RenameSpecKeyMoves(d: Dict, key: string, newKey: string)
    requires Wf(d) && key in d.values
    ensures var r := RenameSpecKey(d, key, newKey);
      && (newKey == key ==> r == d)
      && (newKey != key ==> key !in r.values && newKey in r.values && r.values[newKey] == d.values[key])
      && (forall k :: k != key && k != newKey ==> (k in r.values <==> k in d.values))
      && (forall k :: k != key && k != newKey && k in d.values ==> r.values[k] == d.values[k])
      && (newKey != key && newKey in d.values ==> |r.values| == |d.values| - 1)
  {
    if newKey != key && newKey in d.values {
      var r := RenameSpecKey(d, key, newKey);
      SizeOfWf(d);
      SizeOfWf(r);
      assert r.values.Keys == d.values.Keys - {key};
    }
  }

  /**
   * The block editor's rename is the content panel's change with the old
   * value: the same entries in the same order.
   */
  lemma RenameAgreesWithPanel(d: Dict, key: string, newKey: string)
    requires Wf(d) && key in d.values
    ensures RenameSpecKey(d, key, newKey) == EditorPanel.ChangeSpecification(d, key, newKey, d.values[key])
  {
    if newKey != key {
      assert d.values[newKey := d.values[key]] - {key} == (d.values - {key})[newKey := d.values[key]];
      if newKey !in d.order {
        WithoutSnoc(d.order, key, newKey);
      }
    } else {
      assert d.values[key := d.values[key]] == d.values;
    }
  }

  /** Typing into a value field: `{ ...items, [key]: value }`. */
  function SetSpecValue(d: Dict, key: string, v: string): (r: Dict)
    requires Wf(d)
    ensures Wf(r) && key in r.values && r.values[key] == v
    ensures forall k :: k != key ==> (k in r.values <==> k in d.values)
    ensures forall k :: k != key && k in d.values ==> r.values[k] == d.values[k]
    ensures key in d.values ==> r.order == d.order
  {
    Put(d, key, v)
  }

  /** The Remove button of a specification. */
  function RemoveSpec(d: Dict, key: string): (r: Dict)
    requires Wf(d)
    ensures Wf(r) && key !in r.values
    ensures forall k :: k != key ==> (k in r.values <==> k in d.values)
    ensures forall k :: k != key && k in d.values ==> r.values[k] == d.values[k]
  {
    Remove(d, key)
  }

  /**
   * Add Specification: `{ ...items, '': '' }`. A new empty key is added at
   * the end; when the empty key exists already its value is reset and
   * nothing is added.
   */
  function AddSpec(d: Dict): (r: Dict)
    requires Wf(d)
    ensures Wf(r) && "" in r.values && r.values[""] == ""
    ensures "" !in d.values ==> r.order == d.order + [""] && |r.values| == |d.values| + 1
    ensures "" in d.values ==> r.order == d.order && |r.values| == |d.values|
    ensures forall k :: k != "" ==> (k in r.values <==> k in d.values)
    ensures forall k :: k != "" && k in d.values ==> r.values[k] == d.values[k]
  {
    var r := Put(d, "", "");
    SizeOfWf(d);
    SizeOfWf(r);
    r
  }

  /** A second Add Specification changes nothing more. */
  lemma AddSpecTwice(d: Dict)
    requires Wf(d)
    ensures AddSpec(AddSpec(d)) == AddSpec(d)
  {
    var a := AddSpec(d);
    assert AddSpec(a).order == a.order;
    assert AddSpec(a).values == a.values;
  }

  /** Removing the empty key just added gives the object back. */
  lemma AddSpecThenRemove(d: Dict)
    requires Wf(d) && "" !in d.values
    ensures RemoveSpec(AddSpec(d), "") == d
  {
    var a := AddSpec(d);
    assert a.order[|d.order|] == "";
    assert a.order[..|d.order|] + a.order[|d.order| + 1..] == d.order;
    assert d.values["" := ""] - {""} == d.values;
  }
}

=== FILE: catalog_editor.dfy ===
/**
 * The catalog editor's working copy. The editor starts from the catalog it
 * is given and applies three kinds of change coming from the content
 * panel: a content field, written into both the product and the generated
 * content; a layout field; and a new image list. Saving hands the working
 * copy on as it is.
 */
module CatalogEditor {
  import opened Wrappers
  import opened Dict
  import opened Types

  /** The content fields the panel edits. */
  datatype Field = TitleField | DescriptionField | PriceField | FeaturesField | BenefitsField | SpecificationsField

  /** A field value as the panel hands it over. */
  datatype Value = Text(text: string) | Items(items: seq<string>) | Specs(specs: Dict)

  /** A call of `onContentChange`: the field name together with a value of that field's kind. */
  datatype ContentEdit =
    | SetTitle(title: string)
    | SetDescription(description: string)
    | SetPrice(price: string)
    | SetFeatures(features: seq<string>)
    | SetBenefits(benefits: seq<string>)
    | SetSpecifications(specifications: Dict)

  function FieldOf(e: ContentEdit): Field {
    match e
    case SetTitle(_) => TitleField
    case SetDescription(_) => DescriptionField
    case SetPrice(_) => PriceField
    case SetFeatures(_) => FeaturesField
    case SetBenefits(_) => BenefitsField
    case SetSpecifications(_) => SpecificationsField
  }

  function ValueOf(e: ContentEdit): Value {
    match e
    case SetTitle(s) => Text(s)
    case SetDescription(s) => Text(s)
    case SetPrice(s) => Text(s)
    case SetFeatures(xs) => Items(xs)
    case SetBenefits(xs) => Items(xs)
    case SetSpecifications(d) => Specs(d)
  }

  /** What the product record holds under a field name, if anything. */
  function ProductValue(p: ProductData, f: Field): Option<Value> {
    match f
    case TitleField => if p.title.Some? then Some(Text(p.title.value)) else None
    case DescriptionField => if p.description.Some? then Some(Text(p.description.value)) else None
    case PriceField => if p.price.Some? then Some(Text(p.price.value)) else None
    case FeaturesField => if p.features.Some? then Some(Items(p.features.value)) else None
    case BenefitsField => if p.benefits.Some? then Some(Items(p.benefits.value)) else None
    case SpecificationsField => if p.specifications.Some? then Some(Specs(p.specifications.value)) else None
  }

  /** What the generated content holds under a field name, if anything. */
  function ContentValue(g: GeneratedContent, f: Field): Option<Value> {
    match f
    case TitleField => Some(Text(g.title))
    case DescriptionField => Some(Text(g.description))
    case PriceField => if g.price.Some? then Some(Text(g.price.value)) else None
    case FeaturesField => Some(Items(g.features))
    case BenefitsField => Some(Items(g.benefits))
    case SpecificationsField => Some(Specs(g.specifications))
  }

  /** The parts of the product that no content edit touches. */
  predicate SameProductRest(p: ProductData, q: ProductData) {
    p.url == q.url && p.images == q.images && p.useAutomaticImages == q.useAutomaticImages
    && p.extractedImages == q.extractedImages && p.scrapedAt == q.scrapedAt
  }

  /** The parts of the generated content that no content edit touches. */
  predicate SameContentRest(g: GeneratedContent, h: GeneratedContent) {
    g.keywords == h.keywords && g.category == h.category
    && g.targetAudience == h.targetAudience && g.generatedAt == h.generatedAt
  }

  /**
   * `handleContentChange`: the value is written under the field's name into
   * both the product and the generated content; every other field of
   * either, and the layout, images and blocks, stay as they were.
   */
  function ContentChange(c: CatalogData, e: ContentEdit): (r: CatalogData)
    ensures ProductValue(r.product, FieldOf(e)) == Some(ValueOf(e))
    ensures ContentValue(r.generatedContent, FieldOf(e)) == Some(ValueOf(e))
    ensures forall f :: f != FieldOf(e) ==> ProductValue(r.product, f) == ProductValue(c.product, f)
    ensures forall f :: f != FieldOf(e) ==> ContentValue(r.generatedContent, f) == ContentValue(c.generatedContent, f)
    ensures SameProductRest(r.product, c.product) && SameContentRest(r.generatedContent, c.generatedContent)
    ensures r.layout == c.layout && r.images == c.images && r.contentBlocks == c.contentBlocks
  {
    var p := c.product;
    var g := c.generatedContent;
    match e
    case SetTitle(s) => c.(product := p.(title := Some(s)), generatedContent := g.(title := s))
    case SetDescription(s) => c.(product := p.(description := Some(s)), generatedContent := g.(description := s))
    case SetPrice(s) => c.(product := p.(price := Some(s)), generatedContent := g.(price := Some(s)))
    case SetFeatures(xs) => c.(product := p.(features := Some(xs)), generatedContent := g.(features := xs))
    case SetBenefits(xs) => c.(product := p.(benefits := Some(xs)), generatedContent := g.(benefits := xs))
    case SetSpecifications(d) => c.(product := p.(specifications := Some(d)), generatedContent := g.(specifications := d))
  }

  /** A content field reads the same from the product and from the generated content. */
  predicate Agrees(c: CatalogData, f: Field) {
    ProductValue(c.product, f) == ContentValue(c.generatedContent, f)
  }

  /** A second edit of the same field overwrites the first. */
  lemma ContentChangeLastWins(c: CatalogData, e1: ContentEdit, e2: ContentEdit)
    requires FieldOf(e1) == FieldOf(e2)
    ensures ContentChange(ContentChange(c, e1), e2) == ContentChange(c, e2)
  {
  }

  /** Edits of different fields commute. */
  lemma ContentChangesCommute(c: CatalogData, e1: ContentEdit, e2: ContentEdit)
    requires FieldOf(e1) != FieldOf(e2)
    ensures ContentChange(ContentChange(c, e1), e2) == ContentChange(ContentChange(c, e2), e1)
  {
  }

  /** The layout fields the design panel sets. */
  datatype LayoutEdit = SetTheme(theme: Theme) | SetColorScheme(scheme: ColorScheme) | SetTypography(typography: Typography)

  /** `handleLayoutChange`: one field of the layout is replaced; nothing else changes. */
  function LayoutChange(c: CatalogData, e: LayoutEdit): (r: CatalogData)
    ensures e.SetTheme? ==> r.layout.theme == e.theme
    ensures e.SetColorScheme? ==> r.layout.colorScheme == e.scheme
    ensures e.SetTypography? ==> r.layout.typography == e.typography
    ensures !e.SetTheme? ==> r.layout.theme == c.layout.theme
    ensures !e.SetColorScheme? ==> r.layout.colorScheme == c.layout.colorScheme
    ensures !e.SetTypography? ==> r.layout.typography == c.layout.typography
    ensures r.product == c.product && r.generatedContent == c.generatedContent
    ensures r.images == c.images && r.contentBlocks == c.contentBlocks
  {
    match e
    case SetTheme(t) => c.(layout := c.layout.(theme := t))
    case SetColorScheme(s) => c.(layout := c.layout.(colorScheme := s))
    case SetTypography(t) => c.(layout := c.layout.(typography := t))
  }

  /** Choosing the layout the catalog already has changes nothing. */
  lemma LayoutChangeSame(c: CatalogData)
    ensures LayoutChange(c, SetTheme(c.layout.theme)) == c
    ensures LayoutChange(c, SetColorScheme(c.layout.colorScheme)) == c
    ensures LayoutChange(c, SetTypography(c.layout.typography)) == c
  {
  }

  /** Any change the editor receives. */
  datatype Change = Content(content: ContentEdit) | Design(design: LayoutEdit) | Reorder(images: seq<CatalogImage>)

  /** `handleImageReorder` stores the list as given; the others are above. */
  function Apply(c: CatalogData, ch: Change): (r: CatalogData)
    ensures ch.Reorder? ==> r.images == ch.images && r.product == c.product && r.generatedContent == c.generatedContent
    ensures ch.Reorder? ==> r.layout == c.layout && r.contentBlocks == c.contentBlocks
    ensures r.contentBlocks == c.contentBlocks
  {
    match ch
    case Content(e) => ContentChange(c, e)
    case Design(e) => LayoutChange(c, e)
    case Reorder(images) => c.(images := images)
  }

  /** The working copy after a run of changes, in order. */
  function ApplyAll(c: CatalogData, chs: seq<Change>): CatalogData
    decreases |chs|
  {
    if |chs| == 0 then c else ApplyAll(Apply(c, chs[0]), chs[1..])
  }

  /** The editor's state: the working copy, starting as the catalog it was given. */
  datatype Editor = Editor(edited: CatalogData)

  function Open(c: CatalogData): (s: Editor)
    ensures s.edited == c
  {
    Editor(c)
  }

  /** `handleSave`: the working copy is handed on. */
  function Save(s: Editor): (r: CatalogData)
    ensures r == s.edited
  {
    s.edited
  }

  /** Opening the editor and saving at once hands the catalog back unchanged. */
  lemma SaveUntouched(c: CatalogData)
    ensures Save(Open(c)) == c
  {
  }

  /** The fields some content edit in the run wrote. */
  function EditedFields(chs: seq<Change>): set<Field> {
    set i | 0 <= i < |chs| && chs[i].Content? :: FieldOf(chs[i].content)
  }

  /**
   * Whatever else happens in between, a field the run edited reads the same
   * from the product and the generated content afterwards, and a field it
   * did not edit keeps the agreement it had.
   */
  lemma {:induction false} EditedFieldsAgree(c: CatalogData, chs: seq<Change>, f: Field)
    requires f in EditedFields(chs) || Agrees(c, f)
    ensures Agrees(ApplyAll(c, chs), f)
    decreases |chs|
  {
    if |chs| > 0 {
      var next := Apply(c, chs[0]);
      if f in EditedFields(chs) {
        var i :| 0 <= i < |chs| && chs[i].Content? && f == FieldOf(chs[i].content);
        if i > 0 {
          assert chs[1..][i - 1] == chs[i];
          assert f in EditedFields(chs[1..]);
        } else {
          assert Agrees(next, f);
        }
      }
      EditedFieldsAgree(next, chs[1..], f);
    }
  }

  /** A run without design changes keeps the layout. */
  lemma {:induction false} ContentOnlyKeepsLayout(c: CatalogData, chs: seq<Change>)
    requires forall i :: 0 <= i < |chs| ==> !chs[i].Design?
    ensures ApplyAll(c, chs).layout == c.layout
    decreases |chs|
  {
    if |chs| > 0 {
      assert forall i :: 0 <= i < |chs| - 1 ==> chs[1..][i] == chs[i + 1];
      ContentOnlyKeepsLayout(Apply(c, chs[0]), chs[1..]);
    }
  }

  /** No change the editor receives touches the content blocks. */
  lemma {:induction false} BlocksUntouched(c: CatalogData, chs: seq<Change>)
    ensures ApplyAll(c, chs).contentBlocks == c.contentBlocks
    decreases |chs|
  {
    if |chs| > 0 {
      BlocksUntouched(Apply(c, chs[0]), chs[1..]);
    }
  }
}

=== FILE: dict.dfy ===
/**
 * A JavaScript plain object with string keys and string values, such as a
 * product's `specifications`. Besides its key/value map it has an
 * observable key order, insertion order, because `Object.entries` decides
 * which specifications the PDF shows and the order of the DOCX paragraphs:
 * assigning an existing key keeps its position, assigning a new key appends
 * it, and `delete` drops it.
 */
module Dict {

  datatype Dict = Dict(order: seq<string>, values: map<string, string>)

  /** `{}`. */
  const Empty := Dict([], map[])

  predicate Distinct(ks: seq<string>) {
    forall i, j :: 0 <= i < j < |ks| ==> ks[i] != ks[j]
  }

  /** Every key occurs once in the order, and the order lists exactly the mapped keys. */
  predicate Wf(d: Dict) {
    && Distinct(d.order)
    && (forall k :: k in d.values ==> k in d.order)
    && (forall k :: k in d.order ==> k in d.values)
  }

  /** `Object.entries(obj)`. */
  function Entries(d: Dict): (es: seq<(string, string)>)
    requires Wf(d)
    ensures |es| == |d.order|
    ensures forall i :: 0 <= i < |es| ==> es[i] == (d.order[i], d.values[d.order[i]])
  {
    seq(|d.order|, i requires 0 <= i < |d.order| => (d.order[i], d.values[d.order[i]]))
  }

  /** `ks` with `k` left out, the others in order. */
  function Without(ks: seq<string>, k: string): (r: seq<string>)
    ensures forall j :: j in r <==> j in ks && j != k
    ensures k !in ks ==> r == ks
  {
    if |ks| == 0 then ks
    else if ks[0] == k then Without(ks[1..], k)
    else [ks[0]] + Without(ks[1..], k)
  }

  /** Leaving out a key keeps the others distinct. */
  lemma {:induction false} WithoutDistinct(ks: seq<string>, k: string)
    requires Distinct(ks)
    ensures Distinct(Without(ks, k))
  {
    if |ks| > 0 {
      WithoutDistinct(ks[1..], k);
      var rest := Without(ks[1..], k);
      if ks[0] != k {
        assert ks[0] !in ks[1..];
        assert ks[0] !in rest;
        assert Without(ks, k) == [ks[0]] + rest;
        forall i, j | 0 <= i < j < |[ks[0]] + rest| ensures ([ks[0]] + rest)[i] != ([ks[0]] + rest)[j] {
          if i == 0 {
            assert ([ks[0]] + rest)[j] == rest[j - 1];
          }
        }
      }
    }
  }

  /** Leaving out a key commutes with appending a different one. */
  lemma {:induction false} WithoutSnoc(ks: seq<string>, k: string, n: string)
    requires n != k
    ensures Without(ks + [n], k) == Without(ks, k) + [n]
    decreases |ks|
  {
    if |ks| == 0 {
      assert ks + [n] == [n];
      assert Without([n], k) == [n] + Without([n][1..], k);
    } else {
      assert (ks + [n])[1..] == ks[1..] + [n];
      WithoutSnoc(ks[1..], k, n);
    }
  }

  /** Leaving out a key that occurs once, at `i`, drops exactly position `i`. */
  lemma {:induction false} WithoutAt(ks: seq<string>, k: string, i: nat)
    requires Distinct(ks) && i < |ks| && ks[i] == k
    ensures Without(ks, k) == ks[..i] + ks[i + 1..]
  {
    if i == 0 {
      assert k !in ks[1..];
    } else {
      WithoutAt(ks[1..], k, i - 1);
      assert ks[..i] + ks[i + 1..] == [ks[0]] + (ks[1..][..i - 1] + ks[1..][i..]);
    }
  }

  /**
   * `obj[k] = v`: the value under `k` becomes `v` and no other value
   * changes; an existing key keeps its position, a new key goes last.
   */
  function Put(d: Dict, k: string, v: string): (r: Dict)
    ensures r.values == d.values[k := v]
    ensures k in d.order ==> r.order == d.order
    ensures k !in d.order ==> r.order == d.order + [k]
    ensures Wf(d) ==> Wf(r)
  {
    if k in d.order then Dict(d.order, d.values[k := v])
    else Dict(d.order + [k], d.values[k := v])
  }

  /**
   * `delete obj[k]`: `k` disappears, every other key keeps its value and its
   * place; an absent key leaves the object as it was.
   */
  function Remove(d: Dict, k: string): (r: Dict)
    ensures r.values == d.values - {k}
    ensures k !in d.order ==> r.order == d.order
    ensures forall i :: 0 <= i < |d.order| && d.order[i] == k && Wf(d) ==> r.order == d.order[..i] + d.order[i + 1..]
    ensures Wf(d) ==> Wf(r)
  {
    var order := Without(d.order, k);
    assert Wf(d) ==> Distinct(order) && forall i :: 0 <= i < |d.order| && d.order[i] == k ==> order == d.order[..i] + d.order[i + 1..] by {
      if Wf(d) {
        WithoutDistinct(d.order, k);
        forall i | 0 <= i < |d.order| && d.order[i] == k {
          WithoutAt(d.order, k, i);
        }
      }
    }
    Dict(order, d.values - {k})
  }

  /**
   * Assigning the pairs of `ps`, in order, onto `d` — a loop of `obj[k] = v`,
   * or `{ ...d, ...other }` when `ps` is `Entries(other)`: the keys of `d`
   * keep their places at the front, and on a repeated key the last pair wins.
   */
  function Assign(d: Dict, ps: seq<(string, string)>): (r: Dict)
    ensures |d.order| <= |r.order| && r.order[..|d.order|] == d.order
    ensures r.values == d.values + LastWins(ps)
    ensures Wf(d) ==> Wf(r)
    decreases |ps|
  {
    if |ps| == 0 then d
    else
      var d' := Put(d, ps[0].0, ps[0].1);
      var r := Assign(d', ps[1..]);
      assert d'.order[..|d.order|] == d.order;
      r
  }

  /**
   * The order `Assign` leaves: the keys of `d`, then each key of `ps` that
   * `d` lacks, once, where it is first assigned.
   */
  lemma {:induction false} AssignOrder(d: Dict, ps: seq<(string, string)>)
    ensures Assign(d, ps).order == d.order + NewKeys(d.order, KeysOf(ps))
    decreases |ps|
  {
    if |ps| > 0 {
      var d' := Put(d, ps[0].0, ps[0].1);
      AssignOrder(d', ps[1..]);
      AssignOrderStep(d.order, d'.order, Assign(d, ps).order, ps[0].0, KeysOf(ps[1..]));
    }
  }

  /** One assignment's effect on the order, then the rest's. */
  lemma AssignOrderStep(order: seq<string>, order': seq<string>, final: seq<string>, k: string, ks: seq<string>)
    requires order' == if k in order then order else order + [k]
    requires final == order' + NewKeys(order', ks)
    ensures final == order + NewKeys(order, [k] + ks)
  {
    assert ([k] + ks)[1..] == ks;
  }

  /** The keys of `ps`, in order, repeats included. */
  function KeysOf(ps: seq<(string, string)>): (ks: seq<string>)
    ensures |ks| == |ps|
    ensures forall i :: 0 <= i < |ps| ==> ks[i] == ps[i].0
  {
    if |ps| == 0 then [] else [ps[0].0] + KeysOf(ps[1..])
  }

  /**
   * The keys of `ks` that are not in `known`, each once at its first
   * occurrence, in the order of `ks`: what assigning them appends.
   */
  function NewKeys(known: seq<string>, ks: seq<string>): (r: seq<string>)
    ensures forall k :: k in r <==> k in ks && k !in known
    decreases |ks|
  {
    if |ks| == 0 then []
    else if ks[0] in known then NewKeys(known, ks[1..])
    else [ks[0]] + NewKeys(known + [ks[0]], ks[1..])
  }

  /** Keys that are distinct and not known already are all new, in their own order. */
  lemma {:induction false} NewKeysOfFresh(known: seq<string>, ks: seq<string>)
    requires Distinct(ks)
    requires forall i :: 0 <= i < |ks| ==> ks[i] !in known
    ensures NewKeys(known, ks) == ks
    decreases |ks|
  {
    if |ks| > 0 {
      assert Distinct(ks[1..]) by {
        forall i, j | 0 <= i < j < |ks[1..]| ensures ks[1..][i] != ks[1..][j] {
          assert ks[1..][i] == ks[i + 1] && ks[1..][j] == ks[j + 1];
        }
      }
      forall i | 0 <= i < |ks[1..]| ensures ks[1..][i] !in known + [ks[0]] {
        assert ks[1..][i] == ks[i + 1];
      }
      NewKeysOfFresh(known + [ks[0]], ks[1..]);
    }
  }

  /** The map a sequence of assignments leaves behind: for each key, the value of its last assignment. */
  function LastWins(ps: seq<(string, string)>): map<string, string> {
    if |ps| == 0 then map[] else map[ps[0].0 := ps[0].1] + LastWins(ps[1..])
  }

  /** `{ ...a, ...b }`: `b`'s values win on shared keys, `a`'s keys stay in front. */
  function Spread(a: Dict, b: Dict): (r: Dict)
    requires Wf(a) && Wf(b)
    ensures Wf(r)
    ensures r.values == a.values + b.values
    ensures |a.order| <= |r.order| && r.order[..|a.order|] == a.order
    ensures r.order == a.order + NewKeys(a.order, b.order)
  {
    var r := Assign(a, Entries(b));
    LastWinsOfEntries(b);
    AssignOrder(a, Entries(b));
    assert KeysOf(Entries(b)) == b.order;
    r
  }

  /** With no shared key, the spread lists `a`'s keys and then `b`'s, each in its own order. */
  lemma SpreadDisjoint(a: Dict, b: Dict)
    requires Wf(a) && Wf(b)
    requires forall k :: k in b.values ==> k !in a.values
    ensures Spread(a, b).order == a.order + b.order
  {
    NewKeysOfFresh(a.order, b.order);
  }

  /** The entries of an object assign exactly its map. */
  lemma LastWinsOfEntries(d: Dict)
    requires Wf(d)
    ensures LastWins(Entries(d)) == d.values
  {
    var m := LastWins(Entries(d));
    EntriesKeys(d);
    forall k | k in d.values ensures m[k] == d.values[k] {
      EntryValue(d, k);
    }
  }

  /** The entries of an object assign exactly its keys. */
  lemma EntriesKeys(d: Dict)
    requires Wf(d)
    ensures forall k :: k in LastWins(Entries(d)) <==> k in d.values
  {
    var es := Entries(d);
    LastWinsKeys(es);
    forall k | k in LastWins(es) ensures k in d.values {
      var i :| 0 <= i < |es| && es[i].0 == k;
      assert d.order[i] == k;
    }
    forall k | k in d.values ensures k in LastWins(es) {
      var i :| 0 <= i < |d.order| && d.order[i] == k;
      assert es[i].0 == k;
    }
  }

  /** A key's only entry assigns its value. */
  lemma EntryValue(d: Dict, k: string)
    requires Wf(d) && k in d.values
    ensures k in LastWins(Entries(d)) && LastWins(Entries(d))[k] == d.values[k]
  {
    var es := Entries(d);
    var i :| 0 <= i < |d.order| && d.order[i] == k;
    assert forall j :: 0 <= j < |es| && j != i ==> es[j].0 != es[i].0;
    LastWinsAt(es, i);
  }

  /** The keys a sequence of assignments defines. */
  lemma {:induction false} LastWinsKeys(ps: seq<(string, string)>)
    ensures forall k :: k in LastWins(ps) <==> exists i :: 0 <= i < |ps| && ps[i].0 == k
  {
    if |ps| > 0 {
      LastWinsKeys(ps[1..]);
      forall k | k in LastWins(ps) ensures exists i :: 0 <= i < |ps| && ps[i].0 == k {
        if k != ps[0].0 {
          assert k in LastWins(ps[1..]);
          var i :| 0 <= i < |ps[1..]| && ps[1..][i].0 == k;
          assert ps[i + 1].0 == k;
        }
      }
      forall k, i | 0 <= i < |ps| && ps[i].0 == k ensures k in LastWins(ps) {
        if i > 0 {
          assert ps[1..][i - 1].0 == k;
        }
      }
    }
  }

  /** Every entry of the resulting map is one of the assignments. */
  lemma {:induction false} LastWinsFrom(ps: seq<(string, string)>)
    ensures forall k :: k in LastWins(ps) ==> (k, LastWins(ps)[k]) in ps
  {
    if |ps| > 0 {
      LastWinsFrom(ps[1..]);
      forall k | k in LastWins(ps) ensures (k, LastWins(ps)[k]) in ps {
        if k != ps[0].0 {
          assert (k, LastWins(ps[1..])[k]) in ps[1..];
        }
      }
    }
  }

  /** When a key is assigned once, at `i`, its value is the one assigned there. */
  lemma {:induction false} LastWinsAt(ps: seq<(string, string)>, i: nat)
    requires i < |ps|
    requires forall j :: 0 <= j < |ps| && j != i ==> ps[j].0 != ps[i].0
    ensures ps[i].0 in LastWins(ps) && LastWins(ps)[ps[i].0] == ps[i].1
  {
    if i > 0 {
      LastWinsAt(ps[1..], i - 1);
    } else {
      LastWinsKeys(ps[1..]);
    }
  }

  /** A well-formed object has as many entries as keys. */
  lemma {:induction false} SizeOfWf(d: Dict)
    requires Wf(d)
    ensures |d.values| == |d.order|
  {
    DistinctCard(d.order);
    assert d.values.Keys == set k | k in d.order;
  }

  lemma {:induction false} DistinctCard(ks: seq<string>)
    requires Distinct(ks)
    ensures |set k | k in ks| == |ks|
  {
    if |ks| > 0 {
      DistinctCard(ks[1..]);
      assert (set k | k in ks) == {ks[0]} + (set k | k in ks[1..]);
    }
  }
}

=== FILE: docx_layout.dfy ===
/**
 * The paragraphs of the DOCX export: title, subtitle, the overview heading
 * and the description, then a features, a specifications and a benefits
 * section, each present exactly when its switch is on (even when it has no
 * items), and a footer. Unlike the PDF nothing is capped. Run styling
 * (sizes, colours, spacing) is left out; what is kept is which paragraph
 * carries which text.
 */
module DocxLayout {
  import opened Wrappers
  import opened Dict
  import opened Types
  import opened ExportRequest

  datatype Paragraph =
    | TitlePara(text: string)
    | SubtitlePara(text: string)
    | HeadingPara(text: string)
    | BodyPara(text: string)
    /** A bulleted item: `• ${item}`. */
    | ItemPara(text: string)
    /** A specification: the bold caption `${key}: ` and the value. */
    | SpecPara(caption: string, value: string)
    | FooterPara(text: string)

  const Bullet := "• "
  const FeaturesHeading := "Key Features"
  const SpecsHeading := "Specifications"
  const BenefitsHeading := "Why Choose This Product"

  function Items(xs: seq<string>): (ps: seq<Paragraph>)
    ensures |ps| == |xs|
    ensures forall i :: 0 <= i < |ps| ==> ps[i] == ItemPara(Bullet + xs[i])
  {
    seq(|xs|, i requires 0 <= i < |xs| => ItemPara(Bullet + xs[i]))
  }

  function SpecParas(es: seq<(string, string)>): (ps: seq<Paragraph>)
    ensures |ps| == |es|
    ensures forall i :: 0 <= i < |ps| ==> ps[i] == SpecPara(es[i].0 + ": ", es[i].1)
  {
    seq(|es|, i requires 0 <= i < |es| => SpecPara(es[i].0 + ": ", es[i].1))
  }

  /** Title, subtitle, the overview heading and the description. */
  function Opening(content: GeneratedContent): seq<Paragraph> {
    [ TitlePara(content.title),
      SubtitlePara("Professional Product Catalog"),
      HeadingPara("Product Overview"),
      BodyPara(content.description)]
  }

  function FeaturesPart(content: GeneratedContent, opts: Options): seq<Paragraph> {
    if opts.includeFeatures then [HeadingPara(FeaturesHeading)] + Items(content.features) else []
  }

  function SpecsPart(content: GeneratedContent, opts: Options): seq<Paragraph>
    requires Wf(content.specifications)
  {
    if opts.includeSpecs then [HeadingPara(SpecsHeading)] + SpecParas(Entries(content.specifications)) else []
  }

  function BenefitsPart(content: GeneratedContent, opts: Options): seq<Paragraph> {
    if opts.includeBenefits then [HeadingPara(BenefitsHeading)] + Items(content.benefits) else []
  }

  function Closing(date: string): seq<Paragraph> {
    [FooterPara("Generated on " + date + " with Product Catalog Generator")]
  }

  /** The document's paragraphs; `date` is the rendered date of the footer. */
  function DocxParagraphs(content: GeneratedContent, opts: Options, date: string): seq<Paragraph>
    requires Wf(content.specifications)
  {
    Opening(content) + FeaturesPart(content, opts) + SpecsPart(content, opts) + BenefitsPart(content, opts) + Closing(date)
  }

  /** One paragraph per item and a heading per section switched on, and five fixed paragraphs. */
  lemma DocxCount(content: GeneratedContent, opts: Options, date: string)
    requires Wf(content.specifications)
    ensures |DocxParagraphs(content, opts, date)| ==
      5 + (if opts.includeFeatures then 1 + |content.features| else 0)
        + (if opts.includeSpecs then 1 + |content.specifications.order| else 0)
        + (if opts.includeBenefits then 1 + |content.benefits| else 0)
  {
  }

  // ---------------------------------------------------------------------
  // Reading the document back
  // ---------------------------------------------------------------------

  /** The paragraphs after the first heading `h`, or `None` when there is no such heading. */
  function After(ps: seq<Paragraph>, h: string): Option<seq<Paragraph>> {
    if |ps| == 0 then None
    else if ps[0] == HeadingPara(h) then Some(ps[1..])
    else After(ps[1..], h)
  }

  /** The items of the leading bulleted paragraphs, bullets removed. */
  function LeadingItems(ps: seq<Paragraph>): seq<string> {
    if |ps| > 0 && ps[0].ItemPara? && |ps[0].text| >= 2 && ps[0].text[..2] == Bullet
    then [ps[0].text[2..]] + LeadingItems(ps[1..])
    else []
  }

  /** The entries of the leading specification paragraphs, the ": " removed from each caption. */
  function LeadingSpecs(ps: seq<Paragraph>): seq<(string, string)> {
    if |ps| > 0 && ps[0].SpecPara? && |ps[0].caption| >= 2
    then [(ps[0].caption[..|ps[0].caption| - 2], ps[0].value)] + LeadingSpecs(ps[1..])
    else []
  }

  /** A section's items as a reader sees them: the bullets under its heading. */
  function SectionItems(ps: seq<Paragraph>, h: string): Option<seq<string>> {
    match After(ps, h)
    case None => None
    case Some(rest) => Some(LeadingItems(rest))
  }

  function SectionSpecs(ps: seq<Paragraph>, h: string): Option<seq<(string, string)>> {
    match After(ps, h)
    case None => None
    case Some(rest) => Some(LeadingSpecs(rest))
  }

  lemma {:induction false} AfterAppend(a: seq<Paragraph>, b: seq<Paragraph>, h: string)
    requires HeadingPara(h) !in a
    ensures After(a + b, h) == After(b, h)
  {
    if |a| > 0 {
      assert (a + b)[1..] == a[1..] + b;
      AfterAppend(a[1..], b, h);
    } else {
      assert a + b == b;
    }
  }

  lemma AfterHere(b: seq<Paragraph>, h: string)
    ensures After([HeadingPara(h)] + b, h) == Some(b)
  {
    assert ([HeadingPara(h)] + b)[1..] == b;
  }

  lemma {:induction false} LeadingItemsOf(xs: seq<string>, rest: seq<Paragraph>)
    requires rest == [] || !rest[0].ItemPara?
    ensures LeadingItems(Items(xs) + rest) == xs
    decreases |xs|
  {
    var ps := Items(xs) + rest;
    if |xs| == 0 {
      assert ps == rest;
    } else {
      assert ps[0] == ItemPara(Bullet + xs[0]);
      assert (Bullet + xs[0])[..2] == Bullet && (Bullet + xs[0])[2..] == xs[0];
      assert ps[1..] == Items(xs[1..]) + rest;
      LeadingItemsOf(xs[1..], rest);
    }
  }

  lemma {:induction false} LeadingSpecsOf(es: seq<(string, string)>, rest: seq<Paragraph>)
    requires rest == [] || !rest[0].SpecPara?
    ensures LeadingSpecs(SpecParas(es) + rest) == es
    decreases |es|
  {
    var ps := SpecParas(es) + rest;
    if |es| == 0 {
      assert ps == rest;
    } else {
      var caption := es[0].0 + ": ";
      assert ps[0] == SpecPara(caption, es[0].1);
      assert caption[..|caption| - 2] == es[0].0;
      assert ps[1..] == SpecParas(es[1..]) + rest;
      LeadingSpecsOf(es[1..], rest);
    }
  }

  lemma {:induction false} AfterMissing(ps: seq<Paragraph>, h: string)
    requires HeadingPara(h) !in ps
    ensures After(ps, h) == None
  {
    if |ps| > 0 {
      assert HeadingPara(h) !in ps[1..];
      AfterMissing(ps[1..], h);
    }
  }

  /** A bulleted section after a part without its heading and before a part that does not start with a bullet reads back as its items. */
  lemma ReadItems(pre: seq<Paragraph>, xs: seq<string>, post: seq<Paragraph>, h: string)
    requires HeadingPara(h) !in pre
    requires post == [] || !post[0].ItemPara?
    ensures SectionItems(pre + ([HeadingPara(h)] + Items(xs)) + post, h) == Some(xs)
  {
    assert pre + ([HeadingPara(h)] + Items(xs)) + post == pre + ([HeadingPara(h)] + (Items(xs) + post));
    AfterAppend(pre, [HeadingPara(h)] + (Items(xs) + post), h);
    AfterHere(Items(xs) + post, h);
    LeadingItemsOf(xs, post);
  }

  lemma ReadSpecs(pre: seq<Paragraph>, es: seq<(string, string)>, post: seq<Paragraph>, h: string)
    requires HeadingPara(h) !in pre
    requires post == [] || !post[0].SpecPara?
    ensures SectionSpecs(pre + ([HeadingPara(h)] + SpecParas(es)) + post, h) == Some(es)
  {
    assert pre + ([HeadingPara(h)] + SpecParas(es)) + post == pre + ([HeadingPara(h)] + (SpecParas(es) + post));
    AfterAppend(pre, [HeadingPara(h)] + (SpecParas(es) + post), h);
    AfterHere(SpecParas(es) + post, h);
    LeadingSpecsOf(es, post);
  }

  /** Only a section's own heading paragraph carries its heading. */
  lemma HeadingsApart(content: GeneratedContent, opts: Options, date: string)
    requires Wf(content.specifications)
    ensures HeadingPara(FeaturesHeading) !in Opening(content) + SpecsPart(content, opts) + BenefitsPart(content, opts) + Closing(date)
    ensures HeadingPara(SpecsHeading) !in Opening(content) + FeaturesPart(content, opts) + BenefitsPart(content, opts) + Closing(date)
    ensures HeadingPara(BenefitsHeading) !in Opening(content) + FeaturesPart(content, opts) + SpecsPart(content, opts) + Closing(date)
  {
    var es := Entries(content.specifications);
    assert forall h :: HeadingPara(h) !in Items(content.features);
    assert forall h :: HeadingPara(h) !in Items(content.benefits);
    assert forall h :: HeadingPara(h) !in SpecParas(es);
  }

  /**
   * Reading the document back recovers every feature in order under "Key
   * Features" exactly when that switch is on; with the switch off there is
   * no such heading at all.
   */
  lemma FeaturesRecovered(content: GeneratedContent, opts: Options, date: string)
    requires Wf(content.specifications)
    ensures SectionItems(DocxParagraphs(content, opts, date), FeaturesHeading) ==
      if opts.includeFeatures then Some(content.features) else None
  {
    var ps := DocxParagraphs(content, opts, date);
    var post := SpecsPart(content, opts) + BenefitsPart(content, opts) + Closing(date);
    HeadingsApart(content, opts, date);
    if opts.includeFeatures {
      assert ps == Opening(content) + ([HeadingPara(FeaturesHeading)] + Items(content.features)) + post;
      ReadItems(Opening(content), content.features, post, FeaturesHeading);
    } else {
      assert ps == Opening(content) + SpecsPart(content, opts) + BenefitsPart(content, opts) + Closing(date);
      AfterMissing(ps, FeaturesHeading);
    }
  }

  /** The specifications come back in key order, all of them, exactly when their switch is on. */
  lemma SpecsRecovered(content: GeneratedContent, opts: Options, date: string)
    requires Wf(content.specifications)
    ensures SectionSpecs(DocxParagraphs(content, opts, date), SpecsHeading) ==
      if opts.includeSpecs then Some(Entries(content.specifications)) else None
  {
    var ps := DocxParagraphs(content, opts, date);
    var pre := Opening(content) + FeaturesPart(content, opts);
    var post := BenefitsPart(content, opts) + Closing(date);
    HeadingsApart(content, opts, date);
    if opts.includeSpecs {
      assert ps == pre + ([HeadingPara(SpecsHeading)] + SpecParas(Entries(content.specifications))) + post;
      ReadSpecs(pre, Entries(content.specifications), post, SpecsHeading);
    } else {
      assert ps == Opening(content) + FeaturesPart(content, opts) + BenefitsPart(content, opts) + Closing(date);
      AfterMissing(ps, SpecsHeading);
    }
  }

  /** The benefits come back in order, all of them, exactly when their switch is on. */
  lemma BenefitsRecovered(content: GeneratedContent, opts: Options, date: string)
    requires Wf(content.specifications)
    ensures SectionItems(DocxParagraphs(content, opts, date), BenefitsHeading) ==
      if opts.includeBenefits then Some(content.benefits) else None
  {
    var ps := DocxParagraphs(content, opts, date);
    var pre := Opening(content) + FeaturesPart(content, opts) + SpecsPart(content, opts);
    HeadingsApart(content, opts, date);
    if opts.includeBenefits {
      assert ps == pre + ([HeadingPara(BenefitsHeading)] + Items(content.benefits)) + Closing(date);
      ReadItems(pre, content.benefits, Closing(date), BenefitsHeading);
    } else {
      assert ps == Opening(content) + FeaturesPart(content, opts) + SpecsPart(content, opts) + Closing(date);
      AfterMissing(ps, BenefitsHeading);
    }
  }
}

=== FILE: editor.dfy ===
/**
 * The content panel's edits. Each handler builds the new value of one
 * field of the generated content, or the new image list, and hands it on;
 * the functions here compute that value. Features and benefits are edited
 * by the same three operations.
 */
module EditorPanel {
  import opened Str
  import opened Dict
  import opened Types
  import opened Seqs

  // ---------------------------------------------------------------------
  // Feature and benefit lists
  // ---------------------------------------------------------------------

  /** `handleFeatureChange` / `handlewhychoseUs`: element `i` becomes `v`. */
  function EditItem(xs: seq<string>, i: nat, v: string): (r: seq<string>)
    requires i < |xs|
    ensures |r| == |xs| && r[i] == v
    ensures forall j :: 0 <= j < |xs| && j != i ==> r[j] == xs[j]
  {
    SetAt(xs, i, v)
  }

  /** `addFeature` / `addWhyChoseUs`: one empty item at the end. */
  function AddItem(xs: seq<string>): (r: seq<string>)
    ensures |r| == |xs| + 1 && r[..|xs|] == xs && r[|xs|] == ""
  {
    xs + [""]
  }

  /** `removeFeature` / `removeWhyChoseUs`: drops element `i`, keeps the rest in order. */
  function RemoveItem(xs: seq<string>, i: nat): (r: seq<string>)
    requires i < |xs|
    ensures r == xs[..i] + xs[i + 1..]
  {
    RemoveAtOnly(xs, i);
    RemoveAt(xs, i)
  }

  /** Removing the item just added gives the list back. */
  lemma AddThenRemoveItem(xs: seq<string>)
    ensures RemoveItem(AddItem(xs), |xs|) == xs
  {
    assert AddItem(xs)[..|xs|] == xs;
  }

  // ---------------------------------------------------------------------
  // Specifications
  // ---------------------------------------------------------------------

  /** `New Spec ${i}`. */
  function NewSpecKey(i: nat): string {
    "New Spec " + NatToString(i)
  }

  lemma NewSpecKeyInjective(a: nat, b: nat)
    requires NewSpecKey(a) == NewSpecKey(b)
    ensures a == b
  {
    assert NatToString(a) == NewSpecKey(a)[9..];
    assert NatToString(b) == NewSpecKey(b)[9..];
    NatToStringInjective(a, b);
  }

  /** The keys `New Spec 1` up to, not including, `New Spec i`. */
  function Skipped(i: nat): set<string> {
    set k: nat | 1 <= k < i :: NewSpecKey(k)
  }

  lemma NotYetSkipped(i: nat)
    ensures NewSpecKey(i) !in Skipped(i)
  {
    forall k: nat | 1 <= k < i ensures NewSpecKey(k) != NewSpecKey(i) {
      if NewSpecKey(k) == NewSpecKey(i) { NewSpecKeyInjective(k, i); }
    }
  }

  lemma SkippedNext(i: nat)
    requires i >= 1
    ensures Skipped(i + 1) == Skipped(i) + {NewSpecKey(i)}
  {
    forall x | x in Skipped(i + 1) ensures x in Skipped(i) + {NewSpecKey(i)} {
      var k: nat :| 1 <= k < i + 1 && x == NewSpecKey(k);
      if k < i { assert x in Skipped(i); }
    }
    assert NewSpecKey(i) in Skipped(i + 1);
    forall x | x in Skipped(i) ensures x in Skipped(i + 1) {
      var k: nat :| 1 <= k < i && x == NewSpecKey(k);
    }
  }

  /** `New Spec 1` up to, not including, `New Spec i` are all keys of `d`. */
  predicate AllTaken(d: Dict, i: nat) {
    forall k: nat :: 1 <= k < i ==> NewSpecKey(k) in d.values
  }

  lemma TakenSkipped(d: Dict, i: nat)
    requires AllTaken(d, i)
    ensures Skipped(i) <= d.values.Keys
  {
  }

  /** Skipping a taken key shrinks the set of taken keys not yet skipped. */
  lemma SkipOne(d: Dict, i: nat)
    requires i >= 1 && NewSpecKey(i) in d.values && AllTaken(d, i)
    ensures AllTaken(d, i + 1)
    ensures |d.values.Keys - Skipped(i + 1)| < |d.values.Keys - Skipped(i)|
  {
    TakenSkipped(d, i);
    NotYetSkipped(i);
    SkippedNext(i);
    var before := d.values.Keys - Skipped(i);
    assert d.values.Keys - Skipped(i + 1) == before - {NewSpecKey(i)};
    assert NewSpecKey(i) in before;
  }

  /**
   * `addSpecification`: the first of `New Spec 1`, `New Spec 2`, ... that
   * is not a key yet is added with an empty value, at the end.
   */
  method AddSpecification(d: Dict) returns (r: Dict, key: string)
    requires Wf(d)
    ensures Wf(r)
    ensures key !in d.values
    ensures exists i: nat :: i >= 1 && key == NewSpecKey(i) && AllTaken(d, i)
    ensures r.values == d.values[key := ""]
    ensures r.order == d.order + [key]
    ensures |r.values| == |d.values| + 1
  {
    var i: nat := 1;
    while NewSpecKey(i) in d.values
      invariant i >= 1 && AllTaken(d, i)
      decreases |d.values.Keys - Skipped(i)|
    {
      SkipOne(d, i);
      i := i + 1;
    }
    key := NewSpecKey(i);
    assert key !in d.order;
    r := Put(d, key, "");
  }

  /**
   * `handleSpecificationChange`: the old key is dropped when it differs
   * from the new one, then the new key is set; a new key that is not there
   * yet goes to the end.
   */
  function ChangeSpecification(d: Dict, oldKey: string, newKey: string, newValue: string): (r: Dict)
    requires Wf(d)
    ensures Wf(r)
    ensures r.values == (if oldKey != newKey then d.values - {oldKey} else d.values)[newKey := newValue]
  {
    Put(if oldKey != newKey then Remove(d, oldKey) else d, newKey, newValue)
  }

  /**
   * `newKey` holds `newValue`, `oldKey` is gone when it differs, every
   * other key is untouched (so a rename onto an existing key overwrites
   * it), and a rename to a fresh name moves the entry to the end.
   */
  lemma ChangeSpecificationFrame(d: Dict, oldKey: string, newKey: string, newValue: string)
    requires Wf(d)
    ensures var r := ChangeSpecification(d, oldKey, newKey, newValue);
      && newKey in r.values && r.values[newKey] == newValue
      && (oldKey != newKey ==> oldKey !in r.values)
      && (forall k :: k != oldKey && k != newKey ==> (k in r.values <==> k in d.values))
      && (forall k :: k != oldKey && k != newKey && k in d.values ==> r.values[k] == d.values[k])
      && (oldKey != newKey && newKey !in d.values ==> r.order == Without(d.order, oldKey) + [newKey])
      && (oldKey == newKey && newKey in d.values ==> r.order == d.order)
  {
    if oldKey != newKey && newKey !in d.values {
      assert newKey !in Remove(d, oldKey).order;
    }
  }

  lemma MapRenameBack(m: map<string, string>, a: string, b: string)
    requires a in m && b !in m && a != b
    ensures ((m - {a})[b := m[a]] - {b})[a := m[a]] == m
  {
    assert (m - {a})[b := m[a]] - {b} == m - {a};
  }

  /**
   * Renaming a key to a fresh name and back restores every value (the
   * key itself has moved to the end of the order).
   */
  lemma RenameBack(d: Dict, a: string, b: string)
    requires Wf(d) && a in d.values && b !in d.values && a != b
    ensures ChangeSpecification(ChangeSpecification(d, a, b, d.values[a]), b, a, d.values[a]).values == d.values
  {
    MapRenameBack(d.values, a, b);
  }

  /** `removeSpecification`: only that key goes; an absent key changes nothing. */
  function RemoveSpecification(d: Dict, key: string): (r: Dict)
    requires Wf(d)
    ensures Wf(r)
    ensures key !in r.values
    ensures forall k :: k != key ==> (k in r.values <==> k in d.values)
    ensures forall k :: k != key && k in d.values ==> r.values[k] == d.values[k]
    ensures key !in d.values ==> r == d
  {
    Remove(d, key)
  }

  /**
   * Removing a key just set leaves the values that removing it alone
   * leaves, whatever it held before; on a fresh name that is the original.
   */
  lemma ChangeThenRemove(d: Dict, key: string, v: string)
    requires Wf(d)
    ensures RemoveSpecification(ChangeSpecification(d, key, key, v), key).values == RemoveSpecification(d, key).values
    ensures key !in d.values ==> RemoveSpecification(ChangeSpecification(d, key, key, v), key).values == d.values
  {
    assert d.values[key := v] - {key} == d.values - {key};
  }

  // ---------------------------------------------------------------------
  // Images
  // ---------------------------------------------------------------------

  const MaxImages := 15

  /**
   * Replacing image `i` with a chosen file: its url (the object URL made
   * for the file) and alt (the file name) change, its id and position stay.
   */
  function ReplaceImage(images: seq<CatalogImage>, i: nat, url: string, fileName: string): (r: seq<CatalogImage>)
    requires i < |images|
    ensures |r| == |images|
    ensures r[i].id == images[i].id && r[i].position == images[i].position
    ensures r[i].url == url && r[i].alt == fileName
    ensures forall j :: 0 <= j < |images| && j != i ==> r[j] == images[j]
  {
    SetAt(images, i, images[i].(url := url, alt := fileName))
  }

  /** Replacing keeps every position, so a list whose positions are its indices stays so. */
  lemma ReplaceKeepsPositions(images: seq<CatalogImage>, i: nat, url: string, fileName: string)
    requires i < |images| && Positioned(images)
    ensures Positioned(ReplaceImage(images, i, url, fileName))
  {
  }

  /** The Remove button: image `i` is filtered out, the others keep their order and their positions. */
  function RemoveImage(images: seq<CatalogImage>, i: nat): (r: seq<CatalogImage>)
    requires i < |images|
    ensures r == images[..i] + images[i + 1..]
    ensures |r| == |images| - 1
    ensures forall j :: i <= j < |r| ==> r[j].position == images[j + 1].position
  {
    RemoveAtOnly(images, i);
    RemoveAt(images, i)
  }

  /**
   * Positions are not renumbered on removal: removing any image but the
   * last from a list whose positions are its indices leaves a list whose
   * positions are not.
   */
  lemma RemoveLeavesGap(images: seq<CatalogImage>, i: nat)
    requires Positioned(images) && i + 1 < |images|
    ensures !Positioned(RemoveImage(images, i))
  {
    assert RemoveImage(images, i)[i] == images[i + 1];
  }

  /**
   * The Add Image input, offered only below fifteen images: the new image
   * goes at the end with position equal to the old length; its id is the
   * time stamp and the file name joined by '-'.
   */
  function AddImage(images: seq<CatalogImage>, now: nat, fileName: string, url: string): (r: seq<CatalogImage>)
    requires |images| < MaxImages
    ensures |r| == |images| + 1 <= MaxImages && r[..|images|] == images
    ensures r[|images|].position == |images| && r[|images|].url == url && r[|images|].alt == fileName
    ensures r[|images|].id == NatToString(now) + "-" + fileName
    ensures Positioned(images) ==> Positioned(r)
  {
    images + [CatalogImage(NatToString(now) + "-" + fileName, url, fileName, |images|)]
  }

  /** Removing the image just added gives the list back. */
  lemma AddThenRemoveImage(images: seq<CatalogImage>, now: nat, fileName: string, url: string)
    requires |images| < MaxImages
    ensures RemoveImage(AddImage(images, now, fileName, url), |images|) == images
  {
    assert AddImage(images, now, fileName, url)[..|images|] == images;
  }
}

=== FILE: export_request.dfy ===
/**
 * What both export routes share: the request settings with their
 * defaults, the colour palettes with their fallback, and the download
 * filename.
 */
module ExportRequest {
  import opened Wrappers
  import opened Str
  import opened Types

  datatype Format = Pdf | Docx
  datatype Quality = Standard | High | Print

  /** The export switches. */
  datatype Options = Options(includeImages: bool, includeSpecs: bool, includeFeatures: bool, includeBenefits: bool)

  /** The switches as sent: each may be missing. */
  datatype SentOptions = SentOptions(
    includeImages: Option<bool>, includeSpecs: Option<bool>,
    includeFeatures: Option<bool>, includeBenefits: Option<bool>)

  datatype Settings = Settings(format: Format, quality: Quality, options: Options)

  const AllOptions := Options(true, true, true, true)

  /** The switches of the validated `{}` that a missing `options` becomes: each reads as `undefined`, so each is off. */
  const NoOptions := Options(false, false, false, false)

  function ParseFormat(s: string): (r: Option<Format>)
    ensures r.Some? <==> s == "pdf" || s == "docx"
  {
    if s == "pdf" then Some(Pdf) else if s == "docx" then Some(Docx) else None
  }

  function ParseQuality(s: string): (r: Option<Quality>)
    ensures r.Some? <==> s == "standard" || s == "high" || s == "print"
  {
    if s == "standard" then Some(Standard)
    else if s == "high" then Some(High)
    else if s == "print" then Some(Print)
    else None
  }

  /**
   * Each missing switch of a sent `options` object is on. A missing object
   * becomes the literal default `{}`, whose switches are not filled in, so
   * every switch is off.
   */
  function DefaultOptions(sent: Option<SentOptions>): (o: Options)
    ensures sent.None? ==> o == NoOptions
    ensures sent.Some? ==> o.includeSpecs == (sent.value.includeSpecs != Some(false))
    ensures sent.Some? ==> o.includeFeatures == (sent.value.includeFeatures != Some(false))
    ensures sent.Some? ==> o.includeBenefits == (sent.value.includeBenefits != Some(false))
    ensures sent.Some? ==> o.includeImages == (sent.value.includeImages != Some(false))
  {
    match sent
    case None => NoOptions
    case Some(s) =>
      Options(s.includeImages.GetOr(true), s.includeSpecs.GetOr(true),
              s.includeFeatures.GetOr(true), s.includeBenefits.GetOr(true))
  }

  /**
   * The settings part of the export schema: `format` is required and is
   * "pdf" or "docx"; `quality` is one of three values, "high" when
   * missing; the options default switch by switch.
   */
  function ValidateSettings(format: Option<string>, quality: Option<string>, options: Option<SentOptions>): (r: Result<Settings>)
    ensures r.Ok? <==> format.Some? && ParseFormat(format.value).Some? && (quality.None? || ParseQuality(quality.value).Some?)
    ensures r.Ok? ==> Some(r.value.format) == ParseFormat(format.value)
    ensures r.Ok? && quality.None? ==> r.value.quality == High
    ensures r.Ok? && quality.Some? ==> Some(r.value.quality) == ParseQuality(quality.value)
    ensures r.Ok? ==> r.value.options == DefaultOptions(options)
  {
    if format.None? then Err("\"format\" is required")
    else match ParseFormat(format.value)
      case None => Err("\"format\" must be one of [pdf, docx]")
      case Some(f) =>
        if quality.None? then Ok(Settings(f, High, DefaultOptions(options)))
        else match ParseQuality(quality.value)
          case None => Err("\"quality\" must be one of [standard, high, print]")
          case Some(q) => Ok(Settings(f, q, DefaultOptions(options)))
  }

  /** Sending an empty `options` object turns every switch on; leaving it out turns every switch off. */
  lemma EmptyOptionsDiffer()
    ensures DefaultOptions(Some(SentOptions(None, None, None, None))) == AllOptions
    ensures DefaultOptions(None) == NoOptions
  {
  }

  /**
   * The `catalogData.generatedContent` rules of the export schema on the
   * model's typed content: `Joi.string()` refuses the empty string, for the
   * title, the description and every feature and benefit.
   */
  predicate ContentAccepted(c: GeneratedContent) {
    && c.title != "" && c.description != ""
    && (forall i :: 0 <= i < |c.features| ==> c.features[i] != "")
    && (forall i :: 0 <= i < |c.benefits| ==> c.benefits[i] != "")
  }

  /**
   * The whole export schema: `catalogData` comes first, then the settings.
   * The product, the layout's three names and the image list always have
   * the required shape in the model's types.
   */
  function ValidateExport(content: GeneratedContent, format: Option<string>, quality: Option<string>, options: Option<SentOptions>): (r: Result<Settings>)
    ensures r.Ok? <==> ContentAccepted(content) && ValidateSettings(format, quality, options).Ok?
    ensures r.Ok? ==> r.value == ValidateSettings(format, quality, options).value
    ensures !ContentAccepted(content) ==> r.Err?
  {
    if !ContentAccepted(content) then Err("\"catalogData.generatedContent\" is not allowed to hold an empty string")
    else ValidateSettings(format, quality, options)
  }

  /**
   * An export with an empty feature or benefit, such as the editor's Add
   * button leaves until it is filled in, is refused whatever the settings.
   */
  lemma EmptyItemRefused(content: GeneratedContent, format: Option<string>, quality: Option<string>, options: Option<SentOptions>)
    ensures ValidateExport(content.(features := content.features + [""]), format, quality, options).Err?
    ensures ValidateExport(content.(benefits := content.benefits + [""]), format, quality, options).Err?
  {
    var f := content.(features := content.features + [""]);
    assert f.features[|content.features|] == "";
    var b := content.(benefits := content.benefits + [""]);
    assert b.benefits[|content.benefits|] == "";
  }

  /** A colour, each channel in hundredths. */
  datatype Rgb = Rgb(r: nat, g: nat, b: nat)

  datatype Palette = Palette(primary: Rgb, secondary: Rgb)

  /** The PDF palette of each colour scheme. */
  function SchemePalette(c: ColorScheme): Palette {
    match c
    case Blue => Palette(Rgb(15, 39, 92), Rgb(93, 96, 100))
    case Purple => Palette(Rgb(49, 23, 93), Rgb(97, 93, 100))
    case Green => Palette(Rgb(2, 59, 41), Rgb(93, 100, 97))
    case Red => Palette(Rgb(92, 26, 21), Rgb(100, 93, 93))
  }

  /** `colorSchemes[name] || colorSchemes.blue`: a scheme name picks its palette, anything else gets blue's. */
  function PaletteOf(name: string): (p: Palette)
    ensures ParseColorScheme(name).None? ==> p == SchemePalette(Blue)
    ensures forall c :: ColorSchemeName(c) == name ==> p == SchemePalette(c)
  {
    match ParseColorScheme(name)
    case None => SchemePalette(Blue)
    case Some(c) => SchemePalette(c)
  }

  /** Different schemes have different primary colours, so the fallback is visible only as blue. */
  lemma PalettesDistinct(a: ColorScheme, b: ColorScheme)
    requires a != b
    ensures SchemePalette(a).primary != SchemePalette(b).primary
  {
  }

  /** `title.replace(/[^a-zA-Z0-9]/g, '-')`. */
  function Sanitize(title: string): (r: string)
    ensures |r| == |title|
    ensures forall i :: 0 <= i < |r| ==> r[i] == (if IsAsciiAlnum(title[i]) then title[i] else '-')
  {
    seq(|title|, i requires 0 <= i < |title| => if IsAsciiAlnum(title[i]) then title[i] else '-')
  }

  /** A sanitised name holds only letters, digits and dashes, and sanitising it again changes nothing. */
  lemma SanitizeIdempotent(title: string)
    ensures forall i :: 0 <= i < |Sanitize(title)| ==> IsAsciiAlnum(Sanitize(title)[i]) || Sanitize(title)[i] == '-'
    ensures Sanitize(Sanitize(title)) == Sanitize(title)
  {
  }

  /** A title made only of letters and digits is kept as it is. */
  lemma SanitizeKeepsAlnum(title: string)
    requires forall i :: 0 <= i < |title| ==> IsAsciiAlnum(title[i])
    ensures Sanitize(title) == title
  {
  }

  function FormatExtension(f: Format): string {
    match f
    case Pdf => "pdf"
    case Docx => "docx"
  }

  /** The `Content-Disposition` filename: the sanitised title and the format's extension. */
  function DownloadName(title: string, f: Format): (name: string)
    ensures |name| > |title| && name[..|title|] == Sanitize(title)
    ensures name[|title|..] == "." + FormatExtension(f)
  {
    Sanitize(title) + "." + FormatExtension(f)
  }
}

=== FILE: generation.dfy ===
/**
 * The generation screen's pipeline: scrape the product page, generate the
 * content, gather the images, then assemble the catalog. Each remote call
 * is a parameter giving what the call returned or threw. The screen's step,
 * progress and error are recorded at every point where the pipeline waits,
 * which is where the page shows them; the 1000 ms pause before the catalog
 * is handed on changes nothing shown.
 */
module Generation {
  import opened Wrappers
  import opened Str
  import opened Dict
  import opened Types
  import Scraper
  import Ai
  import Images

  datatype GenStep = Scraping | AiGeneration | ImageProcessing | Complete

  function GenStepIndex(s: GenStep): nat {
    match s
    case Scraping => 0
    case AiGeneration => 1
    case ImageProcessing => 2
    case Complete => 3
  }

  /** A step row's marker, given the current step. */
  function StatusOf(row: GenStep, current: GenStep): (m: Marker)
    ensures m == Completed <==> GenStepIndex(row) < GenStepIndex(current)
    ensures m == Pending <==> GenStepIndex(row) > GenStepIndex(current)
    ensures m == Active <==> row == current
  {
    MarkerAt(GenStepIndex(row), GenStepIndex(current))
  }

  /** What the screen shows. */
  datatype Snapshot = Snapshot(step: GenStep, progress: int, error: Option<string>)

  /** A remote call: what it returned, or what it threw; `None` for a thrown value that is not an `Error`. */
  datatype Call<T> = Returned(value: T) | Threw(error: Option<string>)

  const FailureText := "An error occurred during generation"

  /** The message shown for a thrown value. */
  function Message<T>(c: Call<T>): string
    requires c.Threw?
  {
    c.error.GetOr(FailureText)
  }

  /** The generation request's fixed options: professional tone, medium length, both lists. */
  const Options := Ai.AiOptions(Ai.Professional, Ai.Medium, true, true)

  /** A processed upload as the images client returns it. */
  datatype UploadedImage = UploadedImage(id: string, url: string, originalName: string)

  const ServerOrigin := "http://localhost:3001"

  /** The remote services, each as a function of what it is asked. */
  datatype Services = Services(
    scrape: string -> Call<Scraper.ScrapedData>,
    generate: (Scraper.ScrapedData, Ai.AiOptions) -> Call<GeneratedContent>,
    search: Images.SearchRequest -> Call<seq<Images.StockImage>>,
    upload: seq<UserFile> -> Call<seq<UploadedImage>>)

  /** Stock images in the catalog's shape; position is the index. */
  function FromStock(stock: seq<Images.StockImage>): (r: seq<CatalogImage>)
    ensures |r| == |stock| && Positioned(r)
    ensures forall i :: 0 <= i < |r| ==>
      r[i].id == stock[i].source.id && r[i].url == stock[i].source.url && r[i].alt == stock[i].source.alt
  {
    seq(|stock|, i requires 0 <= i < |stock| => CatalogImage(stock[i].source.id, stock[i].source.url, stock[i].source.alt, i))
  }

  /** Uploaded images in the catalog's shape: the url made absolute on the API server, the original name as alt, position the index. */
  function FromUploads(uploads: seq<UploadedImage>): (r: seq<CatalogImage>)
    ensures |r| == |uploads| && Positioned(r)
    ensures forall i :: 0 <= i < |r| ==>
      r[i].id == uploads[i].id && r[i].url == ServerOrigin + uploads[i].url && r[i].alt == uploads[i].originalName
  {
    seq(|uploads|, i requires 0 <= i < |uploads| => CatalogImage(uploads[i].id, ServerOrigin + uploads[i].url, uploads[i].originalName, i))
  }

  /** The stock search asks for six landscape images about the category, or the scraped title when there is none. */
  function StockRequest(content: GeneratedContent, scraped: Scraper.ScrapedData): (r: Images.SearchRequest)
    ensures r.count == Images.DefaultCount && r.orientation == Images.Landscape
    ensures Truthy(content.category) ==> r.query == content.category.value
    ensures !Truthy(content.category) ==> r.query == scraped.title
  {
    Images.SearchRequest(OrElse(content.category, scraped.title), 6, Images.Landscape)
  }

  /** Which image call the pipeline makes. */
  datatype ImageSource = StockSearch(request: Images.SearchRequest) | UploadFiles(files: seq<UserFile>) | NoImages

  function SourceFor(product: ProductData, content: GeneratedContent, scraped: Scraper.ScrapedData): (r: ImageSource)
    requires product.images.Files?
    ensures r.StockSearch? <==> product.useAutomaticImages
    ensures r.UploadFiles? <==> !product.useAutomaticImages && |product.images.files| > 0
    ensures r.UploadFiles? ==> r.files == product.images.files
    ensures r.StockSearch? ==> r.request == StockRequest(content, scraped)
  {
    if product.useAutomaticImages then StockSearch(StockRequest(content, scraped))
    else if |product.images.files| > 0 then UploadFiles(product.images.files)
    else NoImages
  }

  /** The images of the catalog, or what the image call threw. */
  function GatherImages(services: Services, source: ImageSource): (r: Call<seq<CatalogImage>>)
    ensures r.Returned? ==> Positioned(r.value)
    ensures source.NoImages? ==> r == Returned([])
    ensures source.StockSearch? && services.search(source.request).Returned? ==> r == Returned(FromStock(services.search(source.request).value))
    ensures source.UploadFiles? && services.upload(source.files).Returned? ==> r == Returned(FromUploads(services.upload(source.files).value))
    ensures source.StockSearch? && services.search(source.request).Threw? ==> r == Threw(services.search(source.request).error)
    ensures source.UploadFiles? && services.upload(source.files).Threw? ==> r == Threw(services.upload(source.files).error)
  {
    match source
    case NoImages => Returned([])
    case StockSearch(req) =>
      (match services.search(req)
       case Returned(stock) => Returned(FromStock(stock))
       case Threw(e) => Threw(e))
    case UploadFiles(files) =>
      (match services.upload(files)
       case Returned(ups) => Returned(FromUploads(ups))
       case Threw(e) => Threw(e))
  }

  /**
   * `{ ...productData, ...scraped }`: every property the scraped record has
   * replaces the product's, so the page's images replace the chosen files
   * and a missing price becomes `null`; the switches, the extracted images
   * and the edited lists stay.
   */
  function MergeScraped(product: ProductData, scraped: Scraper.ScrapedData): (r: ProductData)
    ensures r.title == Some(scraped.title) && r.description == Some(scraped.description)
    ensures r.price == scraped.price && r.specifications == Some(scraped.specifications)
    ensures r.images == Found(scraped.images) && r.url == scraped.url && r.scrapedAt == Some(scraped.scrapedAt)
    ensures r.useAutomaticImages == product.useAutomaticImages && r.extractedImages == product.extractedImages
    ensures r.features == product.features && r.benefits == product.benefits
  {
    product.(
      title := Some(scraped.title),
      description := Some(scraped.description),
      price := scraped.price,
      specifications := Some(scraped.specifications),
      images := Found(scraped.images),
      url := scraped.url,
      scrapedAt := Some(scraped.scrapedAt))
  }

  const DefaultLayout := Layout(Modern, Blue, Sans)

  /** The catalog handed on. */
  function Assemble(product: ProductData, scraped: Scraper.ScrapedData, content: GeneratedContent, images: seq<CatalogImage>): (c: CatalogData)
    ensures c.product == MergeScraped(product, scraped) && c.generatedContent == content
    ensures c.layout == DefaultLayout && c.images == images && c.contentBlocks.None?
  {
    CatalogData(MergeScraped(product, scraped), content, DefaultLayout, images, None)
  }

  /** What a run shows and what it hands on. */
  datatype RunResult = RunResult(shown: seq<Snapshot>, delivered: Option<CatalogData>)

  /** The last thing shown after a failure: the step reached, progress 0, the message. */
  function Failed<T>(shown: seq<Snapshot>, step: GenStep, c: Call<T>): RunResult
    requires c.Threw?
  {
    RunResult(shown + [Snapshot(step, 0, Some(Message(c)))], None)
  }

  /** The pipeline after the content is generated. */
  function FinishRun(services: Services, product: ProductData, scraped: Scraper.ScrapedData, content: GeneratedContent, shown: seq<Snapshot>): (r: RunResult)
    requires product.images.Files?
  {
    var source := SourceFor(product, content, scraped);
    var shownNow := if source.NoImages? then shown else shown + [Snapshot(ImageProcessing, 70, None)];
    var images := GatherImages(services, source);
    if images.Threw? then Failed(shownNow, ImageProcessing, images)
    else RunResult(shownNow + [Snapshot(Complete, 100, None)], Some(Assemble(product, scraped, content, images.value)))
  }

  /**
   * `runGeneration`: the error is cleared and scraping starts at 10; after
   * the scrape the step is content generation at 35; after it image
   * processing at 70; then complete at 100. A throw anywhere shows its
   * message with progress 0 on the step reached.
   */
  function RunGeneration(services: Services, product: ProductData): (r: RunResult)
    requires product.images.Files?
  {
    var first := [Snapshot(Scraping, 10, None)];
    var scraped := services.scrape(product.url);
    if scraped.Threw? then Failed(first, Scraping, scraped)
    else
      var second := first + [Snapshot(AiGeneration, 35, None)];
      var content := services.generate(scraped.value, Options);
      if content.Threw? then Failed(second, AiGeneration, content)
      else FinishRun(services, product, scraped.value, content.value, second)
  }

  /** Every call of the run succeeded. */
  predicate AllReturned(services: Services, product: ProductData)
    requires product.images.Files?
  {
    && services.scrape(product.url).Returned?
    && (var scraped := services.scrape(product.url).value;
        && services.generate(scraped, Options).Returned?
        && (var content := services.generate(scraped, Options).value;
            var source := SourceFor(product, content, scraped);
            && (source.StockSearch? ==> services.search(source.request).Returned?)
            && (source.UploadFiles? ==> services.upload(source.files).Returned?)))
  }

  /** The progress shown never falls while the run goes well. */
  predicate Rising(shown: seq<Snapshot>) {
    forall i, j :: 0 <= i < j < |shown| ==> shown[i].progress < shown[j].progress && GenStepIndex(shown[i].step) < GenStepIndex(shown[j].step)
  }

  /**
   * A catalog is handed on exactly when every call returns; then the screen
   * went through the steps in order with rising progress, ending complete
   * at 100, and the images are numbered by position.
   */
  lemma SuccessfulRun(services: Services, product: ProductData)
    requires product.images.Files?
    ensures var r := RunGeneration(services, product);
      && (r.delivered.Some? <==> AllReturned(services, product))
      && (r.delivered.Some? ==> Rising(r.shown) && r.shown[|r.shown| - 1] == Snapshot(Complete, 100, None))
      && (r.delivered.Some? ==> r.shown[..2] == [Snapshot(Scraping, 10, None), Snapshot(AiGeneration, 35, None)])
      && (r.delivered.Some? ==> Positioned(r.delivered.value.images) && r.delivered.value.layout == DefaultLayout)
  {
  }

  /**
   * When a call throws, nothing is handed on; the error is shown with
   * progress 0 at the end, after snapshots that show none.
   */
  lemma FailedRun(services: Services, product: ProductData)
    requires product.images.Files?
    ensures var r := RunGeneration(services, product);
      r.delivered.None? ==>
        && |r.shown| >= 2
        && r.shown[|r.shown| - 1].progress == 0 && r.shown[|r.shown| - 1].error.Some?
        && (forall i :: 0 <= i < |r.shown| - 1 ==> r.shown[i].error.None?)
        && Rising(r.shown[..|r.shown| - 1])
  {
  }

  /** A throw from the scrape stops the run on the scraping step with the thrown message, or the generic one. */
  lemma ScrapeFailure(services: Services, product: ProductData)
    requires product.images.Files? && services.scrape(product.url).Threw?
    ensures RunGeneration(services, product).shown[1] == Snapshot(Scraping, 0, Some(services.scrape(product.url).error.GetOr(FailureText)))
    ensures RunGeneration(services, product).delivered.None?
  {
  }

  /** The catalog handed on carries the generated content and the scraped fields over the submitted product. */
  lemma DeliveredCatalog(services: Services, product: ProductData)
    requires product.images.Files?
    ensures var r := RunGeneration(services, product);
      r.delivered.Some? ==>
        (var scraped := services.scrape(product.url).value;
         && r.delivered.value.generatedContent == services.generate(scraped, Options).value
         && r.delivered.value.product == MergeScraped(product, scraped)
         && r.delivered.value.product.useAutomaticImages == product.useAutomaticImages)
  {
  }

  /** With automatic images the catalog's images are the search hits, in order. */
  lemma AutomaticImages(services: Services, product: ProductData)
    requires product.images.Files? && product.useAutomaticImages
    ensures var r := RunGeneration(services, product);
      r.delivered.Some? ==>
        (var scraped := services.scrape(product.url).value;
         var content := services.generate(scraped, Options).value;
         r.delivered.value.images == FromStock(services.search(StockRequest(content, scraped)).value))
  {
  }

  /** Without automatic images and without files the catalog has no images, and no image call is made. */
  lemma NoImagesChosen(services: Services, product: ProductData)
    requires product.images.Files? && !product.useAutomaticImages && |product.images.files| == 0
    ensures var r := RunGeneration(services, product);
      r.delivered.Some? ==> r.delivered.value.images == []
    ensures AllReturned(services, product) <==>
      services.scrape(product.url).Returned? && services.generate(services.scrape(product.url).value, Options).Returned?
  {
  }
}

=== FILE: images.dfy ===
/**
 * The image routes: the stock-image search, which answers from a fixed
 * list of six curated photographs; the upload, whose type filter, file
 * limit and id and url derivation are modelled while the resizing is not;
 * and the name of an optimised copy. The clock and the random part of an
 * upload's file name are parameters.
 */
module Images {
  import opened Wrappers
  import opened Str
  import opened Seqs

  // ---------------------------------------------------------------------
  // Search
  // ---------------------------------------------------------------------

  datatype Orientation = Landscape | Portrait | Squarish

  function OrientationName(o: Orientation): string {
    match o
    case Landscape => "landscape"
    case Portrait => "portrait"
    case Squarish => "squarish"
  }

  function ParseOrientation(s: string): (r: Option<Orientation>)
    ensures r.Some? ==> OrientationName(r.value) == s
    ensures r.None? <==> s != "landscape" && s != "portrait" && s != "squarish"
  {
    if s == "landscape" then Some(Landscape)
    else if s == "portrait" then Some(Portrait)
    else if s == "squarish" then Some(Squarish)
    else None
  }

  const MinQuery := 2
  const MaxQuery := 100
  const MinCount := 1
  const MaxCount := 15
  const DefaultCount := 6

  datatype SearchRequest = SearchRequest(query: string, count: int, orientation: Orientation)

  /**
   * The search schema: a query of 2 to 100 characters is required; the
   * count is an integer from 1 to 15, 6 when absent; the orientation is
   * one of three names, landscape when absent.
   */
  function ValidateSearch(query: Option<string>, count: Option<int>, orientation: Option<string>): (r: Result<SearchRequest>)
    ensures r.Ok? <==> (query.Some? && MinQuery <= |query.value| <= MaxQuery
                        && (count.None? || MinCount <= count.value <= MaxCount)
                        && (orientation.None? || ParseOrientation(orientation.value).Some?))
    ensures r.Ok? ==> r.value.query == query.value
    ensures r.Ok? ==> r.value.count == count.GetOr(DefaultCount) && MinCount <= r.value.count <= MaxCount
    ensures r.Ok? && orientation.None? ==> r.value.orientation == Landscape
    ensures r.Ok? && orientation.Some? ==> OrientationName(r.value.orientation) == orientation.value
  {
    if query.None? then Err("\"query\" is required")
    else if |query.value| < MinQuery then Err("\"query\" length must be at least 2 characters long")
    else if |query.value| > MaxQuery then Err("\"query\" length must be less than or equal to 100 characters long")
    else if count.Some? && count.value < MinCount then Err("\"count\" must be greater than or equal to 1")
    else if count.Some? && count.value > MaxCount then Err("\"count\" must be less than or equal to 15")
    else if orientation.Some? && ParseOrientation(orientation.value).None? then Err("\"orientation\" must be one of [landscape, portrait, squarish]")
    else Ok(SearchRequest(query.value, count.GetOr(DefaultCount),
                          if orientation.None? then Landscape else ParseOrientation(orientation.value).value))
  }

  /** A curated photograph. */
  datatype Curated = Curated(id: string, url: string, alt: string, photographer: string, downloadUrl: string)

  const CuratedImages: seq<Curated> := [
    Curated("unsplash-1", "https://images.unsplash.com/photo-1505740420928-5e560c06d30e?w=800&q=80",
      "Premium wireless headphones", "C D-X", "https://images.unsplash.com/photo-1505740420928-5e560c06d30e?w=1200&q=85"),
    Curated("unsplash-2", "https://images.unsplash.com/photo-1484704849700-f032a568e944?w=800&q=80",
      "Modern headphones design", "Blocks Fletcher", "https://images.unsplash.com/photo-1484704849700-f032a568e944?w=1200&q=85"),
    Curated("unsplash-3", "https://images.unsplash.com/photo-1583394838336-acd977736f90?w=800&q=80",
      "Professional audio equipment", "Malte Wingen", "https://images.unsplash.com/photo-1583394838336-acd977736f90?w=1200&q=85"),
    Curated("unsplash-4", "https://images.unsplash.com/photo-1546435770-a3e426bf472b?w=800&q=80",
      "Wireless technology", "John Tekeridis", "https://images.unsplash.com/photo-1546435770-a3e426bf472b?w=1200&q=85"),
    Curated("unsplash-5", "https://images.unsplash.com/photo-1558756520-22cfe5d382ca?w=800&q=80",
      "Audio device close-up", "Garrett Morrow", "https://images.unsplash.com/photo-1558756520-22cfe5d382ca?w=1200&q=85"),
    Curated("unsplash-6", "https://images.unsplash.com/photo-1487215078519-e21cc028cb29?w=800&q=80",
      "Premium product photography", "Sennheiser", "https://images.unsplash.com/photo-1487215078519-e21cc028cb29?w=1200&q=85")]

  /** A search hit: the curated entry stamped with the request's query and orientation and the time it was fetched. */
  datatype StockImage = StockImage(source: Curated, query: string, orientation: Orientation, fetchedAt: string)

  /** `stockImages.slice(0, count)` stamped; `now` is the clock's ISO string. */
  function Stamp(entries: seq<Curated>, query: string, orientation: Orientation, now: string): (r: seq<StockImage>)
    ensures |r| == |entries|
    ensures forall i :: 0 <= i < |r| ==> r[i] == StockImage(entries[i], query, orientation, now)
  {
    if |entries| == 0 then []
    else [StockImage(entries[0], query, orientation, now)] + Stamp(entries[1..], query, orientation, now)
  }

  /** The search answer: the first `count` curated entries, at most six, in order, each stamped with the request. */
  function Search(req: SearchRequest, now: string): (r: seq<StockImage>)
    requires MinCount <= req.count
    ensures |r| == if req.count < |CuratedImages| then req.count else |CuratedImages|
    ensures forall i :: 0 <= i < |r| ==> r[i].source == CuratedImages[i]
    ensures forall i :: 0 <= i < |r| ==> r[i].query == req.query && r[i].orientation == req.orientation
  {
    Stamp(Take(CuratedImages, req.count), req.query, req.orientation, now)
  }

  /** Asking for fewer images gives a prefix of what asking for more gives. */
  lemma SearchPrefix(req: SearchRequest, fewer: int, now: string)
    requires MinCount <= fewer <= req.count
    ensures Search(req.(count := fewer), now) == Search(req, now)[..|Search(req.(count := fewer), now)|]
  {
  }

  /** The default request gives all six curated images, in landscape. */
  lemma DefaultSearchGivesAll(query: string, now: string)
    requires MinQuery <= |query| <= MaxQuery
    ensures ValidateSearch(Some(query), None, None).Ok?
    ensures var r := Search(ValidateSearch(Some(query), None, None).value, now);
      |r| == 6 && forall i :: 0 <= i < 6 ==> r[i].source == CuratedImages[i] && r[i].orientation == Landscape
  {
  }

  // ---------------------------------------------------------------------
  // Upload
  // ---------------------------------------------------------------------

  const MaxFiles := 15
  const NoFilesText := "No files uploaded"
  const InvalidTypeText := "Invalid file type. Only JPEG, PNG, and WebP are allowed."

  /** A file of the multipart upload: its original name and declared type. */
  datatype Upload = Upload(originalName: string, mimeType: string)

  predicate Allowed(mimeType: string) {
    mimeType in ["image/jpeg", "image/png", "image/webp"]
  }

  /** A processed upload as the route describes it (sizes and dimensions are not modelled). */
  datatype Processed = Processed(id: string, filename: string, originalName: string, url: string, format: string)

  datatype UploadResponse =
    | NoFiles(status: int, error: string)
    | InvalidType(error: string)
    | TooManyFiles
    | Uploaded(data: seq<Processed>)

  /**
   * The stored name of an upload: `stamp` stands for the time and random
   * part, `${Date.now()}-${random}`, and the extension is always webp.
   */
  function StoredName(stamp: string): string {
    stamp + ".webp"
  }

  /** One file's record: the id is the stored name up to its first '.', the url is under /uploads/. */
  function Describe(file: Upload, stamp: string): (p: Processed)
    ensures p.filename == StoredName(stamp) && p.originalName == file.originalName
    ensures p.url == "/uploads/" + p.filename && p.format == "webp"
    ensures '.' !in p.id && StartsWith(p.filename, p.id)
  {
    var filename := StoredName(stamp);
    var id := Split(filename, '.')[0];
    IdIsPrefix(filename);
    Processed(id, filename, file.originalName, "/uploads/" + filename, "webp")
  }

  /** The first piece of a split on '.' is a prefix of the name. */
  lemma IdIsPrefix(name: string)
    ensures StartsWith(name, Split(name, '.')[0])
  {
    match IndexOf(name, '.')
    case None => SplitWithout(name, '.');
    case Some(i) => SplitAtFirst(name, '.', i);
  }

  /**
   * A stamp without '.' (digits, '-' and base-36 characters) is the id, so
   * the `${id}.webp` path the optimise and delete routes build is the file
   * the upload wrote.
   */
  lemma IdLocatesFile(file: Upload, stamp: string)
    requires '.' !in stamp
    ensures Describe(file, stamp).id == stamp
    ensures Describe(file, stamp).id + ".webp" == Describe(file, stamp).filename
  {
    var name := StoredName(stamp);
    IndexOfIs(name, '.', |stamp|);
    SplitAtFirst(name, '.', |stamp|);
    assert name[..|stamp|] == stamp;
  }

  /**
   * The files are read in order: the sixteenth file ends the request with
   * the file-count error, a file of another type before it ends it with the
   * type error.
   */
  function FirstProblem(files: seq<Upload>, i: nat): (r: Option<UploadResponse>)
    requires i <= |files| && i <= MaxFiles
    ensures r.None? <==> |files| <= MaxFiles && forall j :: i <= j < |files| ==> Allowed(files[j].mimeType)
    ensures r.Some? ==> r.value == TooManyFiles || r.value == InvalidType(InvalidTypeText)
    decreases |files| - i
  {
    if i == |files| then None
    else if i >= MaxFiles then Some(TooManyFiles)
    else if !Allowed(files[i].mimeType) then Some(InvalidType(InvalidTypeText))
    else FirstProblem(files, i + 1)
  }

  /**
   * `POST /upload`: the file filter and limit first, then a request without
   * files is answered 400; otherwise each file is described in order.
   * `stamps[i]` is the time and random part drawn for file `i`.
   */
  function UploadFiles(files: seq<Upload>, stamps: seq<string>): (r: UploadResponse)
    requires |stamps| == |files|
    ensures r.Uploaded? <==> 0 < |files| <= MaxFiles && forall j :: 0 <= j < |files| ==> Allowed(files[j].mimeType)
    ensures |files| == 0 ==> r == NoFiles(400, NoFilesText)
    ensures r.Uploaded? ==> |r.data| == |files|
    ensures r.Uploaded? ==> forall j :: 0 <= j < |files| ==> r.data[j] == Describe(files[j], stamps[j])
  {
    var problem := FirstProblem(files, 0);
    if problem.Some? then problem.value
    else if |files| == 0 then NoFiles(400, NoFilesText)
    else Uploaded(seq(|files|, j requires 0 <= j < |files| => Describe(files[j], stamps[j])))
  }

  /** Every uploaded file keeps its original name and is served as webp from /uploads/. */
  lemma UploadedRecords(files: seq<Upload>, stamps: seq<string>)
    requires |stamps| == |files| && UploadFiles(files, stamps).Uploaded?
    ensures forall j :: 0 <= j < |files| ==>
      (var p := UploadFiles(files, stamps).data[j];
       p.originalName == files[j].originalName && StartsWith(p.url, "/uploads/") && p.format == "webp")
  {
  }

  // ---------------------------------------------------------------------
  // Optimised copies
  // ---------------------------------------------------------------------

  const DefaultQuality := 85
  const DefaultFormat := "webp"

  /** A request value as a template string shows it: missing values read "undefined". */
  function Shown(n: Option<nat>): string {
    if n.Some? then NatToString(n.value) else "undefined"
  }

  /** The part between `${imageId}-` and `.${format}`: `${width}x${height}-q${quality}`. */
  function Dimensions(width: Option<nat>, height: Option<nat>, quality: Option<nat>): string {
    Shown(width) + "x" + Shown(height) + "-q" + NatToString(quality.GetOr(DefaultQuality))
  }

  /** `${imageId}-${width}x${height}-q${quality}.${format}`, quality 85 and format webp when absent. */
  function OptimisedName(id: string, width: Option<nat>, height: Option<nat>, quality: Option<nat>, format: Option<string>): string {
    (id + "-" + Dimensions(width, height, quality)) + ("." + format.GetOr(DefaultFormat))
  }

  lemma Halves(a: string, b: string)
    ensures (a + b)[..|a|] == a && (a + b)[|a|..] == b
  {
  }

  /** An optimised copy is named after its image and ends in its format. */
  lemma OptimisedNameShape(id: string, width: Option<nat>, height: Option<nat>, quality: Option<nat>, format: Option<string>)
    ensures var n := OptimisedName(id, width, height, quality, format);
      && StartsWith(n, id + "-")
      && n[|n| - |format.GetOr(DefaultFormat)| - 1..] == "." + format.GetOr(DefaultFormat)
  {
    var head := id + "-" + Dimensions(width, height, quality);
    var tail := "." + format.GetOr(DefaultFormat);
    Halves(head, tail);
    Halves(id + "-", Dimensions(width, height, quality));
    assert (head + tail)[..|id| + 1] == head[..|id| + 1];
  }

  /** Without quality and format the copy is a quality-85 webp file. */
  lemma OptimisedNameDefaults(id: string, width: Option<nat>, height: Option<nat>)
    ensures OptimisedName(id, width, height, None, None) == OptimisedName(id, width, height, Some(85), Some("webp"))
    ensures Dimensions(width, height, None) == Shown(width) + "x" + Shown(height) + "-q85"
  {
    assert NatToString(85) == "85";
  }

  /** An optimised copy never overwrites the uploaded file `${id}.webp`. */
  lemma OptimisedNeverOriginal(id: string, width: Option<nat>, height: Option<nat>, quality: Option<nat>, format: Option<string>)
    ensures OptimisedName(id, width, height, quality, format) != id + ".webp"
  {
    var n := OptimisedName(id, width, height, quality, format);
    assert n[|id|] == '-';
    assert (id + ".webp")[|id|] == '.';
  }
}

=== FILE: input.dfy ===
/**
 * The input form: the product URL, the picked image files, the automatic
 * images switch and the two error messages. The browser's `URL`
 * constructor is a parameter, a predicate that holds where it does not
 * throw.
 */
module ProductInput {
  import opened Wrappers
  import opened Str
  import opened Types
  import opened Seqs

  const MaxImages := 15
  const TooManyImages := "Maximum 15 images allowed"
  const UrlRequired := "Product URL is required"
  const UrlInvalid := "Please enter a valid URL"
  const ImagesRequired := "Please upload at least one image or enable automatic images"

  datatype Form = Form(
    url: string,
    images: seq<UserFile>,
    useAutomaticImages: bool,
    urlError: Option<string>,
    imagesError: Option<string>)

  /** The form as it first appears. */
  const Initial := Form("", [], false, None, None)

  /** What the form keeps at all times: at most fifteen images. */
  predicate Inv(f: Form) {
    |f.images| <= MaxImages
  }

  /** The accepted image types. */
  predicate AcceptedType(mimeType: string) {
    StartsWith(mimeType, "image/") && mimeType in {"image/png", "image/jpeg", "image/webp"}
  }

  /** The dropped or selected files that are accepted images, in order. */
  function ImageFiles(files: seq<UserFile>): (r: seq<UserFile>)
    ensures |r| <= |files|
    ensures forall i :: 0 <= i < |r| ==> AcceptedType(r[i].mimeType) && r[i] in files
    ensures forall i :: 0 <= i < |files| && AcceptedType(files[i].mimeType) ==> files[i] in r
  {
    if |files| == 0 then []
    else if AcceptedType(files[0].mimeType) then [files[0]] + ImageFiles(files[1..])
    else ImageFiles(files[1..])
  }

  /** Filtering a concatenation filters each part: accepted files keep their order. */
  lemma {:induction false} ImageFilesAppend(a: seq<UserFile>, b: seq<UserFile>)
    ensures ImageFiles(a + b) == ImageFiles(a) + ImageFiles(b)
    decreases |a|
  {
    if |a| > 0 {
      assert (a + b)[0] == a[0];
      assert (a + b)[1..] == a[1..] + b;
      ImageFilesAppend(a[1..], b);
    } else {
      assert a + b == b;
    }
  }

  /** A list of accepted images passes the filter whole. */
  lemma {:induction false} ImageFilesKeepsImages(files: seq<UserFile>)
    requires forall i :: 0 <= i < |files| ==> AcceptedType(files[i].mimeType)
    ensures ImageFiles(files) == files
  {
    if |files| > 0 {
      ImageFilesKeepsImages(files[1..]);
    }
  }

  /** Filtering twice is filtering once. */
  lemma ImageFilesIdempotent(files: seq<UserFile>)
    ensures ImageFiles(ImageFiles(files)) == ImageFiles(files)
  {
    ImageFilesKeepsImages(ImageFiles(files));
  }

  /**
   * `handleDrop` / `handleFileSelect`: when the accepted files would take
   * the list past fifteen, the error is set and the list is kept;
   * otherwise they are appended in order and the error is cleared.
   */
  function AddFiles(f: Form, files: seq<UserFile>): (r: Form)
    ensures |f.images| + |ImageFiles(files)| > MaxImages ==> r == f.(imagesError := Some(TooManyImages))
    ensures |f.images| + |ImageFiles(files)| <= MaxImages ==>
      r.images == f.images + ImageFiles(files) && r.imagesError.None?
    ensures r.url == f.url && r.useAutomaticImages == f.useAutomaticImages && r.urlError == f.urlError
  {
    var accepted := ImageFiles(files);
    if |f.images| + |accepted| > MaxImages then f.(imagesError := Some(TooManyImages))
    else f.(images := f.images + accepted, imagesError := None)
  }

  /** `removeImage`: index `i` is filtered out. */
  function RemoveImage(f: Form, i: nat): (r: Form)
    ensures i < |f.images| ==> r.images == f.images[..i] + f.images[i + 1..]
    ensures i >= |f.images| ==> r.images == f.images
    ensures r.url == f.url && r.urlError == f.urlError && r.imagesError == f.imagesError
  {
    RemoveAtOnly(f.images, i);
    f.(images := RemoveAt(f.images, i))
  }

  /** Adding files and removing images keep the form within fifteen images. */
  lemma EditsKeepInv(f: Form, files: seq<UserFile>, i: nat)
    requires Inv(f)
    ensures Inv(AddFiles(f, files)) && Inv(RemoveImage(f, i))
  {
  }

  /** `validateUrl`: the URL parses and uses http or https. */
  predicate ValidUrl(url: string, parses: string -> bool) {
    parses(url) && (StartsWith(url, "http://") || StartsWith(url, "https://"))
  }

  /**
   * `handleSubmit`: the errors are recomputed from scratch and the product
   * is handed on only when there are none.
   */
  function Submit(f: Form, parses: string -> bool): (r: (Form, Option<ProductData>))
    ensures r.0.url == f.url && r.0.images == f.images && r.0.useAutomaticImages == f.useAutomaticImages
    ensures r.0.urlError == Some(UrlRequired) <==> AllSpace(f.url)
    ensures r.0.urlError == Some(UrlInvalid) <==> !AllSpace(f.url) && !ValidUrl(f.url, parses)
    ensures r.0.urlError.None? <==> !AllSpace(f.url) && ValidUrl(f.url, parses)
    ensures r.0.imagesError.Some? <==> !f.useAutomaticImages && |f.images| == 0
    ensures r.0.imagesError.Some? ==> r.0.imagesError.value == ImagesRequired
    ensures r.1.Some? <==> r.0.urlError.None? && r.0.imagesError.None?
    ensures r.1.Some? ==> r.1.value == SubmittedProduct(f.url, f.images, f.useAutomaticImages)
  {
    var urlError :=
      if Trim(f.url) == "" then Some(UrlRequired)
      else if !ValidUrl(f.url, parses) then Some(UrlInvalid)
      else None;
    var imagesError := if !f.useAutomaticImages && |f.images| == 0 then Some(ImagesRequired) else None;
    var g := f.(urlError := urlError, imagesError := imagesError);
    (g, if urlError.None? && imagesError.None? then Some(SubmittedProduct(f.url, f.images, f.useAutomaticImages)) else None)
  }

  /** A submitted product carries a URL that starts with a web scheme and is not blank. */
  lemma SubmitUrlChecked(f: Form, parses: string -> bool)
    ensures Submit(f, parses).1.Some? ==> !AllSpace(f.url) && (StartsWith(f.url, "http://") || StartsWith(f.url, "https://"))
  {
  }

  /**
   * The messages shown before do not matter: submitting recomputes both,
   * so submitting twice gives what submitting once gave.
   */
  lemma SubmitForgetsOldErrors(f: Form, parses: string -> bool, urlError: Option<string>, imagesError: Option<string>)
    ensures Submit(f.(urlError := urlError, imagesError := imagesError), parses) == Submit(f, parses)
    ensures Submit(Submit(f, parses).0, parses) == Submit(f, parses)
  {
  }
}

=== FILE: pdf_layout.dfy ===
/**
 * The single page the PDF route draws: a header band with the title, a
 * "Product Overview" section with the wrapped description, an optional
 * "Key Features" section and an optional "Specifications" section, and a
 * footer. Only what is drawn where is modelled: text, position, size, font
 * and colour. Positions are in points from the bottom of a 612 by 792 page.
 */
module PdfLayout {
  import opened Wrappers
  import opened Dict
  import opened Types
  import opened Wrap
  import opened ExportRequest
  import opened Seqs

  const PageWidth := 612
  const PageHeight := 792

  /** The header band's height; it covers everything above `PageHeight - HeaderHeight`. */
  const HeaderHeight := 120

  /** The baseline of the footer lines. */
  const FooterY := 30

  /** The y of the "Product Overview" heading, where the body starts. */
  const BodyTop := PageHeight - 160

  /** The lowest y the body can reach. */
  const BodyBottom := 155

  const WrapWidth := 70
  const MaxDescriptionLines := 8
  const MaxFeatures := 6
  const MaxSpecs := 8

  datatype Font = TimesRoman | Helvetica | HelveticaBold

  datatype Drawing =
    | Band(y: int, height: int, color: Rgb)
    | Text(text: string, x: int, y: int, size: nat, font: Font, color: Rgb)

  /** The page in three parts. */
  datatype Page = Page(header: seq<Drawing>, body: seq<Drawing>, footer: seq<Drawing>)

  const White := Rgb(100, 100, 100)
  const Subtle := Rgb(90, 90, 90)
  const Ink := Rgb(20, 20, 20)
  const FeatureInk := Rgb(30, 30, 30)
  const ValueInk := Rgb(40, 40, 40)
  const FooterInk := Rgb(60, 60, 60)

  /** `texts` drawn one under the other, from `y` down, `step` apart. */
  function Column(texts: seq<string>, x: int, y: int, step: nat, size: nat, font: Font, color: Rgb): (ds: seq<Drawing>)
    ensures |ds| == |texts|
    decreases |texts|
  {
    if |texts| == 0 then []
    else [Text(texts[0], x, y, size, font, color)] + Column(texts[1..], x, y - step, step, size, font, color)
  }

  /** The feature lines: `• ${feature}`. */
  function Bullets(items: seq<string>): (r: seq<string>)
    ensures |r| == |items|
    ensures forall i :: 0 <= i < |r| ==> r[i] == "• " + items[i]
  {
    seq(|items|, i requires 0 <= i < |items| => "• " + items[i])
  }

  /** Each specification as its label at x 60 and its value at x 200, on one line, 18 points apart. */
  function SpecRows(entries: seq<(string, string)>, y: int): (ds: seq<Drawing>)
    ensures |ds| == 2 * |entries|
    decreases |entries|
  {
    if |entries| == 0 then []
    else
      [Text(entries[0].0 + ":", 60, y, 10, HelveticaBold, Ink), Text(entries[0].1, 200, y, 10, Helvetica, ValueInk)]
        + SpecRows(entries[1..], y - 18)
  }

  /** The description lines that are drawn: the first eight lines of the description wrapped at 70. */
  function DescriptionLines(description: string): seq<string> {
    Take(WrapText(description, WrapWidth), MaxDescriptionLines)
  }

  predicate ShowsFeatures(features: seq<string>, opts: Options) {
    opts.includeFeatures && |features| > 0
  }

  predicate ShowsSpecs(specs: Dict, opts: Options) {
    opts.includeSpecs && |specs.order| > 0
  }

  /** The specifications that are drawn: the first eight entries in key order. */
  function DrawnSpecs(specs: Dict): seq<(string, string)>
    requires Wf(specs)
  {
    Take(Entries(specs), MaxSpecs)
  }

  /** Where the features section starts: below the description and a 20-point gap. */
  function FeaturesTop(description: string): int {
    BodyTop - 30 - 16 * |DescriptionLines(description)| - 20
  }

  /** Where the section after the features starts, when the features section starts at `y`. */
  function FeaturesBottom(features: seq<string>, opts: Options, y: int): int {
    if ShowsFeatures(features, opts) then y - 25 - 18 * |Take(features, MaxFeatures)| - 15 else y
  }

  /** Where the specifications section starts. */
  function SpecsTop(description: string, features: seq<string>, opts: Options): int {
    FeaturesBottom(features, opts, FeaturesTop(description))
  }

  function OverviewSection(description: string, palette: Palette): seq<Drawing> {
    [Text("Product Overview", 50, BodyTop, 18, HelveticaBold, palette.primary)]
      + Column(DescriptionLines(description), 50, BodyTop - 30, 16, 11, TimesRoman, Ink)
  }

  /** The features section, starting at `y`. */
  function FeaturesSection(features: seq<string>, opts: Options, palette: Palette, y: int): seq<Drawing> {
    if ShowsFeatures(features, opts) then
      [Text("Key Features", 50, y, 16, HelveticaBold, palette.primary)]
        + Column(Bullets(Take(features, MaxFeatures)), 60, y - 25, 18, 10, Helvetica, FeatureInk)
    else []
  }

  /** The specifications section, starting at `y`. */
  function SpecsSection(specs: Dict, opts: Options, palette: Palette, y: int): seq<Drawing>
    requires Wf(specs)
  {
    if ShowsSpecs(specs, opts) then
      [Text("Specifications", 50, y, 16, HelveticaBold, palette.primary)] + SpecRows(DrawnSpecs(specs), y - 25)
    else []
  }

  /**
   * The PDF page for the generated content, the layout's colour-scheme
   * name, the switches and the rendered date of the footer.
   */
  function PdfPage(content: GeneratedContent, colorScheme: string, opts: Options, date: string): Page
    requires Wf(content.specifications)
  {
    var palette := PaletteOf(colorScheme);
    var d, f, s := content.description, content.features, content.specifications;
    Page(
      [ Band(PageHeight - HeaderHeight, HeaderHeight, palette.primary),
        Text(content.title, 50, PageHeight - 70, 24, HelveticaBold, White),
        Text("Professional Product Catalog", 50, PageHeight - 100, 14, Helvetica, Subtle)],
      OverviewSection(d, palette) + FeaturesSection(f, opts, palette, FeaturesTop(d)) + SpecsSection(s, opts, palette, SpecsTop(d, f, opts)),
      [ Text("Generated on " + date, 50, FooterY, 8, Helvetica, FooterInk),
        Text("Created with Product Catalog Generator", PageWidth - 250, FooterY, 8, Helvetica, FooterInk)])
  }

  // ---------------------------------------------------------------------
  // Geometry
  // ---------------------------------------------------------------------

  /** Every drawing of `ds` lies between `lo` and `hi`, and each is no higher than the one before. */
  predicate Descending(ds: seq<Drawing>, lo: int, hi: int) {
    && (forall i :: 0 <= i < |ds| ==> lo <= ds[i].y <= hi)
    && (forall i, j :: 0 <= i < j < |ds| ==> ds[j].y <= ds[i].y)
  }

  lemma DescendingAppend(a: seq<Drawing>, b: seq<Drawing>, lo: int, mid: int, hi: int)
    requires lo <= mid <= hi
    requires Descending(a, mid, hi) && Descending(b, lo, mid)
    ensures Descending(a + b, lo, hi)
  {
    var ab := a + b;
    forall i | 0 <= i < |ab| ensures lo <= ab[i].y <= hi {
      if i < |a| {
        assert ab[i] == a[i];
      } else {
        assert ab[i] == b[i - |a|];
      }
    }
    forall i, j | 0 <= i < j < |ab| ensures ab[j].y <= ab[i].y {
      if j < |a| {
        assert ab[i] == a[i] && ab[j] == a[j];
      } else if i >= |a| {
        assert ab[i] == b[i - |a|] && ab[j] == b[j - |a|];
      } else {
        assert ab[i] == a[i] && ab[j] == b[j - |a|];
      }
    }
  }

  /** A drawing at `y` followed by drawings no higher than `y`. */
  lemma DescendingCons(d: Drawing, rest: seq<Drawing>, lo: int, hi: int)
    requires lo <= d.y <= hi
    requires Descending(rest, lo, d.y)
    ensures Descending([d] + rest, lo, hi)
  {
    DescendingAppend([d], rest, lo, d.y, hi);
  }

  lemma {:induction false} ColumnDescending(texts: seq<string>, x: int, y: int, step: nat, size: nat, font: Font, color: Rgb, lo: int, n: nat)
    requires n == |texts| && n > 0 && lo <= y - step * (n - 1)
    ensures Descending(Column(texts, x, y, step, size, font, color), lo, y)
    decreases n
  {
    var ds := Column(texts, x, y, step, size, font, color);
    var rest := Column(texts[1..], x, y - step, step, size, font, color);
    assert 0 <= step * (n - 1);
    if n > 1 {
      assert step * (n - 1) == step + step * (n - 2);
      ColumnDescending(texts[1..], x, y - step, step, size, font, color, lo, n - 1);
    }
    DescendingCons(ds[0], rest, lo, y);
  }

  lemma {:induction false} SpecRowsDescending(entries: seq<(string, string)>, y: int, lo: int, n: nat)
    requires n == |entries| && n > 0 && lo <= y - 18 * (n - 1)
    ensures Descending(SpecRows(entries, y), lo, y)
    decreases n
  {
    var ds := SpecRows(entries, y);
    var rest := SpecRows(entries[1..], y - 18);
    if n > 1 {
      SpecRowsDescending(entries[1..], y - 18, lo, n - 1);
    }
    assert ds == [ds[0]] + ([ds[1]] + rest);
    DescendingCons(ds[1], rest, lo, y);
    DescendingCons(ds[0], [ds[1]] + rest, lo, y);
  }

  /** The overview sits between 454 and the body top. */
  lemma OverviewDescending(description: string, palette: Palette)
    ensures Descending(OverviewSection(description, palette), FeaturesTop(description) + 20, BodyTop)
  {
    var lines := DescriptionLines(description);
    var column := Column(lines, 50, BodyTop - 30, 16, 11, TimesRoman, Ink);
    var lo := FeaturesTop(description) + 20;
    if |lines| > 0 {
      ColumnDescending(lines, 50, BodyTop - 30, 16, 11, TimesRoman, Ink, lo, |lines|);
    }
    DescendingCons(Text("Product Overview", 50, BodyTop, 18, HelveticaBold, palette.primary), column, lo, BodyTop);
  }

  lemma FeaturesDescending(features: seq<string>, opts: Options, palette: Palette, y: int)
    ensures Descending(FeaturesSection(features, opts, palette, y), FeaturesBottom(features, opts, y), y)
  {
    if ShowsFeatures(features, opts) {
      var bullets := Bullets(Take(features, MaxFeatures));
      var column := Column(bullets, 60, y - 25, 18, 10, Helvetica, FeatureInk);
      var lo := FeaturesBottom(features, opts, y);
      ColumnDescending(bullets, 60, y - 25, 18, 10, Helvetica, FeatureInk, lo, |bullets|);
      DescendingCons(Text("Key Features", 50, y, 16, HelveticaBold, palette.primary), column, lo, y);
    }
  }

  lemma SpecsDescending(specs: Dict, opts: Options, palette: Palette, y: int)
    requires Wf(specs)
    requires y >= BodyBottom + 25 + 18 * (MaxSpecs - 1)
    ensures Descending(SpecsSection(specs, opts, palette, y), BodyBottom, y)
  {
    if ShowsSpecs(specs, opts) {
      var drawn := DrawnSpecs(specs);
      var rows := SpecRows(drawn, y - 25);
      if |drawn| > 0 {
        SpecRowsDescending(drawn, y - 25, BodyBottom, |drawn|);
      }
      DescendingCons(Text("Specifications", 50, y, 16, HelveticaBold, palette.primary), rows, BodyBottom, y);
    }
  }

  /**
   * The body falls down the page in drawing order and stays between the
   * header band and the footer: no body line is higher than the overview
   * heading at 632 (the band starts at 672) and none is lower than 155, well
   * above the footer at 30, whatever the content.
   */
  lemma BodyBetweenHeaderAndFooter(content: GeneratedContent, colorScheme: string, opts: Options, date: string)
    requires Wf(content.specifications)
    ensures Descending(PdfPage(content, colorScheme, opts, date).body, BodyBottom, BodyTop)
    ensures BodyTop < PageHeight - HeaderHeight && FooterY < BodyBottom
  {
    var palette := PaletteOf(colorScheme);
    var d, f, s := content.description, content.features, content.specifications;
    var overview := OverviewSection(d, palette);
    var features := FeaturesSection(f, opts, palette, FeaturesTop(d));
    var specs := SpecsSection(s, opts, palette, SpecsTop(d, f, opts));
    OverviewDescending(d, palette);
    FeaturesDescending(f, opts, palette, FeaturesTop(d));
    SpecsDescending(s, opts, palette, SpecsTop(d, f, opts));
    assert SpecsTop(d, f, opts) >= 306;
    DescendingAppend(overview, features, SpecsTop(d, f, opts), FeaturesTop(d), BodyTop);
    DescendingAppend(overview + features, specs, BodyBottom, SpecsTop(d, f, opts), BodyTop);
  }

  // ---------------------------------------------------------------------
  // What the page shows
  // ---------------------------------------------------------------------

  /** The texts drawn at `x` in `size` and `font`, in drawing order. */
  function TextsIn(ds: seq<Drawing>, x: int, size: nat, font: Font): seq<string> {
    if |ds| == 0 then []
    else
      (if ds[0].Text? && ds[0].x == x && ds[0].size == size && ds[0].font == font then [ds[0].text] else [])
        + TextsIn(ds[1..], x, size, font)
  }

  lemma {:induction false} TextsInAppend(a: seq<Drawing>, b: seq<Drawing>, x: int, size: nat, font: Font)
    ensures TextsIn(a + b, x, size, font) == TextsIn(a, x, size, font) + TextsIn(b, x, size, font)
  {
    if |a| > 0 {
      assert (a + b)[1..] == a[1..] + b;
      TextsInAppend(a[1..], b, x, size, font);
    } else {
      assert a + b == b;
    }
  }

  lemma {:induction false} TextsInColumn(texts: seq<string>, x: int, y: int, step: nat, size: nat, font: Font, color: Rgb, x': int, size': nat, font': Font)
    ensures TextsIn(Column(texts, x, y, step, size, font, color), x', size', font') ==
      if x == x' && size == size' && font == font' then texts else []
    decreases |texts|
  {
    if |texts| > 0 {
      var ds := Column(texts, x, y, step, size, font, color);
      assert ds[1..] == Column(texts[1..], x, y - step, step, size, font, color);
      TextsInColumn(texts[1..], x, y - step, step, size, font, color, x', size', font');
    }
  }

  /** The spec labels, or values, among the drawn rows. */
  lemma {:induction false} TextsInSpecRows(entries: seq<(string, string)>, y: int)
    ensures TextsIn(SpecRows(entries, y), 60, 10, HelveticaBold) == SpecLabels(entries)
    ensures TextsIn(SpecRows(entries, y), 200, 10, Helvetica) == SpecValues(entries)
    ensures TextsIn(SpecRows(entries, y), 60, 10, Helvetica) == []
    ensures TextsIn(SpecRows(entries, y), 50, 11, TimesRoman) == []
    decreases |entries|
  {
    if |entries| > 0 {
      var ds := SpecRows(entries, y);
      var rest := SpecRows(entries[1..], y - 18);
      assert ds == [ds[0], ds[1]] + rest;
      TextsInAppend([ds[0], ds[1]], rest, 60, 10, HelveticaBold);
      TextsInAppend([ds[0], ds[1]], rest, 200, 10, Helvetica);
      TextsInAppend([ds[0], ds[1]], rest, 60, 10, Helvetica);
      TextsInAppend([ds[0], ds[1]], rest, 50, 11, TimesRoman);
      TextsInSpecRows(entries[1..], y - 18);
    }
  }

  /** What a reader finds in the overview section. */
  lemma OverviewShows(description: string, palette: Palette)
    ensures TextsIn(OverviewSection(description, palette), 50, 11, TimesRoman) == DescriptionLines(description)
    ensures TextsIn(OverviewSection(description, palette), 60, 10, Helvetica) == []
    ensures TextsIn(OverviewSection(description, palette), 200, 10, Helvetica) == []
  {
    var lines := DescriptionLines(description);
    var heading := [Text("Product Overview", 50, BodyTop, 18, HelveticaBold, palette.primary)];
    var column := Column(lines, 50, BodyTop - 30, 16, 11, TimesRoman, Ink);
    TextsInAppend(heading, column, 50, 11, TimesRoman);
    TextsInAppend(heading, column, 60, 10, Helvetica);
    TextsInAppend(heading, column, 200, 10, Helvetica);
    TextsInColumn(lines, 50, BodyTop - 30, 16, 11, TimesRoman, Ink, 50, 11, TimesRoman);
    TextsInColumn(lines, 50, BodyTop - 30, 16, 11, TimesRoman, Ink, 60, 10, Helvetica);
    TextsInColumn(lines, 50, BodyTop - 30, 16, 11, TimesRoman, Ink, 200, 10, Helvetica);
  }

  /** What a reader finds in the features section. */
  lemma FeaturesShow(features: seq<string>, opts: Options, palette: Palette, y: int)
    ensures TextsIn(FeaturesSection(features, opts, palette, y), 50, 11, TimesRoman) == []
    ensures TextsIn(FeaturesSection(features, opts, palette, y), 60, 10, Helvetica) ==
      (if ShowsFeatures(features, opts) then Bullets(Take(features, MaxFeatures)) else [])
    ensures TextsIn(FeaturesSection(features, opts, palette, y), 200, 10, Helvetica) == []
  {
    if ShowsFeatures(features, opts) {
      var h := [Text("Key Features", 50, y, 16, HelveticaBold, palette.primary)];
      var bullets := Bullets(Take(features, MaxFeatures));
      var col := Column(bullets, 60, y - 25, 18, 10, Helvetica, FeatureInk);
      TextsInAppend(h, col, 50, 11, TimesRoman);
      TextsInAppend(h, col, 60, 10, Helvetica);
      TextsInAppend(h, col, 200, 10, Helvetica);
      TextsInColumn(bullets, 60, y - 25, 18, 10, Helvetica, FeatureInk, 50, 11, TimesRoman);
      TextsInColumn(bullets, 60, y - 25, 18, 10, Helvetica, FeatureInk, 60, 10, Helvetica);
      TextsInColumn(bullets, 60, y - 25, 18, 10, Helvetica, FeatureInk, 200, 10, Helvetica);
    }
  }

  /** The labels of the drawn specifications, `${key}:`, in order. */
  function SpecLabels(entries: seq<(string, string)>): (ls: seq<string>)
    ensures |ls| == |entries|
    ensures forall i :: 0 <= i < |ls| ==> ls[i] == entries[i].0 + ":"
  {
    seq(|entries|, i requires 0 <= i < |entries| => entries[i].0 + ":")
  }

  /** The values of the drawn specifications, in order. */
  function SpecValues(entries: seq<(string, string)>): (vs: seq<string>)
    ensures |vs| == |entries|
    ensures forall i :: 0 <= i < |vs| ==> vs[i] == entries[i].1
  {
    seq(|entries|, i requires 0 <= i < |entries| => entries[i].1)
  }

  /** What a reader finds in the specifications section. */
  lemma SpecsShow(specs: Dict, opts: Options, palette: Palette, y: int)
    requires Wf(specs)
    ensures TextsIn(SpecsSection(specs, opts, palette, y), 50, 11, TimesRoman) == []
    ensures TextsIn(SpecsSection(specs, opts, palette, y), 60, 10, Helvetica) == []
    ensures TextsIn(SpecsSection(specs, opts, palette, y), 200, 10, Helvetica) ==
      (if ShowsSpecs(specs, opts) then SpecValues(DrawnSpecs(specs)) else [])
  {
    if ShowsSpecs(specs, opts) {
      var h := [Text("Specifications", 50, y, 16, HelveticaBold, palette.primary)];
      var rows := SpecRows(DrawnSpecs(specs), y - 25);
      TextsInAppend(h, rows, 50, 11, TimesRoman);
      TextsInAppend(h, rows, 60, 10, Helvetica);
      TextsInAppend(h, rows, 200, 10, Helvetica);
      TextsInSpecRows(DrawnSpecs(specs), y - 25);
    }
  }

  /**
   * What a reader of the page finds: the description lines in the
   * description font, the feature bullets at x 60, and the specification
   * values at x 200. Features show iff switched on and non-empty, at most
   * six; specifications iff switched on and non-empty, at most eight, in key
   * order; the description at most eight lines.
   */
  lemma PageShows(content: GeneratedContent, colorScheme: string, opts: Options, date: string)
    requires Wf(content.specifications)
    ensures var body := PdfPage(content, colorScheme, opts, date).body;
      && TextsIn(body, 50, 11, TimesRoman) == DescriptionLines(content.description)
      && TextsIn(body, 60, 10, Helvetica) ==
         (if ShowsFeatures(content.features, opts) then Bullets(Take(content.features, MaxFeatures)) else [])
      && TextsIn(body, 200, 10, Helvetica) ==
         (if ShowsSpecs(content.specifications, opts) then SpecValues(DrawnSpecs(content.specifications)) else [])
  {
    var palette := PaletteOf(colorScheme);
    var d, f, s := content.description, content.features, content.specifications;
    var overview := OverviewSection(d, palette);
    var features := FeaturesSection(f, opts, palette, FeaturesTop(d));
    var specs := SpecsSection(s, opts, palette, SpecsTop(d, f, opts));
    OverviewShows(d, palette);
    FeaturesShow(f, opts, palette, FeaturesTop(d));
    SpecsShow(s, opts, palette, SpecsTop(d, f, opts));
    TextsInAppend(overview + features, specs, 50, 11, TimesRoman);
    TextsInAppend(overview, features, 50, 11, TimesRoman);
    TextsInAppend(overview + features, specs, 60, 10, Helvetica);
    TextsInAppend(overview, features, 60, 10, Helvetica);
    TextsInAppend(overview + features, specs, 200, 10, Helvetica);
    TextsInAppend(overview, features, 200, 10, Helvetica);
  }

  /** The PDF never draws the benefits, and the images switch and the benefits switch change nothing. */
  lemma BenefitsNeverDrawn(content: GeneratedContent, benefits: seq<string>, colorScheme: string, opts: Options, images: bool, showBenefits: bool, date: string)
    requires Wf(content.specifications)
    ensures PdfPage(content.(benefits := benefits), colorScheme, opts.(includeImages := images, includeBenefits := showBenefits), date)
         == PdfPage(content, colorScheme, opts, date)
  {
  }

  /** Every text of `ds` set at heading size (16 points or more) has colour `c`. */
  predicate HeadingsIn(ds: seq<Drawing>, c: Rgb) {
    forall i :: 0 <= i < |ds| && ds[i].Text? && ds[i].size >= 16 ==> ds[i].color == c
  }

  lemma HeadingsInAppend(a: seq<Drawing>, b: seq<Drawing>, c: Rgb)
    requires HeadingsIn(a, c) && HeadingsIn(b, c)
    ensures HeadingsIn(a + b, c)
  {
    var ab := a + b;
    forall i | 0 <= i < |ab| && ab[i].Text? && ab[i].size >= 16 ensures ab[i].color == c {
      if i < |a| { assert ab[i] == a[i]; } else { assert ab[i] == b[i - |a|]; }
    }
  }

  /** A column of body text holds no heading. */
  lemma {:induction false} ColumnNoHeadings(texts: seq<string>, x: int, y: int, step: nat, size: nat, font: Font, color: Rgb, c: Rgb)
    requires size < 16
    ensures HeadingsIn(Column(texts, x, y, step, size, font, color), c)
    decreases |texts|
  {
    if |texts| > 0 {
      ColumnNoHeadings(texts[1..], x, y - step, step, size, font, color, c);
      HeadingsInAppend([Text(texts[0], x, y, size, font, color)], Column(texts[1..], x, y - step, step, size, font, color), c);
    }
  }

  /** The specification rows hold no heading. */
  lemma {:induction false} SpecRowsNoHeadings(entries: seq<(string, string)>, y: int, c: Rgb)
    ensures HeadingsIn(SpecRows(entries, y), c)
    decreases |entries|
  {
    if |entries| > 0 {
      SpecRowsNoHeadings(entries[1..], y - 18, c);
      HeadingsInAppend(
        [Text(entries[0].0 + ":", 60, y, 10, HelveticaBold, Ink), Text(entries[0].1, 200, y, 10, Helvetica, ValueInk)],
        SpecRows(entries[1..], y - 18), c);
    }
  }

  /**
   * The header band and the section headings take the scheme's primary
   * colour, blue's for an unknown name; the overview heading always opens
   * the body.
   */
  lemma HeaderColour(content: GeneratedContent, colorScheme: string, opts: Options, date: string)
    requires Wf(content.specifications)
    ensures PdfPage(content, colorScheme, opts, date).header[0].color == PaletteOf(colorScheme).primary
    ensures ParseColorScheme(colorScheme).None? ==> PdfPage(content, colorScheme, opts, date).header[0].color == Rgb(15, 39, 92)
    ensures var body := PdfPage(content, colorScheme, opts, date).body;
      |body| > 0 && body[0] == Text("Product Overview", 50, BodyTop, 18, HelveticaBold, PaletteOf(colorScheme).primary)
    ensures HeadingsIn(PdfPage(content, colorScheme, opts, date).body, PaletteOf(colorScheme).primary)
  {
    var palette := PaletteOf(colorScheme);
    var d, f, s := content.description, content.features, content.specifications;
    var c := palette.primary;
    var overview := OverviewSection(d, palette);
    var features := FeaturesSection(f, opts, palette, FeaturesTop(d));
    var specs := SpecsSection(s, opts, palette, SpecsTop(d, f, opts));
    ColumnNoHeadings(DescriptionLines(d), 50, BodyTop - 30, 16, 11, TimesRoman, Ink, c);
    HeadingsInAppend([Text("Product Overview", 50, BodyTop, 18, HelveticaBold, c)], Column(DescriptionLines(d), 50, BodyTop - 30, 16, 11, TimesRoman, Ink), c);
    if ShowsFeatures(f, opts) {
      var y := FeaturesTop(d);
      ColumnNoHeadings(Bullets(Take(f, MaxFeatures)), 60, y - 25, 18, 10, Helvetica, FeatureInk, c);
      HeadingsInAppend([Text("Key Features", 50, y, 16, HelveticaBold, c)], Column(Bullets(Take(f, MaxFeatures)), 60, y - 25, 18, 10, Helvetica, FeatureInk), c);
    }
    if ShowsSpecs(s, opts) {
      var y := SpecsTop(d, f, opts);
      SpecRowsNoHeadings(DrawnSpecs(s), y - 25, c);
      HeadingsInAppend([Text("Specifications", 50, y, 16, HelveticaBold, c)], SpecRows(DrawnSpecs(s), y - 25), c);
    }
    HeadingsInAppend(overview, features, c);
    HeadingsInAppend(overview + features, specs, c);
    assert PdfPage(content, colorScheme, opts, date).body == overview + features + specs;
  }
}

=== FILE: scraper.dfy ===
/**
 * The scraping route: navigation with retries, the extraction heuristics
 * that run inside the loaded page, and the clean-up of what they return.
 *
 * The page is an oracle: `all(sel)` is `document.querySelectorAll(sel)`
 * (document order, so `document.querySelector(sel)` is its first element)
 * and `within(n, sel)` is `n.querySelectorAll(sel)`. Selector matching,
 * the browser and its network traffic are outside the model.
 */
module Scraper {
  import opened Wrappers
  import opened Str
  import opened Dict
  import opened Types
  import opened Seqs

  /** An element, through the four properties the extraction reads. */
  datatype Node = Node(textContent: string, innerText: string, src: string, alt: string)

  /** The loaded page. */
  datatype Page = Page(all: string -> seq<Node>, within: (Node, string) -> seq<Node>, location: string)

  const TitleSelectors: seq<string> := [
    "h1[data-testid=\"product-title\"]", "h1.product-title", "h1#product-title", ".product-name h1",
    ".product-title", "h1", ".title h1", "[data-cy=\"product-title\"]"]

  const DescriptionSelectors: seq<string> := [
    ".product-description", ".product-details", "[data-testid=\"product-description\"]",
    ".description", ".product-info", ".product-summary", "p"]

  const PriceSelectors: seq<string> := [
    ".price", ".product-price", "[data-testid=\"price\"]", ".current-price", ".sale-price", ".price-current"]

  const ImageSelectors: seq<string> := [
    ".product-images img", ".product-gallery img", ".product-photos img",
    "[data-testid=\"product-image\"]", ".main-image img", ".hero-image img"]

  const SpecTableSelector := "table, .specifications, .product-specs, .spec-table"
  const SpecRowSelector := "tr, .spec-row, .specification-item"
  const SpecCellSelector := "td, th, .spec-name, .spec-value, dt, dd"
  const SpecListSelector := ".specs ul, .specifications ul, .product-details ul"
  const SpecItemSelector := "li"

  const MaxImages := 10
  const MaxKeyLength := 50
  const MaxValueLength := 200

  /** The retries the route asks for: four attempts in all. */
  const NavigationRetries := 3

  // ---------------------------------------------------------------------
  // Navigation
  // ---------------------------------------------------------------------

  /** What one `page.goto` did. */
  datatype Attempt = Loaded | Threw(error: string)

  /** How navigation ended: loaded on some attempt, or the error of the last attempt. */
  datatype Navigation = LoadedOn(attempt: nat) | GaveUp(error: string)

  /**
   * Tries `goto(0)`, `goto(1)`, … up to attempt `retries` inclusive and stops
   * at the first that loads; when none does, it gives up with the error of
   * the last. The two-second pause between attempts is left out.
   */
  method NavigateWithRetry(goto: nat -> Attempt, retries: nat) returns (r: Navigation, attempts: nat)
    ensures 1 <= attempts <= retries + 1
    ensures r.LoadedOn? ==> r.attempt == attempts - 1 && goto(r.attempt) == Loaded
    ensures r.LoadedOn? ==> forall j :: 0 <= j < r.attempt ==> goto(j).Threw?
    ensures r.GaveUp? ==> attempts == retries + 1
    ensures r.GaveUp? ==> (forall j :: 0 <= j <= retries ==> goto(j).Threw?) && r.error == goto(retries).error
  {
    var lastError := "";
    var attempt := 0;
    while attempt <= retries
      invariant 0 <= attempt <= retries + 1
      invariant forall j :: 0 <= j < attempt ==> goto(j).Threw?
      invariant attempt > 0 ==> lastError == goto(attempt - 1).error
    {
      match goto(attempt)
      case Loaded =>
        return LoadedOn(attempt), attempt + 1;
      case Threw(e) =>
        lastError := e;
      attempt := attempt + 1;
    }
    return GaveUp(lastError), attempt;
  }

  // ---------------------------------------------------------------------
  // Text fields
  // ---------------------------------------------------------------------

  /** `el.textContent?.trim() || el.innerText?.trim()`: the inner text only when the trimmed content is empty. */
  function VisibleText(n: Node): (r: string)
    ensures Trim(n.textContent) != "" ==> r == Trim(n.textContent)
    ensures Trim(n.textContent) == "" ==> r == Trim(n.innerText)
    ensures r == Trim(n.textContent) || r == Trim(n.innerText)
  {
    var t := Trim(n.textContent);
    if t != "" then t else Trim(n.innerText)
  }
  /** An element shows no text exactly when both its text content and its inner text are all white space. */
  lemma VisibleTextEmpty(n: Node)
    ensures VisibleText(n) == "" <==> AllSpace(n.textContent) && AllSpace(n.innerText)
  {
  }


  /** Selector `i` is the first of `selectors` that matches anything on the page. */
  predicate FirstMatch(page: Page, selectors: seq<string>, i: int) {
    && 0 <= i < |selectors|
    && |page.all(selectors[i])| > 0
    && forall j :: 0 <= j < i ==> page.all(selectors[j]) == []
  }

  /**
   * `getTextFromSelectors`: the text of the first element of the first
   * selector that matches; `None` (`null`) when no selector matches. A
   * matching element whose text is empty still ends the search.
   */
  function TextFromSelectors(page: Page, selectors: seq<string>): (r: Option<string>)
    ensures r.None? <==> forall j :: 0 <= j < |selectors| ==> page.all(selectors[j]) == []
    ensures r.Some? ==> exists i :: FirstMatch(page, selectors, i) && r.value == VisibleText(page.all(selectors[i])[0])
    decreases |selectors|
  {
    if |selectors| == 0 then None
    else
      var hits := page.all(selectors[0]);
      if |hits| > 0 then
        assert FirstMatch(page, selectors, 0);
        Some(VisibleText(hits[0]))
      else
        var r := TextFromSelectors(page, selectors[1..]);
        FirstMatchShift(page, selectors, r);
        r
  }

  /** The search over `selectors` when its first selector matches nothing is the search over the rest. */
  lemma FirstMatchShift(page: Page, selectors: seq<string>, r: Option<string>)
    requires |selectors| > 0 && page.all(selectors[0]) == []
    requires r.None? <==> forall j :: 0 <= j < |selectors[1..]| ==> page.all(selectors[1..][j]) == []
    requires r.Some? ==> exists i :: FirstMatch(page, selectors[1..], i) && r.value == VisibleText(page.all(selectors[1..][i])[0])
    ensures r.None? <==> forall j :: 0 <= j < |selectors| ==> page.all(selectors[j]) == []
    ensures r.Some? ==> exists i :: FirstMatch(page, selectors, i) && r.value == VisibleText(page.all(selectors[i])[0])
  {
    var rest := selectors[1..];
    assert forall j :: 0 <= j < |rest| ==> rest[j] == selectors[j + 1];
    if r.Some? {
      var i :| FirstMatch(page, rest, i) && r.value == VisibleText(page.all(rest[i])[0]);
      FirstMatchNext(page, selectors, i);
    }
  }

  lemma FirstMatchNext(page: Page, selectors: seq<string>, i: nat)
    requires |selectors| > 0 && page.all(selectors[0]) == []
    requires FirstMatch(page, selectors[1..], i)
    ensures FirstMatch(page, selectors, i + 1)
  {
    var rest := selectors[1..];
    forall j | 0 <= j < i + 1 ensures page.all(selectors[j]) == [] {
      if j > 0 {
        assert selectors[j] == rest[j - 1];
      }
    }
  }

  // ---------------------------------------------------------------------
  // Images
  // ---------------------------------------------------------------------

  /** An element's image is kept when `src` is non-empty and not an inline `data:image` URL. */
  predicate Keepable(n: Node) {
    n.src != "" && !Contains(n.src, "data:image")
  }

  /** `{ url: img.src, alt: img.alt || 'Product image' }`. */
  function AsPageImage(n: Node): (im: PageImage)
    ensures im.url == n.src && im.alt != ""
    ensures n.alt != "" ==> im.alt == n.alt
  {
    PageImage(n.src, if n.alt == "" then "Product image" else n.alt)
  }

  /** An image as the page reports it: a usable URL and a non-empty alternative text. */
  predicate UsableImage(im: PageImage) {
    im.url != "" && !Contains(im.url, "data:image") && im.alt != ""
  }

  /** The images of the keepable elements among `nodes`, in order. */
  function KeptImages(nodes: seq<Node>): (r: seq<PageImage>)
    ensures |r| <= |nodes|
    ensures forall k :: 0 <= k < |r| ==> UsableImage(r[k])
    ensures r == [] <==> forall j :: 0 <= j < |nodes| ==> !Keepable(nodes[j])
    ensures forall j :: 0 <= j < |nodes| && Keepable(nodes[j]) ==> AsPageImage(nodes[j]) in r
  {
    if |nodes| == 0 then []
    else
      var rest := KeptImages(nodes[1..]);
      assert forall j :: 1 <= j < |nodes| ==> nodes[j] == nodes[1..][j - 1];
      if Keepable(nodes[0]) then [AsPageImage(nodes[0])] + rest else rest
  }

  /** Every kept image is the image of a keepable element. */
  lemma KeptImagesFrom(nodes: seq<Node>)
    ensures forall k :: 0 <= k < |KeptImages(nodes)| ==> ImageOfKeepable(nodes, KeptImages(nodes)[k])
  {
    forall k | 0 <= k < |KeptImages(nodes)| ensures ImageOfKeepable(nodes, KeptImages(nodes)[k]) {
      KeptImageFrom(nodes, k);
    }
  }

  /** Kept image `k` is the image of a keepable element. */
  lemma {:induction false} KeptImageFrom(nodes: seq<Node>, k: nat)
    requires k < |KeptImages(nodes)|
    ensures ImageOfKeepable(nodes, KeptImages(nodes)[k])
    decreases |nodes|
  {
    var rest := KeptImages(nodes[1..]);
    if Keepable(nodes[0]) && k == 0 {
      assert KeptImages(nodes)[0] == AsPageImage(nodes[0]);
    } else {
      var k' := if Keepable(nodes[0]) then k - 1 else k;
      assert KeptImages(nodes)[k] == rest[k'];
      KeptImageFrom(nodes[1..], k');
      ImageOfKeepableTail(nodes, rest[k']);
    }
  }

  /** `im` is the image of some keepable element of `nodes`. */
  predicate ImageOfKeepable(nodes: seq<Node>, im: PageImage) {
    exists j :: 0 <= j < |nodes| && Keepable(nodes[j]) && im == AsPageImage(nodes[j])
  }

  lemma ImageOfKeepableTail(nodes: seq<Node>, im: PageImage)
    requires |nodes| > 0 && ImageOfKeepable(nodes[1..], im)
    ensures ImageOfKeepable(nodes, im)
  {
    var j :| 0 <= j < |nodes[1..]| && Keepable(nodes[1..][j]) && im == AsPageImage(nodes[1..][j]);
    assert nodes[1..][j] == nodes[j + 1];
  }

  /** Filtering a concatenation filters each part: the kept images keep document order. */
  lemma {:induction false} KeptImagesAppend(a: seq<Node>, b: seq<Node>)
    ensures KeptImages(a + b) == KeptImages(a) + KeptImages(b)
    decreases |a|
  {
    if |a| > 0 {
      assert (a + b)[0] == a[0];
      assert (a + b)[1..] == a[1..] + b;
      KeptImagesAppend(a[1..], b);
    } else {
      assert a + b == b;
    }
  }

  /**
   * Reference definition of the image search: the kept images of the first
   * selector that yields any. A selector whose matches are all filtered
   * out does not end the search.
   */
  function FirstImages(page: Page, selectors: seq<string>): seq<PageImage>
    decreases |selectors|
  {
    if |selectors| == 0 then []
    else if KeptImages(page.all(selectors[0])) != [] then KeptImages(page.all(selectors[0]))
    else FirstImages(page, selectors[1..])
  }

  /**
   * `getImagesFromSelectors`: collects the kept images of each selector in
   * turn, stops after the first selector that yielded any, and keeps the
   * first ten.
   */
  method ImagesFromSelectors(page: Page, selectors: seq<string>) returns (images: seq<PageImage>)
    ensures images == Take(FirstImages(page, selectors), MaxImages)
    ensures |images| <= MaxImages
    ensures forall k :: 0 <= k < |images| ==> UsableImage(images[k])
  {
    var found: seq<PageImage> := [];
    var i := 0;
    while i < |selectors|
      invariant 0 <= i <= |selectors|
      invariant found == []
      invariant FirstImages(page, selectors) == FirstImages(page, selectors[i..])
    {
      found := found + KeptImages(page.all(selectors[i]));
      if |found| > 0 {
        break;
      }
      assert selectors[i..][1..] == selectors[i + 1..];
      i := i + 1;
    }
    images := Take(found, MaxImages);
  }

  // ---------------------------------------------------------------------
  // Specifications
  // ---------------------------------------------------------------------

  /** A specification entry the extraction accepts: non-empty, trimmed, key under 50 and value under 200 characters. */
  predicate GoodEntry(key: string, value: string) {
    && key != "" && value != ""
    && Trimmed(key) && Trimmed(value)
    && |key| < MaxKeyLength && |value| < MaxValueLength
  }

  /**
   * The entry a table row offers: its first two cells' trimmed text, when
   * the row has at least two cells and both texts pass the bounds.
   */
  function RowEntry(page: Page, row: Node): (r: Option<(string, string)>)
    ensures r.Some? ==> GoodEntry(r.value.0, r.value.1)
    ensures |page.within(row, SpecCellSelector)| < 2 ==> r.None?
    ensures var cells := page.within(row, SpecCellSelector);
      |cells| >= 2 ==>
        var key := Trim(cells[0].textContent);
        var value := Trim(cells[1].textContent);
        r == if key != "" && value != "" && |key| < MaxKeyLength && |value| < MaxValueLength then Some((key, value)) else None
  {
    var cells := page.within(row, SpecCellSelector);
    if |cells| >= 2 then
      var key := Trim(cells[0].textContent);
      var value := Trim(cells[1].textContent);
      if key != "" && value != "" && |key| < MaxKeyLength && |value| < MaxValueLength then
        Some((key, value))
      else None
    else None
  }

  /**
   * The entry a list item offers: its trimmed text split at the first
   * colon, the rest re-joined with colons and trimmed. The bounds and the
   * emptiness test apply to the key before it is trimmed.
   */
  function ItemEntry(item: Node): (r: Option<(string, string)>)
  {
    var text := Trim(item.textContent);
    if text != "" && ':' in text then
      var parts := Split(text, ':');
      var key := parts[0];
      var value := Trim(Join(parts[1..], ":"));
      if key != "" && value != "" && |key| < MaxKeyLength && |value| < MaxValueLength then
        Some((Trim(key), value))
      else None
    else None
  }

  /**
   * `ItemEntry` described by positions: everything before the first colon
   * is the key, everything after it the value; an item without a colon
   * offers nothing.
   */
  lemma ItemEntryAtFirstColon(item: Node)
    ensures var text := Trim(item.textContent);
      match IndexOf(text, ':')
      case None => ItemEntry(item).None?
      case Some(i) =>
        var key := text[..i];
        var value := Trim(text[i + 1..]);
        ItemEntry(item) == if key != "" && value != "" && |key| < MaxKeyLength && |value| < MaxValueLength
          then Some((Trim(key), value)) else None
  {
    var text := Trim(item.textContent);
    match IndexOf(text, ':')
    case None =>
    case Some(i) =>
      SplitAtFirst(text, ':', i);
      var parts := Split(text, ':');
      assert text != "" && ':' in text;
      assert parts[0] == text[..i];
      assert Join(parts[1..], ":") == text[i + 1..];
  }

  /** An accepted item entry is trimmed, non-empty and within the value bound; its trimmed key is within the key bound. */
  lemma ItemEntryGood(item: Node)
    requires ItemEntry(item).Some?
    ensures GoodEntry(ItemEntry(item).value.0, ItemEntry(item).value.1)
  {
    var text := Trim(item.textContent);
    var i := IndexOf(text, ':').value;
    ItemEntryAtFirstColon(item);
    var key := text[..i];
    // The key cannot be all white space: `text` starts with a non-space character.
    assert key[0] == text[0];
    assert !AllSpace(key);
  }

  /** Every entry of `ps` is one the extraction accepts. */
  predicate AllGood(ps: seq<(string, string)>) {
    forall p :: p in ps ==> GoodEntry(p.0, p.1)
  }

  /** `table.querySelectorAll(rows)` for each table in turn: every row of every specification table. */
  function RowsOf(page: Page, tables: seq<Node>): seq<Node> {
    if |tables| == 0 then [] else page.within(tables[0], SpecRowSelector) + RowsOf(page, tables[1..])
  }

  /** Every list item of every specification list. */
  function ItemsOf(page: Page, lists: seq<Node>): seq<Node> {
    if |lists| == 0 then [] else page.within(lists[0], SpecItemSelector) + ItemsOf(page, lists[1..])
  }

  /** The entries the rows offer, in document order. */
  function RowEntries(page: Page, rows: seq<Node>): (ps: seq<(string, string)>)
    ensures AllGood(ps)
  {
    if |rows| == 0 then []
    else
      match RowEntry(page, rows[0])
      case Some(p) => [p] + RowEntries(page, rows[1..])
      case None => RowEntries(page, rows[1..])
  }

  /** The rows of a concatenation offer the entries of each part, in order. */
  lemma {:induction false} RowEntriesAppend(page: Page, a: seq<Node>, b: seq<Node>)
    ensures RowEntries(page, a + b) == RowEntries(page, a) + RowEntries(page, b)
    decreases |a|
  {
    if |a| > 0 {
      assert (a + b)[0] == a[0];
      assert (a + b)[1..] == a[1..] + b;
      RowEntriesAppend(page, a[1..], b);
    } else {
      assert a + b == b;
    }
  }

  /** One row offers its own entry or nothing. */
  lemma RowEntriesOne(page: Page, row: Node)
    ensures RowEntries(page, [row]) == match RowEntry(page, row) case Some(p) => [p] case None => []
  {
    assert [row][1..] == [];
  }

  /** The entries the list items offer, in document order. */
  function ItemEntries(items: seq<Node>): seq<(string, string)> {
    if |items| == 0 then []
    else
      var e := ItemEntry(items[0]);
      if e.Some? then [e.value] + ItemEntries(items[1..]) else ItemEntries(items[1..])
  }

  /** Every entry the list items offer is good. */
  lemma {:induction false} ItemEntriesGood(items: seq<Node>)
    ensures AllGood(ItemEntries(items))
  {
    if |items| > 0 {
      ItemEntriesGood(items[1..]);
      if ItemEntry(items[0]).Some? {
        ItemEntryGood(items[0]);
      }
    }
  }

  /** The items of a concatenation offer the entries of each part, in order. */
  lemma {:induction false} ItemEntriesAppend(a: seq<Node>, b: seq<Node>)
    ensures ItemEntries(a + b) == ItemEntries(a) + ItemEntries(b)
    decreases |a|
  {
    if |a| > 0 {
      assert (a + b)[0] == a[0];
      assert (a + b)[1..] == a[1..] + b;
      ItemEntriesAppend(a[1..], b);
    } else {
      assert a + b == b;
    }
  }

  function TableEntries(page: Page): seq<(string, string)> {
    RowEntries(page, RowsOf(page, page.all(SpecTableSelector)))
  }

  function ListEntries(page: Page): seq<(string, string)> {
    ItemEntries(ItemsOf(page, page.all(SpecListSelector)))
  }

  /**
   * `extractSpecifications`: the table entries assigned first, then the
   * list entries, into one object; on a repeated key the later entry wins,
   * so a list entry overrides a table entry. Every entry kept is good.
   */
  function ExtractSpecifications(page: Page): (specs: Dict)
    ensures Wf(specs)
    ensures specs.values == LastWins(TableEntries(page)) + LastWins(ListEntries(page))
    ensures forall k :: k in specs.values ==> GoodEntry(k, specs.values[k])
  {
    var table := TableEntries(page);
    var list := ListEntries(page);
    var specs := Assign(Assign(Empty, table), list);
    ItemEntriesGood(ItemsOf(page, page.all(SpecListSelector)));
    GoodEntriesKept(table, list);
    specs
  }

  /** Assigning good entries only leaves good entries. */
  lemma GoodEntriesKept(table: seq<(string, string)>, list: seq<(string, string)>)
    requires AllGood(table) && AllGood(list)
    ensures forall k :: k in LastWins(table) + LastWins(list) ==> GoodEntry(k, (LastWins(table) + LastWins(list))[k])
  {
    LastWinsFrom(table);
    LastWinsFrom(list);
    var m := LastWins(table) + LastWins(list);
    forall k | k in m ensures GoodEntry(k, m[k]) {
      if k in LastWins(list) {
        assert (k, m[k]) in list;
      } else {
        assert (k, m[k]) in table;
      }
    }
  }

  /** A key offered by the lists takes the list's last value for it, whatever the tables said. */
  lemma ListEntriesWin(page: Page, k: string)
    requires k in LastWins(ListEntries(page))
    ensures ExtractSpecifications(page).values[k] == LastWins(ListEntries(page))[k]
  {
  }

  // ---------------------------------------------------------------------
  // The extracted record and its clean-up
  // ---------------------------------------------------------------------

  /** What `page.evaluate` returns. */
  datatype Extracted = Extracted(
    title: Option<string>,
    description: Option<string>,
    price: Option<string>,
    specifications: Dict,
    images: seq<PageImage>,
    url: string)

  /** Runs the heuristics over the loaded page. */
  method Extract(page: Page) returns (e: Extracted)
    ensures e.title == TextFromSelectors(page, TitleSelectors)
    ensures e.description == TextFromSelectors(page, DescriptionSelectors)
    ensures e.price == TextFromSelectors(page, PriceSelectors)
    ensures e.specifications == ExtractSpecifications(page)
    ensures e.images == Take(FirstImages(page, ImageSelectors), MaxImages)
    ensures e.url == page.location
  {
    var images := ImagesFromSelectors(page, ImageSelectors);
    e := Extracted(
      TextFromSelectors(page, TitleSelectors),
      TextFromSelectors(page, DescriptionSelectors),
      TextFromSelectors(page, PriceSelectors),
      ExtractSpecifications(page),
      images,
      page.location);
  }

  /** The record the route answers with. */
  datatype ScrapedData = ScrapedData(
    title: string,
    description: string,
    price: Option<string>,
    specifications: Dict,
    images: seq<PageImage>,
    url: string,
    scrapedAt: string)

  /**
   * The clean-up: a missing or empty title or description becomes a fixed
   * placeholder, an empty price becomes `null`, and the time of scraping is
   * stamped; `now` is the clock's ISO string.
   */
  function Clean(e: Extracted, now: string): (d: ScrapedData)
    ensures d.title != "" && d.description != ""
    ensures Truthy(e.title) ==> d.title == e.title.value
    ensures !Truthy(e.title) ==> d.title == "Product Title"
    ensures Truthy(e.description) ==> d.description == e.description.value
    ensures !Truthy(e.description) ==> d.description == "Product description not available"
    ensures d.price.Some? <==> Truthy(e.price)
    ensures d.price.Some? ==> d.price == e.price
    ensures d.specifications == e.specifications && d.images == e.images
    ensures d.url == e.url && d.scrapedAt == now
  {
    ScrapedData(
      OrElse(e.title, "Product Title"),
      OrElse(e.description, "Product description not available"),
      if Truthy(e.price) then e.price else None,
      e.specifications,
      e.images,
      e.url,
      now)
  }

  /** The route's answer. */
  datatype ScrapeResponse =
    | Scraped(data: ScrapedData)
    | LoadFailed(error: string, message: string)

  const LoadFailedText := "Failed to load the page. The site may be down or blocking bots."

  /**
   * `POST /scrape` once the browser is up: navigate with three retries;
   * when every attempt fails answer with the last error, otherwise extract
   * and clean. `page` is the page as loaded by the successful attempt.
   */
  method Scrape(goto: nat -> Attempt, page: Page, now: string) returns (resp: ScrapeResponse)
    ensures resp.LoadFailed? <==> forall j :: 0 <= j <= NavigationRetries ==> goto(j).Threw?
    ensures resp.LoadFailed? ==> resp.error == LoadFailedText && resp.message == goto(NavigationRetries).error
    ensures resp.Scraped? ==> resp.data.url == page.location && resp.data.scrapedAt == now
    ensures resp.Scraped? ==> resp.data.specifications == ExtractSpecifications(page)
    ensures resp.Scraped? ==> |resp.data.images| <= MaxImages
  {
    var nav, _ := NavigateWithRetry(goto, NavigationRetries);
    if nav.GaveUp? {
      return LoadFailed(LoadFailedText, nav.error);
    }
    // The attempt that loaded is one of the four, so not every attempt failed.
    assert !(forall j :: 0 <= j <= NavigationRetries ==> goto(j).Threw?);
    var e := Extract(page);
    resp := Scraped(Clean(e, now));
  }
}

=== FILE: seqs.dfy ===
/**
 * The array updates the editors make: `slice(0, n)`, the index-wise
 * `map` that replaces one element, and the index-wise `filter` that drops
 * one.
 */
module Seqs {
  /** `xs.slice(0, n)`. */
  function Take<T>(xs: seq<T>, n: nat): (r: seq<T>)
    ensures |r| <= n && |r| <= |xs|
    ensures r == xs[..|r|]
    ensures |xs| <= n ==> r == xs
    ensures |xs| > n ==> |r| == n
  {
    if |xs| <= n then xs else xs[..n]
  }

  /** Taking a prefix twice changes nothing. */
  lemma TakeTake<T>(xs: seq<T>, n: nat)
    ensures Take(Take(xs, n), n) == Take(xs, n)
  {
  }

  /** `xs.map((x, idx) => idx === i ? v : x)`. */
  function SetAt<T>(xs: seq<T>, i: nat, v: T): (r: seq<T>)
    ensures |r| == |xs|
  {
    seq(|xs|, j requires 0 <= j < |xs| => if j == i then v else xs[j])
  }

  /** `xs.filter((_, idx) => idx !== i)`, one element at a time. */
  function RemoveAt<T>(xs: seq<T>, i: nat): (r: seq<T>)
    decreases |xs|
  {
    if |xs| == 0 then []
    else if i == 0 then xs[1..]
    else [xs[0]] + RemoveAt(xs[1..], i - 1)
  }

  /**
   * Replacing element `i` changes only that element: everything before and
   * after it is kept, and an index past the end changes nothing.
   */
  lemma SetAtOnly<T>(xs: seq<T>, i: nat, v: T)
    ensures i < |xs| ==> SetAt(xs, i, v) == xs[..i] + [v] + xs[i + 1..]
    ensures i >= |xs| ==> SetAt(xs, i, v) == xs
  {
    if i < |xs| {
      assert SetAt(xs, i, v) == xs[..i] + [v] + xs[i + 1..];
    } else {
      assert SetAt(xs, i, v) == xs;
    }
  }

  /** Writing back what is there changes nothing. */
  lemma SetAtSame<T>(xs: seq<T>, i: nat)
    requires i < |xs|
    ensures SetAt(xs, i, xs[i]) == xs
  {
    assert SetAt(xs, i, xs[i]) == xs;
  }

  lemma {:induction false} RemoveAtPast<T>(xs: seq<T>, i: nat)
    requires i >= |xs|
    ensures RemoveAt(xs, i) == xs
    decreases |xs|
  {
    if |xs| > 0 {
      RemoveAtPast(xs[1..], i - 1);
      assert [xs[0]] + xs[1..] == xs;
    }
  }

  /**
   * Filtering out index `i` removes exactly element `i` and keeps the others
   * in order; an index past the end removes nothing.
   */
  lemma {:induction false} RemoveAtOnly<T>(xs: seq<T>, i: nat)
    ensures i < |xs| ==> RemoveAt(xs, i) == xs[..i] + xs[i + 1..]
    ensures i >= |xs| ==> RemoveAt(xs, i) == xs
    ensures |RemoveAt(xs, i)| == if i < |xs| then |xs| - 1 else |xs|
    decreases |xs|
  {
    if i >= |xs| {
      RemoveAtPast(xs, i);
    } else if i == 0 {
      RemoveAtPast(xs[1..], |xs|);
    } else {
      RemoveAtOnly(xs[1..], i - 1);
      assert [xs[0]] + (xs[1..][..i - 1] + xs[1..][i..]) == xs[..i] + xs[i + 1..];
    }
  }

  /** Removing the element just appended gives the list back. */
  lemma AppendThenRemove<T>(xs: seq<T>, x: T)
    ensures RemoveAt(xs + [x], |xs|) == xs
  {
    RemoveAtOnly(xs + [x], |xs|);
    assert (xs + [x])[..|xs|] == xs;
  }
}

=== FILE: strings.dfy ===
/**
 * The JavaScript string operations the catalog generator relies on:
 * `trim`, `startsWith`, `includes`, `split` / `join` on one separator and
 * the decimal rendering of a non-negative integer in a template literal.
 * A JavaScript string is modelled as a sequence of characters.
 */
module Str {
  import opened Wrappers

  /** White space and line terminators, the characters `String.prototype.trim` removes. */
  predicate IsSpace(c: char) {
    || c == ' ' || c == '\t' || c == '\n' || c == '\r'
    || c == '\U{000B}' || c == '\U{000C}' || c == '\U{00A0}' || c == '\U{1680}'
    || ('\U{2000}' <= c <= '\U{200A}')
    || c == '\U{2028}' || c == '\U{2029}' || c == '\U{202F}' || c == '\U{205F}'
    || c == '\U{3000}' || c == '\U{FEFF}'
  }

  predicate AllSpace(s: string) {
    forall i :: 0 <= i < |s| ==> IsSpace(s[i])
  }

  /** Drops the leading white space. */
  function TrimStart(s: string): (r: string)
    ensures |r| <= |s| && r == s[|s| - |r|..]
    ensures forall i :: 0 <= i < |s| - |r| ==> IsSpace(s[i])
    ensures r == [] || !IsSpace(r[0])
  {
    if |s| > 0 && IsSpace(s[0]) then TrimStart(s[1..]) else s
  }

  /** Drops the trailing white space. */
  function TrimEnd(s: string): (r: string)
    ensures |r| <= |s| && r == s[..|r|]
    ensures forall i :: |r| <= i < |s| ==> IsSpace(s[i])
    ensures r == [] || !IsSpace(r[|r| - 1])
  {
    if |s| > 0 && IsSpace(s[|s| - 1]) then TrimEnd(s[..|s| - 1]) else s
  }

  /** `s` neither starts nor ends with white space. */
  predicate Trimmed(s: string) {
    s == [] || (!IsSpace(s[0]) && !IsSpace(s[|s| - 1]))
  }

  /** `r` is `s[a..b]` and only white space lies outside it. */
  predicate SpaceAround(s: string, r: string, a: int, b: int) {
    0 <= a <= b <= |s| && r == s[a..b] && AllSpace(s[..a]) && AllSpace(s[b..])
  }

  /** `s.trim()`: the infix of `s` left once the white space at both ends is cut off. */
  function Trim(s: string): (r: string)
    ensures |r| <= |s|
    ensures Trimmed(r)
    ensures r == [] <==> AllSpace(s)
  {
    var t := TrimStart(s);
    var r := TrimEnd(t);
    r
  }

  /** The trim is an infix of `s` with only white space before and after it. */
  lemma TrimSlice(s: string)
    ensures exists a, b :: SpaceAround(s, Trim(s), a, b)
  {
    var t := TrimStart(s);
    var r := TrimEnd(t);
    assert Trim(s) == r;
    SpaceAroundOfCuts(s, t, r);
    assert SpaceAround(s, r, |s| - |t|, |s| - |t| + |r|);
  }

  /** Cutting white space off the front of `s`, giving `t`, and then off the back of `t`, giving `r`. */
  lemma SpaceAroundOfCuts(s: string, t: string, r: string)
    requires |t| <= |s| && t == s[|s| - |t|..]
    requires forall i :: 0 <= i < |s| - |t| ==> IsSpace(s[i])
    requires |r| <= |t| && r == t[..|r|]
    requires forall i :: |r| <= i < |t| ==> IsSpace(t[i])
    ensures SpaceAround(s, r, |s| - |t|, |s| - |t| + |r|)
  {
    var a := |s| - |t|;
    var b := a + |r|;
    assert s[a..b] == r;
    assert AllSpace(s[..a]) by {
      forall i | 0 <= i < a ensures IsSpace(s[..a][i]) {
        assert s[..a][i] == s[i];
      }
    }
    assert AllSpace(s[b..]) by {
      forall i | 0 <= i < |s| - b ensures IsSpace(s[b..][i]) {
        assert s[b..][i] == t[|r| + i];
      }
    }
  }

  /**
   * The trim is the only infix with white space around it and none at its
   * own ends: whichever way `s` splits into space, such an infix and space,
   * that infix is `Trim(s)`.
   */
  lemma TrimUnique(s: string, t: string, a: int, b: int)
    requires SpaceAround(s, t, a, b)
    requires t != [] && !IsSpace(t[0]) && !IsSpace(t[|t| - 1])
    ensures Trim(s) == t
  {
    InfixCuts(s, t, a, b);
    var u := s[a..];
    TrimEndAt(u, b - a);
    TrimStartAt(s, a);
    assert Trim(s) == TrimEnd(TrimStart(s));
  }

  /** The same facts about an infix with white space around it, as the two cuts need them. */
  lemma InfixCuts(s: string, t: string, a: int, b: int)
    requires SpaceAround(s, t, a, b)
    requires t != [] && !IsSpace(t[0]) && !IsSpace(t[|t| - 1])
    ensures 0 <= a < b <= |s| && AllSpace(s[..a]) && !IsSpace(s[a])
    ensures !IsSpace(s[a..][b - a - 1]) && AllSpace(s[a..][b - a..])
    ensures s[a..][..b - a] == t
  {
    assert s[a] == t[0];
    assert s[a..][b - a - 1] == t[|t| - 1];
    assert s[a..][b - a..] == s[b..];
  }

  /** Leading white space up to a non-space character at `a` is what `TrimStart` drops. */
  lemma {:induction false} TrimStartAt(s: string, a: nat)
    requires a < |s| && AllSpace(s[..a]) && !IsSpace(s[a])
    ensures TrimStart(s) == s[a..]
  {
    if a > 0 {
      assert s[0] == s[..a][0];
      var pre := s[1..][..a - 1];
      assert AllSpace(pre) by {
        forall i | 0 <= i < |pre| ensures IsSpace(pre[i]) {
          assert pre[i] == s[..a][i + 1];
        }
      }
      TrimStartAt(s[1..], a - 1);
      assert s[1..][a - 1..] == s[a..];
    }
  }

  /** Trailing white space after a non-space character at `n - 1` is what `TrimEnd` drops. */
  lemma {:induction false} TrimEndAt(s: string, n: nat)
    requires 0 < n <= |s| && AllSpace(s[n..]) && !IsSpace(s[n - 1])
    ensures TrimEnd(s) == s[..n]
    decreases |s|
  {
    if n < |s| {
      var s' := s[..|s| - 1];
      assert s[|s| - 1] == s[n..][|s| - 1 - n];
      assert AllSpace(s'[n..]) by {
        forall i | 0 <= i < |s'[n..]| ensures IsSpace(s'[n..][i]) {
          assert s'[n..][i] == s[n..][i];
        }
      }
      TrimEndAt(s', n);
      assert s'[..n] == s[..n];
    }
  }

  /** Trimming twice is trimming once. */
  lemma TrimIdempotent(s: string)
    ensures Trim(Trim(s)) == Trim(s)
  {
    var r := Trim(s);
    if r != [] {
      assert TrimStart(r) == r;
      assert TrimEnd(r) == r;
    }
  }

  /** A string is its own trim exactly when it neither starts nor ends with white space. */
  lemma TrimOfTrimmed(s: string)
    ensures Trim(s) == s <==> Trimmed(s)
  {
    if Trimmed(s) && s != [] {
      assert TrimStart(s) == s;
      assert TrimEnd(s) == s;
    }
  }

  predicate StartsWith(s: string, prefix: string) {
    |prefix| <= |s| && s[..|prefix|] == prefix
  }

  /** `s.includes(t)`: `t` occurs in `s` at some position. */
  predicate Contains(s: string, t: string)
    decreases |s|
  {
    StartsWith(s, t) || (|s| > 0 && Contains(s[1..], t))
  }

  /** `Contains` is "occurs at some index". */
  lemma {:induction false} ContainsAt(s: string, t: string, i: nat)
    requires i + |t| <= |s| && s[i..i + |t|] == t
    ensures Contains(s, t)
    decreases i
  {
    if i > 0 {
      assert s[1..][i - 1..i - 1 + |t|] == s[i..i + |t|];
      ContainsAt(s[1..], t, i - 1);
    } else {
      assert s[..|t|] == s[0..|t|];
    }
  }

  /** The position of the first `c` in `s`. */
  function IndexOf(s: string, c: char): (r: Option<nat>)
    ensures r.None? <==> c !in s
    ensures r.Some? ==> r.value < |s| && s[r.value] == c && c !in s[..r.value]
  {
    if |s| == 0 then None
    else if s[0] == c then Some(0)
    else match IndexOf(s[1..], c)
      case None => None
      case Some(i) =>
        assert s[..i + 1] == [s[0]] + s[1..][..i];
        Some(i + 1)
  }

  /** The first occurrence determines `IndexOf`. */
  lemma IndexOfIs(s: string, c: char, i: nat)
    requires i < |s| && s[i] == c && c !in s[..i]
    ensures IndexOf(s, c) == Some(i)
  {
  }

  /** The position of the last `c` in `s`. */
  function LastIndexOf(s: string, c: char): (r: Option<nat>)
    ensures r.None? <==> c !in s
    ensures r.Some? ==> r.value < |s| && s[r.value] == c && c !in s[r.value + 1..]
  {
    if |s| == 0 then None
    else if s[|s| - 1] == c then Some(|s| - 1)
    else match LastIndexOf(s[..|s| - 1], c)
      case None => None
      case Some(i) =>
        assert s[i + 1..] == s[..|s| - 1][i + 1..] + [s[|s| - 1]];
        Some(i)
  }

  /** `parts.join(sep)`. */
  function Join(parts: seq<string>, sep: string): string {
    if |parts| == 0 then ""
    else if |parts| == 1 then parts[0]
    else parts[0] + sep + Join(parts[1..], sep)
  }

  /** Joining one more part appends the separator and that part. */
  lemma {:induction false} JoinSnoc(parts: seq<string>, last: string, sep: string)
    requires |parts| > 0
    ensures Join(parts + [last], sep) == Join(parts, sep) + sep + last
  {
    if |parts| == 1 {
      assert (parts + [last])[1..] == [last];
    } else {
      assert (parts + [last])[1..] == parts[1..] + [last];
      JoinSnoc(parts[1..], last, sep);
    }
  }

  /** `s.split(c)` on a one-character separator: the pieces between the occurrences of `c`. */
  function Split(s: string, c: char): (r: seq<string>)
    ensures |r| >= 1
    ensures forall i :: 0 <= i < |r| ==> c !in r[i]
    ensures Join(r, [c]) == s
    decreases |s|
  {
    match IndexOf(s, c)
    case None => [s]
    case Some(i) =>
      var rest := Split(s[i + 1..], c);
      var r := [s[..i]] + rest;
      assert r[1..] == rest;
      assert s == s[..i] + [c] + s[i + 1..];
      r
  }

  /** The first piece of a split is everything before the first separator; the rest, re-joined, is everything after it. */
  lemma SplitAtFirst(s: string, c: char, i: nat)
    requires IndexOf(s, c) == Some(i)
    ensures Split(s, c)[0] == s[..i]
    ensures Join(Split(s, c)[1..], [c]) == s[i + 1..]
  {
    assert Split(s, c)[1..] == Split(s[i + 1..], c);
  }

  /** A string without the separator splits into itself alone. */
  lemma SplitWithout(s: string, c: char)
    requires c !in s
    ensures Split(s, c) == [s]
  {
  }

  predicate IsDigit(c: char) {
    '0' <= c <= '9'
  }

  predicate IsAsciiAlnum(c: char) {
    ('a' <= c <= 'z') || ('A' <= c <= 'Z') || IsDigit(c)
  }

  function DigitChar(d: nat): (c: char)
    requires d < 10
    ensures IsDigit(c)
  {
    (48 + d) as char
  }

  /** The decimal rendering `${n}` of a non-negative integer. */
  function NatToString(n: nat): (r: string)
    ensures |r| >= 1
    ensures forall i :: 0 <= i < |r| ==> IsDigit(r[i])
    ensures (n < 10) == (|r| == 1)
  {
    if n < 10 then [DigitChar(n)] else NatToString(n / 10) + [DigitChar(n % 10)]
  }

  /** Distinct numbers render as distinct strings. */
  lemma {:induction false} NatToStringInjective(a: nat, b: nat)
    requires NatToString(a) == NatToString(b)
    ensures a == b
    decreases a
  {
    if a >= 10 && b >= 10 {
      var sa, sb := NatToString(a), NatToString(b);
      assert sa[|sa| - 1] == DigitChar(a % 10);
      assert sb[|sb| - 1] == DigitChar(b % 10);
      assert sa[..|sa| - 1] == NatToString(a / 10);
      assert sb[..|sb| - 1] == NatToString(b / 10);
      NatToStringInjective(a / 10, b / 10);
    } else if a < 10 && b < 10 {
      assert NatToString(a)[0] == DigitChar(a);
    }
  }

  /** A string JavaScript treats as true: present and non-empty. */
  predicate Truthy(o: Option<string>) {
    o.Some? && o.value != ""
  }

  /** `o || fallback`. */
  function OrElse(o: Option<string>, fallback: string): (r: string)
    ensures Truthy(o) ==> r == o.value
    ensures !Truthy(o) ==> r == fallback
  {
    if Truthy(o) then o.value else fallback
  }
}

=== FILE: types.dfy ===
/**
 * The catalog's shared data: product data, generated content, layout,
 * images and content blocks, with the closed string unions of the front
 * end as datatypes. JavaScript objects are open, so the records also carry
 * the properties the running code adds beyond the declared interfaces
 * (`scrapedAt` on the product, `keywords` on the generated content, and the
 * fields the content editor writes into both).
 */
module Types {
  import opened Wrappers
  import opened Dict

  datatype Theme = Modern | Classic | Minimal
  datatype ColorScheme = Blue | Purple | Green | Red
  datatype Typography = Sans | Serif | Mono

  datatype Layout = Layout(theme: Theme, colorScheme: ColorScheme, typography: Typography)

  function ColorSchemeName(c: ColorScheme): string {
    match c
    case Blue => "blue"
    case Purple => "purple"
    case Green => "green"
    case Red => "red"
  }

  /** Reads a colour-scheme name; anything outside the union is `None`. */
  function ParseColorScheme(s: string): (r: Option<ColorScheme>)
    ensures r.Some? ==> ColorSchemeName(r.value) == s
  {
    if s == "blue" then Some(Blue)
    else if s == "purple" then Some(Purple)
    else if s == "green" then Some(Green)
    else if s == "red" then Some(Red)
    else None
  }

  /** Every scheme name reads back as its scheme. */
  lemma ColorSchemeRoundTrip(c: ColorScheme)
    ensures ParseColorScheme(ColorSchemeName(c)) == Some(c)
  {
  }

  /** The eight kinds of content block. */
  datatype BlockType =
    | TitleBlock | DescriptionBlock | ImageGalleryBlock | FeaturesBlock
    | SpecificationsBlock | BenefitsBlock | PriceBlock | CustomSectionBlock

  function BlockTypeName(t: BlockType): string {
    match t
    case TitleBlock => "title"
    case DescriptionBlock => "description"
    case ImageGalleryBlock => "imageGallery"
    case FeaturesBlock => "features"
    case SpecificationsBlock => "specifications"
    case BenefitsBlock => "benefits"
    case PriceBlock => "price"
    case CustomSectionBlock => "customSection"
  }

  const AllBlockTypes: seq<BlockType> := [
    TitleBlock, DescriptionBlock, ImageGalleryBlock, FeaturesBlock,
    SpecificationsBlock, BenefitsBlock, PriceBlock, CustomSectionBlock]

  /** The union has exactly eight members. */
  lemma BlockTypesAreEight()
    ensures |AllBlockTypes| == 8
    ensures forall t: BlockType :: t in AllBlockTypes
    ensures forall i, j :: 0 <= i < j < 8 ==> AllBlockTypes[i] != AllBlockTypes[j]
  {
    forall t: BlockType ensures t in AllBlockTypes {
      match t
      case TitleBlock => assert AllBlockTypes[0] == t;
      case DescriptionBlock => assert AllBlockTypes[1] == t;
      case ImageGalleryBlock => assert AllBlockTypes[2] == t;
      case FeaturesBlock => assert AllBlockTypes[3] == t;
      case SpecificationsBlock => assert AllBlockTypes[4] == t;
      case BenefitsBlock => assert AllBlockTypes[5] == t;
      case PriceBlock => assert AllBlockTypes[6] == t;
      case CustomSectionBlock => assert AllBlockTypes[7] == t;
    }
  }

  /** A catalog image `{ id, url, alt, position }`. */
  datatype CatalogImage = CatalogImage(id: string, url: string, alt: string, position: int)

  /** An image found on the product page: `{ url, alt }`. */
  datatype PageImage = PageImage(url: string, alt: string)

  /** A file the user picked in the browser: its name and MIME type. */
  datatype UserFile = UserFile(name: string, mimeType: string)

  /** `product.images`: the user's files on input, the page's images once the scraped data is spread over it. */
  datatype ProductImages = Files(files: seq<UserFile>) | Found(found: seq<PageImage>)

  datatype ProductData = ProductData(
    url: string,
    title: Option<string>,
    description: Option<string>,
    price: Option<string>,
    specifications: Option<Dict>,
    images: ProductImages,
    useAutomaticImages: bool,
    extractedImages: Option<seq<string>>,
    scrapedAt: Option<string>,
    features: Option<seq<string>>,
    benefits: Option<seq<string>>)

  /** What the front end submits: a URL, the chosen files and the automatic-images switch. */
  function SubmittedProduct(url: string, files: seq<UserFile>, automatic: bool): ProductData {
    ProductData(url, None, None, None, None, Files(files), automatic, None, None, None, None)
  }

  datatype GeneratedContent = GeneratedContent(
    title: string,
    description: string,
    specifications: Dict,
    features: seq<string>,
    benefits: seq<string>,
    keywords: Option<seq<string>>,
    category: Option<string>,
    targetAudience: Option<string>,
    generatedAt: Option<string>,
    price: Option<string>)

  /** A content block's `content`: the slots the block editor reads and writes. */
  datatype BlockContent = BlockContent(
    text: Option<string>,
    value: Option<string>,
    images: Option<seq<CatalogImage>>,
    items: Option<BlockItems>)

  /** `content.items`: a list for feature and benefit blocks, an object for a specification block. */
  datatype BlockItems = ListItems(list: seq<string>) | SpecItems(specs: Dict)

  datatype BlockSettings = BlockSettings(
    columns: Option<int>,
    style: Option<string>,
    backgroundColor: Option<string>,
    textColor: Option<string>)

  const NoSettings := BlockSettings(None, None, None, None)

  datatype ContentBlock = ContentBlock(
    id: string,
    kind: BlockType,
    content: BlockContent,
    settings: Option<BlockSettings>)

  datatype CatalogData = CatalogData(
    product: ProductData,
    generatedContent: GeneratedContent,
    layout: Layout,
    images: seq<CatalogImage>,
    contentBlocks: Option<seq<ContentBlock>>)

  /** A marker in a row of steps: done before the current step, active at it, pending after it. */
  datatype Marker = Completed | Active | Pending

  function MarkerAt(index: nat, current: nat): (m: Marker)
    ensures m == Completed <==> index < current
    ensures m == Active <==> index == current
    ensures m == Pending <==> index > current
  {
    if index < current then Completed
    else if index == current then Active
    else Pending
  }

  /** Each image's `position` is its index in the list. */
  predicate Positioned(images: seq<CatalogImage>) {
    forall i :: 0 <= i < |images| ==> images[i].position == i
  }

  const MockSpecs: Dict := Dict(
    ["Battery Life", "Bluetooth", "Weight", "Color"],
    map["Battery Life" := "30 hours", "Bluetooth" := "5.2", "Weight" := "250g", "Color" := "Black"])

  const MockImages: seq<CatalogImage> := [
    CatalogImage("img1", "https://images.unsplash.com/photo-1511367461989-f85a21fda167?auto=format&fit=crop&w=600&q=80", "Wireless headphones on a table", 0),
    CatalogImage("img2", "https://images.unsplash.com/photo-1517841905240-472988babdf9?auto=format&fit=crop&w=600&q=80", "Person wearing wireless headphones", 1),
    CatalogImage("img3", "https://images.unsplash.com/photo-1465101046530-73398c7f28ca?auto=format&fit=crop&w=600&q=80", "Close-up of headphone earcup", 2)]

  const MockTitle := "Modern Wireless Headphones"
  const MockDescription := "Experience high-fidelity sound with these modern wireless headphones. Perfect for music lovers and professionals."
  const MockPrice := "$199.99"

  const MockFeatures: seq<string> := [
    "Wireless Bluetooth 5.2 connectivity",
    "Up to 30 hours battery life",
    "Lightweight and comfortable design",
    "High-fidelity sound quality"]

  const MockBenefits: seq<string> := [
    "Enjoy music without tangled wires",
    "Long-lasting battery for all-day use",
    "Comfortable for extended wear",
    "Crystal clear audio for immersive experience"]

  /** The sample images are numbered by position. */
  lemma MockImagesPositioned()
    ensures Positioned(MockImages)
  {
  }

  const NoContent := BlockContent(None, None, None, None)

  /** The sample's seven blocks: gallery, title, description, price, features, specifications, benefits. */
  function MockBlocks(): (bs: seq<ContentBlock>)
    ensures |bs| == 7 && bs[0].content.images == Some(MockImages)
    ensures bs[1].content.text == Some(MockTitle) && bs[2].content.text == Some(MockDescription)
  {
    [ContentBlock("block1", ImageGalleryBlock, NoContent.(images := Some(MockImages)), Some(NoSettings.(columns := Some(3)))),
     ContentBlock("block2", TitleBlock, NoContent.(text := Some(MockTitle)), None),
     ContentBlock("block3", DescriptionBlock, NoContent.(text := Some(MockDescription)), None),
     ContentBlock("block4", PriceBlock, NoContent.(value := Some(MockPrice)), None),
     ContentBlock("block5", FeaturesBlock, NoContent.(items := Some(ListItems(MockFeatures))), Some(NoSettings.(style := Some("list")))),
     ContentBlock("block6", SpecificationsBlock, NoContent.(items := Some(SpecItems(MockSpecs))), Some(NoSettings.(style := Some("table")))),
     ContentBlock("block7", BenefitsBlock, NoContent.(items := Some(ListItems(MockBenefits))), Some(NoSettings.(style := Some("cards"))))]
  }

  /** The sample catalog the front end ships for previews. */
  function MockCatalog(): (c: CatalogData)
    ensures c.images == MockImages
    ensures c.product.specifications == Some(c.generatedContent.specifications)
    ensures c.product.title == Some(c.generatedContent.title)
    ensures c.contentBlocks == Some(MockBlocks())
  {
    var extracted := [MockImages[0].url, MockImages[1].url, MockImages[2].url];
    var product := ProductData(
      "https://www.example.com/product/123", Some(MockTitle), Some(MockDescription), Some(MockPrice),
      Some(MockSpecs), Files([]), true, Some(extracted), None, None, None);
    var content := GeneratedContent(MockTitle, MockDescription, MockSpecs, MockFeatures, MockBenefits, None, None, None, None, None);
    CatalogData(product, content, Layout(Modern, Blue, Sans), MockImages, Some(MockBlocks()))
  }

  /** In the sample, every image's position is its index and the gallery block shows the catalog's images. */
  lemma MockCatalogConsistent()
    ensures Positioned(MockCatalog().images)
    ensures MockCatalog().contentBlocks.value[0].content.images == Some(MockCatalog().images)
  {
    MockImagesPositioned();
  }
}

=== FILE: wrap.dfy ===
/**
 * The export route's word wrapper: the text is split at single spaces and
 * the words are packed greedily into lines. A word joins the current line
 * when the line and the word together, without the joining space, fit the
 * limit; so a packed line can be one character longer than the limit. A
 * word that does not fit on an empty line becomes a line of its own.
 */
module Wrap {
  import opened Str

  /** The lines finished so far and the line being filled ("" when none). */
  datatype Packing = Packing(lines: seq<string>, current: string)

  /** One iteration of the packing loop. */
  function Step(p: Packing, word: string, maxLength: nat): Packing {
    if |p.current + word| <= maxLength then
      Packing(p.lines, p.current + (if p.current != "" then " " else "") + word)
    else if p.current != "" then
      Packing(p.lines + [p.current], word)
    else
      Packing(p.lines + [word], "")
  }

  /** The packing loop over `words`, from `p`. */
  function Pack(p: Packing, words: seq<string>, maxLength: nat): Packing
    decreases |words|
  {
    if |words| == 0 then p else Pack(Step(p, words[0], maxLength), words[1..], maxLength)
  }

  /** The finished lines once the current line, if any, is pushed. */
  function Flush(p: Packing): seq<string> {
    if p.current != "" then p.lines + [p.current] else p.lines
  }

  /** `wrapText(text, maxLength)`. */
  function WrapText(text: string, maxLength: nat): seq<string> {
    Flush(Pack(Packing([], ""), Split(text, ' '), maxLength))
  }

  /** The words of `text` between single spaces. */
  function Words(text: string): seq<string> {
    Split(text, ' ')
  }

  /** A line the packing may produce: a single word, or at most one character over the limit. */
  predicate FitsLine(line: string, maxLength: nat) {
    ' ' !in line || |line| <= maxLength + 1
  }

  /** What every state of the packing loop satisfies. */
  predicate PackingOk(p: Packing, maxLength: nat) {
    && (forall i :: 0 <= i < |p.lines| ==> p.lines[i] != "" && FitsLine(p.lines[i], maxLength))
    && FitsLine(p.current, maxLength)
  }

  lemma {:induction false} PackKeepsOk(p: Packing, words: seq<string>, maxLength: nat)
    requires PackingOk(p, maxLength)
    requires forall i :: 0 <= i < |words| ==> ' ' !in words[i]
    ensures PackingOk(Pack(p, words, maxLength), maxLength)
    decreases |words|
  {
    if |words| > 0 {
      var q := Step(p, words[0], maxLength);
      assert PackingOk(q, maxLength) by {
        if |p.current + words[0]| <= maxLength {
          if p.current == "" {
            assert q.current == words[0];
          }
        } else if p.current == "" {
          assert q.lines[|q.lines| - 1] == words[0];
          assert words[0] != "";
        }
      }
      PackKeepsOk(q, words[1..], maxLength);
    }
  }

  /**
   * Every line is non-empty, and a line holding more than one word is at
   * most one character longer than the limit.
   */
  lemma WrapLines(text: string, maxLength: nat)
    ensures forall i :: 0 <= i < |WrapText(text, maxLength)| ==>
      WrapText(text, maxLength)[i] != "" && FitsLine(WrapText(text, maxLength)[i], maxLength)
  {
    PackKeepsOk(Packing([], ""), Split(text, ' '), maxLength);
  }

  /** An empty text wraps to no lines at all. */
  lemma WrapEmpty(maxLength: nat)
    ensures WrapText("", maxLength) == []
  {
    assert Split("", ' ') == [""];
    var start := Packing([], "");
    assert Step(start, "", maxLength) == start;
    assert Pack(start, [""], maxLength) == Pack(start, [""][1..], maxLength);
  }

  /** `s` followed by `w`, with a space between them when `s` is not empty. */
  function Attach(s: string, w: string): string {
    if s == "" then w else s + " " + w
  }

  /** Joining non-empty parts gives the empty string exactly when there are none. */
  lemma {:induction false} JoinEmpty(parts: seq<string>)
    requires forall i :: 0 <= i < |parts| ==> parts[i] != ""
    ensures Join(parts, " ") == "" <==> parts == []
  {
    if |parts| == 1 {
      assert Join(parts, " ") == parts[0];
    } else if |parts| > 1 {
      assert Join(parts, " ") == parts[0] + " " + Join(parts[1..], " ");
    }
  }

  /** Joining one more part attaches it. */
  lemma JoinAttach(parts: seq<string>, w: string)
    requires forall i :: 0 <= i < |parts| ==> parts[i] != ""
    ensures Join(parts + [w], " ") == Attach(Join(parts, " "), w)
  {
    JoinEmpty(parts);
    if |parts| == 0 {
      assert parts + [w] == [w];
    } else {
      JoinSnoc(parts, w, " ");
    }
  }

  /** One step of the packing attaches the word to the flushed text. */
  lemma StepAttaches(p: Packing, word: string, maxLength: nat)
    requires forall i :: 0 <= i < |p.lines| ==> p.lines[i] != ""
    requires word != ""
    ensures forall i :: 0 <= i < |Step(p, word, maxLength).lines| ==> Step(p, word, maxLength).lines[i] != ""
    ensures Join(Flush(Step(p, word, maxLength)), " ") == Attach(Join(Flush(p), " "), word)
  {
    var q := Step(p, word, maxLength);
    var f := Flush(p);
    assert forall i :: 0 <= i < |f| ==> f[i] != "";
    if |p.current + word| <= maxLength {
      if p.current == "" {
        assert q.current == word;
        assert Flush(q) == f + [word];
        JoinAttach(f, word);
      } else {
        JoinAttach(p.lines, p.current);
        JoinAttach(p.lines, p.current + " " + word);
        JoinEmpty(p.lines);
      }
    } else if p.current != "" {
      assert Flush(q) == f + [word];
      JoinAttach(f, word);
    } else {
      assert Flush(q) == f + [word];
      JoinAttach(f, word);
    }
  }

  lemma {:induction false} PackJoins(p: Packing, words: seq<string>, maxLength: nat)
    requires forall i :: 0 <= i < |p.lines| ==> p.lines[i] != ""
    requires forall i :: 0 <= i < |words| ==> words[i] != ""
    ensures Join(Flush(Pack(p, words, maxLength)), " ") == Attach(Join(Flush(p), " "), Join(words, " ")) || words == []
    ensures words == [] ==> Pack(p, words, maxLength) == p
    decreases |words|
  {
    if |words| > 0 {
      var q := Step(p, words[0], maxLength);
      StepAttaches(p, words[0], maxLength);
      PackJoins(q, words[1..], maxLength);
      assert Pack(p, words, maxLength) == Pack(q, words[1..], maxLength);
      if |words| == 1 {
        assert Join(words, " ") == words[0];
      } else {
        assert Join(words, " ") == words[0] + " " + Join(words[1..], " ");
        JoinEmpty(words[1..]);
        AttachAttach(Join(Flush(p), " "), words[0], Join(words[1..], " "));
      }
    }
  }

  /** Attaching a non-empty word and then more text is attaching both at once. */
  lemma AttachAttach(s: string, w: string, t: string)
    requires w != ""
    ensures Attach(Attach(s, w), t) == Attach(s, w + " " + t)
  {
  }

  /**
   * When no word is empty (no leading, trailing or doubled space, and the
   * text is not empty), joining the lines with single spaces gives the text
   * back: wrapping only chooses where the line breaks go.
   */
  lemma WrapRoundTrip(text: string, maxLength: nat)
    requires forall i :: 0 <= i < |Words(text)| ==> Words(text)[i] != ""
    ensures Join(WrapText(text, maxLength), " ") == text
  {
    var words := Split(text, ' ');
    assert words == Words(text);
    PackJoins(Packing([], ""), words, maxLength);
    assert Join(words, [' ']) == text;
    assert [' '] == " ";
  }
}

=== FILE: wrappers.dfy ===
/** Optional values and outcomes shared by every module of the model. */
module Wrappers {

  /** A value that may be missing: JavaScript's `null` / `undefined`. */
  datatype Option<+T> = None | Some(value: T) {

    /** The value, or `default` when there is none. */
    function GetOr(default: T): T {
      match this
      case Some(v) => v
      case None => default
    }
  }

  /** The result of an operation that may throw: `Err` carries the error message. */
  datatype Result<+T> = Ok(value: T) | Err(message: string)
}
